=== FILE: README.md ===
# A model of the Yofardev Toolbox core

The Yofardev Toolbox is a desktop launcher for small Python image and media
scripts. Each script declares a `NAME`, `DESCRIPTION`, `INPUT_TYPES`,
`PARAMETERS` and a `process_files` function. This project models in Dafny
the parts of the toolbox that hold its logic:

- the script catalogue and the structural validator (`ScriptManager`, `ScriptValidation`);
- script generation by a language model (`LlmGenerator`);
- the registry of model endpoints (`LlmConfig`);
- the version history of scripts (`ScriptVersions`);
- the construction of a run's command line (`ScriptExecution`);
- the input-type strings and the folder filter (`FileHandling`);
- the main window's file list and run bookkeeping (`MainWindow`);
- four bundled scripts:
  - the boomerang animation (`Boomerang`);
  - PDF pages to images (`PdfToImages`);
  - background removal (`RemoveBackground`);
  - video frames to images (`VideoToImages`).

Three helper modules support them. `Optional` is an Option type. `Strings`
holds the Python string and path operations used: lower, strip, split,
find, `os.path.join`, basename, stem, suffix, `str(n)` and zero padding.
`Sorting` holds Python's string order and a sort.

The model takes the source's own form. Objects whose methods update fields
are classes whose methods state their whole new state:
`ScriptManager.Catalogue`, `LlmConfig.LlmStore`,
`ScriptVersions.VersionStore` and `MainWindow.App`. Loops are methods with
invariants, proved against recursive specification functions. Pure
computations are functions with lemmas.

The outside world becomes parameters:

- the file system: a directory listing, a walk, file contents, and how a write ends (completed, failed before the file is opened, or failed after `open(..., "w")` has truncated it);
- imports and `exec`: their outcomes;
- HTTP replies;
- the clock: a timestamp string;
- the home directory;
- decoding and encoding of images, PDFs and videos: their outcomes.

## Model

| member | source | states |
|---|---|---|
| ScriptValidation.FirstMissing | core/llm_generator.py:255-258 | None exactly when every required variable is bound; otherwise one of the required names |
| ScriptValidation.Validate | core/llm_generator.py:236-280 | valid exactly when the code ran and the namespace is well formed, and valid exactly when the message is empty; syntax and runtime errors are reported with their prefixes (same code as core/script_manager.py:115-157) |
| ScriptValidation.MissingVariableFirst | core/llm_generator.py:255-258 | the first missing required variable is what gets reported, before any type check |
| ScriptValidation.ParametersCheckedBeforeFunctions | core/llm_generator.py:256-270 | with every variable present and NAME usable, a non-list PARAMETERS gives "PARAMETERS must be a list" |
| ScriptValidation.NameCheckedBeforeParameters | core/llm_generator.py:255-262 | with every variable present, a NAME that is not a string or is blank once stripped gives "NAME must be a non-empty string", whatever PARAMETERS and the functions are (same order at core/script_manager.py:132-139) |
| ScriptValidation.MainCheckedBeforeProcessFiles | core/llm_generator.py:255-270 | with the variables present, NAME usable and PARAMETERS a list, a missing or uncallable `main` gives "Missing required function: main()", whatever `process_files` is (same order at core/script_manager.py:132-147) |
| ScriptValidation.ProcessFilesCheckedLast | core/llm_generator.py:255-273 | every earlier check passing, a missing or uncallable `process_files` gives "Missing required function: process_files()" (same order at core/script_manager.py:132-150) |
| ScriptValidation.TemplateScriptAccepted | core/llm_generator.py:236-280 | a namespace like the creation template's is accepted |
| LlmGenerator.KeepSlugChars | core/llm_generator.py:364-365 | only `[a-z0-9_]` characters remain, and the result is no longer than the input |
| LlmGenerator.KeepSlugCharsOne | core/llm_generator.py:365 | one character is kept exactly when it is in `[a-z0-9_]` |
| LlmGenerator.KeepSlugCharsAppend | core/llm_generator.py:365 | the character filter distributes over concatenation |
| LlmGenerator.SanitizeSnoc | core/llm_generator.py:362-365 | the file name of a name one character longer is the file name of the shorter one followed by what that character (lower-cased, a space as "_") contributes |
| LlmGenerator.SanitizeFilename | core/llm_generator.py:351-366 | the file name is made of `[a-z0-9_]` and is no longer than the script name |
| LlmGenerator.SanitizeFixedPoints | core/llm_generator.py:351-366 | a name is left unchanged exactly when it is already made of `[a-z0-9_]` |
| LlmGenerator.SanitizeIdempotent | core/llm_generator.py:351-366 | sanitizing twice equals sanitizing once |
| LlmGenerator.SanitizeExample | core/llm_generator.py:351-366 | "Background Remover" becomes "background_remover" |
| LlmGenerator.ExtractCode | core/llm_generator.py:214-234 | the extracted code has no surrounding whitespace; a reply without a fence is taken whole, stripped |
| LlmGenerator.GroupFrom | core/llm_generator.py:227-231 | the captured group, once stripped, neither starts nor ends with whitespace, whether or not a closing fence follows |
| LlmGenerator.ExtractOpened | core/llm_generator.py:227-231 | when the first fence of the reply is at `o`, the group is read from just after the fence, or after "python" when the tag follows the fence, once the whitespace after it is skipped |
| LlmGenerator.OpeningFence | core/llm_generator.py:227-231 | in a reply that opens with prose free of backquotes, then a fence, a tag that is empty or "python" and a newline, the first fence is the one after the prose, "python" follows it exactly when the tag is "python", and the line ends in a newline |
| LlmGenerator.ClosingFence | core/llm_generator.py:227-231 | code free of "```" followed by a newline and a fence: that fence is the first one from the start of the code on, and it follows the code's closing newline |
| LlmGenerator.GroupBeforeFence | core/llm_generator.py:227-231 | when the first fence from `w` on follows a newline at `e`, the group is the text from `w` up to that newline, stripped |
| LlmGenerator.GroupAtFence | core/llm_generator.py:227-231 | when a fence sits right where the whitespace ends, the group is empty |
| LlmGenerator.GroupOfLayout | core/llm_generator.py:227-231 | when the code is followed by a newline and a fence, with no fence before that one, the group, stripped, is the code stripped, however much of the code's leading whitespace the pattern's `\s*` swallowed |
| LlmGenerator.UnfencedReply | core/llm_generator.py:231-234 | a reply containing no "```" gives the stripped reply |
| LlmGenerator.FencedReplyExtracted | core/llm_generator.py:226-231 | for any prose free of backquotes, a tag that is empty or "python", code free of "```" and any text after the closing fence, extracting from prose + "```" + tag + "\n" + code + "\n```" + text gives the stripped code back |
| LlmGenerator.ChoosePrompt | core/llm_generator.py:301-310 | the edit template is used exactly when a non-empty existing script is given, and it carries that script and the user prompt |
| LlmGenerator.Messages | core/llm_generator.py:312-321 | exactly two messages: the fixed system instruction, then the chosen prompt |
| LlmGenerator.GenerateScript | core/llm_generator.py:282-349 | an API failure becomes ApiError with its message; returned code is the extraction of the reply and passes validation; a failed validation becomes ValidationError with the validator's message in the fixed text |
| LlmGenerator.GeneratedNameIsScriptName | core/llm_generator.py:339-349 | returned code ran, has a usable NAME, and the name and description returned are the script's own, so the defaults are never used |
| ScriptManager.Entry | core/script_manager.py:39-46 | the entry's file name is the listing name without ".py"; each attribute's own fallback is stated by EntryFallbacks |
| ScriptManager.EntryFallbacks | core/script_manager.py:39-46 | for any mix of declared and undeclared attributes, each declared attribute is taken as it is and each undeclared one takes its own default: the file stem as name, "No description available.", no input types, no parameters, and accepting several files |
| ScriptManager.EntryOfBundledScript | core/script_manager.py:39-46 | a script declaring NAME, DESCRIPTION, INPUT_TYPES and PARAMETERS but not ACCEPTS_MULTIPLE_FILES, as every bundled script does, is listed with what it declares and accepts several files |
| ScriptManager.EntryDefaults | core/script_manager.py:39-46 | a script that declares nothing gets the file stem as name and the documented defaults |
| ScriptManager.EntryDeclared | core/script_manager.py:39-46 | declared attributes are taken as they are |
| ScriptManager.Collect | core/script_manager.py:29-48 | at most one entry per listed file |
| ScriptManager.CollectSound | core/script_manager.py:29-46 | every entry comes from an admitted listing file whose import succeeded |
| ScriptManager.CollectComplete | core/script_manager.py:29-46 | every admitted file whose import succeeds is loaded |
| ScriptManager.CollectKeepsOrder | core/script_manager.py:29-46 | entries keep the order of a sorted listing |
| ScriptManager.LoadedScriptsSorted | core/script_manager.py:15-51 | `load_scripts` lists entries in sorted file order |
| ScriptManager.FirstNamed | core/script_manager.py:53-69 | the index of the first entry with the name; None exactly when no entry has it |
| ScriptManager.FirstWithFile | core/script_manager.py:71-87 | the index of the first entry with the file name; None exactly when no entry has it |
| ScriptManager.Filtered | core/script_manager.py:103-113 | never longer than the input |
| ScriptManager.FilteredSubsequence | core/script_manager.py:103-113 | the filter keeps the input's order: its result is a subsequence of the input |
| ScriptManager.FilteredMembers | core/script_manager.py:103-113 | an entry is kept exactly when it is in the input and its lower-cased name or description contains the query |
| ScriptManager.FilteredAll | core/script_manager.py:103-113 | when every entry matches, the input comes back unchanged |
| ScriptManager.BlankQueryKeepsAll | core/script_manager.py:100-113 | a query made only of blanks keeps every entry |
| ScriptManager.Catalogue.constructor | core/script_manager.py:12-13 | the cache starts empty |
| ScriptManager.CollectFiles | core/script_manager.py:29-48 | the loop collects exactly Collect: one entry per admitted file whose import succeeds, in listing order |
| ScriptManager.Catalogue.LoadScripts | core/script_manager.py:15-51 | the result is the sorted loadable listing, and it replaces the cache |
| ScriptManager.Catalogue.EnsureLoaded | core/script_manager.py:63-64 | the catalogue is loaded only when the cache is empty |
| ScriptManager.Catalogue.GetScriptByName | core/script_manager.py:53-69 | the first cached entry with that name, or None exactly when there is none |
| ScriptManager.Catalogue.GetScriptByFilename | core/script_manager.py:71-87 | the first cached entry with that file name, or None exactly when there is none |
| ScriptManager.Catalogue.GetAll | core/script_manager.py:159-163 | the cache, loaded first when empty |
| ScriptManager.FilterMatching | core/script_manager.py:104-113 | the loop collects exactly the Filtered entries: those whose lower-cased name or description contains the query, in order |
| ScriptManager.Catalogue.FilterScripts | core/script_manager.py:89-113 | an empty query returns the input; otherwise exactly the matching entries, in order |
| LlmConfig.AllLlms | config/llm_config.py:36-56 | the stored list with each entry marked current exactly when its id is the stored current id; without a readable file, the defaults with the first one current |
| LlmConfig.FirstMarked | config/llm_config.py:67-69 | the first entry marked current; None exactly when none is marked |
| LlmConfig.CurrentOf | config/llm_config.py:59-71 | the first marked entry, else the first entry; None exactly for an empty list |
| LlmConfig.CurrentWithoutFile | config/llm_config.py:18-71 | without a configuration file the first default is current |
| LlmConfig.IdsOfEntries | config/llm_config.py:133 | the ids the unique-id loop compares against are exactly the ids of the stored entries |
| LlmConfig.IdsCount | config/llm_config.py:127-135 | there are never more ids than configurations, and exactly as many precisely when no two configurations share an id |
| LlmConfig.IdsSnoc | config/llm_config.py:133 | the ids of a list are those of all but its last configuration plus the last one's |
| LlmConfig.UniqueSnoc | config/llm_config.py:127-135 | a list has unique ids exactly when all but its last configuration do and the last id is not among theirs |
| LlmConfig.PersistedCurrentId | config/llm_config.py:88-97 | the saved current id is the id of the first entry marked current when that id is non-empty, and otherwise the id of the first entry; it is always the id of an entry of the list, and None exactly for an empty list |
| LlmConfig.SaveLoadRoundTrip | config/llm_config.py:74-111 | a list with unique ids and exactly one current entry with a non-empty id reads back unchanged after saving |
| LlmConfig.SaveKeepsCurrent | config/llm_config.py:74-111 | saving keeps every entry, and the current configuration stays current |
| LlmConfig.BaseId | config/llm_config.py:130 | the id stem is as long as the name and holds no space or "/" |
| LlmConfig.BaseIdExample | config/llm_config.py:130 | "OpenAI GPT-4o" gives "openai-gpt-4o" |
| LlmConfig.Candidate | config/llm_config.py:131-135 | every id tried starts with the stem |
| LlmConfig.CandidateInjective | config/llm_config.py:131-135 | different attempts try different ids |
| LlmConfig.CandidatesTaken | config/llm_config.py:131-135 | when the first m attempts are all taken, at least m ids are in use, so the loop ends |
| LlmConfig.FreshId | config/llm_config.py:130-135 | the id found is not in use and starts with the stem |
| LlmConfig.FreshIdIsFirstFree | config/llm_config.py:130-135 | a free stem is used as it is; otherwise the id is the stem followed by "-k" |
| LlmConfig.Added | config/llm_config.py:114-148 | the new configuration is appended, not current, with an id not in use; unique ids stay unique |
| LlmConfig.FirstWithId | config/llm_config.py:167-168 | the first configuration with the id; None exactly when none has it |
| LlmConfig.Updated | config/llm_config.py:151-175 | only the found configuration changes: its fields are replaced, and its id and marker are kept |
| LlmConfig.Without | config/llm_config.py:202 | what is left holds no configuration with the id |
| LlmConfig.WithoutMembers | config/llm_config.py:202 | a configuration remains exactly when it was there and has another id |
| LlmConfig.WithoutCount | config/llm_config.py:202 | with unique ids, deleting a present id removes exactly one entry; an absent id removes none |
| LlmConfig.WithoutAbsent | config/llm_config.py:202 | removing an id that no configuration has changes nothing |
| LlmConfig.DeleteKeepsOne | config/llm_config.py:178-208 | with unique ids and at least two configurations, at least one remains and the id is gone |
| LlmConfig.DeleteCurrentMovesToFirst | config/llm_config.py:194-206 | deleting the current configuration makes the first remaining one current |
| LlmConfig.Selected | config/llm_config.py:211-227 | the same entries, marked current exactly when they have the id |
| LlmConfig.SelectPersists | config/llm_config.py:211-227 | after selecting a present non-empty id, that id is the saved current id; an absent id saves the first entry as current |
| LlmConfig.LlmStore.constructor | config/llm_config.py:13-14 | the store holds the given file |
| LlmConfig.LlmStore.GetAllLlms | config/llm_config.py:36-56 | the marked list read from the file |
| LlmConfig.LlmStore.GetCurrentLlm | config/llm_config.py:59-71 | the current configuration of the file |
| LlmConfig.LlmStore.SaveLlms | config/llm_config.py:74-111 | True exactly when the write completes, and the file then holds the entries and the current id; a failure before the open leaves the old file, a failure after the truncation leaves an undecodable one |
| LlmConfig.ReadAfterSave | config/llm_config.py:36-56 | the next read after a save gives the saved list when the write completed, the earlier list when it failed before the open, and the two defaults when it failed after the truncation |
| LlmConfig.LlmStore.UniqueId | config/llm_config.py:130-135 | the loop settles on the first free candidate id |
| LlmConfig.LlmStore.AddLlm | config/llm_config.py:114-148 | True exactly when the write completes; the list with the new configuration appended is what the write puts in the file (old file or undecodable file on the two failures, as for SaveLlms) |
| LlmConfig.LlmStore.UpdateLlm | config/llm_config.py:151-175 | False and no write for an unknown id; otherwise the updated list is written, True exactly when the write completes, with the two failures as for SaveLlms |
| LlmConfig.FirstIsCurrent | config/llm_config.py:194-199 | the flag is the marker of the first configuration with the id, and false when no configuration has it |
| LlmConfig.KeepOthers | config/llm_config.py:201-202 | the kept list is exactly the configurations whose id differs, in their order |
| LlmConfig.DeleteFromList | config/llm_config.py:194-206 | the list `delete_llm` saves is Deleted: every configuration with the id removed, and the first kept one marked current when the first removed one was current |
| LlmConfig.LlmStore.DeleteLlm | config/llm_config.py:178-208 | False and no write with at most one configuration; otherwise the list without the id is written, with the first entry current if the current one was deleted; True exactly when the write completes, with the two failures as for SaveLlms |
| LlmConfig.LlmStore.SetCurrentLlm | config/llm_config.py:211-227 | the list marked for the id is written; True exactly when the write completes, with the two failures as for SaveLlms |
| LlmConfig.ReadIdsUnique | config/llm_config.py:35-56 | the list read back has unique ids when the stored list has, and the two defaults have different ids |
| LlmConfig.OperationsKeepIdsUnique | config/llm_config.py:114-227 | add, update, delete and select all save a list whose ids are unique when the list they started from had unique ids |
| ScriptVersions.LoadedVersions | core/script_version_manager.py:67-76 | an absent or unreadable metadata file reads as no versions |
| ScriptVersions.VersionDefaults | core/script_version_manager.py:18-28 | missing metadata reads as "", "No description" and "unknown" |
| ScriptVersions.MaxOf | core/script_version_manager.py:113-114 | the largest version number |
| ScriptVersions.KeysDesc | core/script_version_manager.py:140 | the version numbers, each once, in strictly decreasing order |
| ScriptVersions.NextVersion | core/script_version_manager.py:113-114 | greater than every existing number; 1 for an empty history; otherwise one above the largest |
| ScriptVersions.BackupNameShape | core/script_version_manager.py:117-124 | a backup file "v<n>_<timestamp>.py" starts with "v", the version number and "_", and ends in ".py" |
| ScriptVersions.PruneFromShape | core/script_version_manager.py:139-147 | pruning succeeds exactly when every pruned version names its backup file; it then removes those versions and their files and leaves the other versions unchanged |
| ScriptVersions.PruneOldest | core/script_version_manager.py:140-147 | the pruning loop over the versions past the ten newest ends as PruneFrom: all of them dropped with their files, or a stop at the first without "backup_file" with the files deleted so far |
| ScriptVersions.PruneHistoryKeepsNewest | core/script_version_manager.py:139-147 | when pruning goes through, at most ten versions remain, the newest ones, each unchanged |
| ScriptVersions.BackupNeedsScript | core/script_version_manager.py:105-107 | without the script nothing is backed up and nothing changes |
| ScriptVersions.DescendingCut | core/script_version_manager.py:140-142 | the versions kept are the ten newest |
| ScriptVersions.BackupNumbering | core/script_version_manager.py:113-137 | a backup is numbered one above every earlier version and recorded with its time, description, editor and file |
| ScriptVersions.BackupKeepsNewest | core/script_version_manager.py:131-147 | afterwards at most ten versions remain: the new one and the newest earlier ones, unchanged |
| ScriptVersions.BackupWithRoom | core/script_version_manager.py:127-149 | below ten versions nothing is pruned: the new backup is added and the old ones stay |
| ScriptVersions.ListUpToMembers | core/script_version_manager.py:171-181 | a version is listed exactly when its metadata names a backup file that exists |
| ScriptVersions.ListUpToDescending | core/script_version_manager.py:183-184 | the listing is newest first |
| ScriptVersions.ListedVersionsSpec | core/script_version_manager.py:157-185 | `get_versions` lists exactly the versions whose backup exists, newest first |
| ScriptVersions.PruneOfElevenDropsOldest | core/script_version_manager.py:139-147 | with eleven versions, pruning removes exactly the oldest one and its file |
| ScriptVersions.FullBackupDropsOldest | core/script_version_manager.py:126-147 | a backup made while ten versions are kept removes the oldest one and deletes its file |
| ScriptVersions.RestoringOldestOfFullHistoryFails | core/script_version_manager.py:187-216 | as written, restoring the oldest of ten versions deletes its backup first, then fails |
| ScriptVersions.RestoreListedSucceeds | core/script_version_manager.py:187-216 | corrected: every listed version restores, the script then holds its backup, and the "auto" backup is recorded |
| ScriptVersions.VersionStore.constructor | core/script_version_manager.py:45-46 | the store holds the given disk state |
| ScriptVersions.VersionStore.CreateBackup | core/script_version_manager.py:88-155 | the disk afterwards and the version made are those of the backup specification |
| ScriptVersions.VersionStore.GetVersions | core/script_version_manager.py:157-185 | the listed versions |
| ScriptVersions.VersionStore.RestoreVersion | core/script_version_manager.py:187-216 | the corrected restore: the disk and the result are those of RestoreSpec |
| ScriptVersions.VersionStore.DeleteAllVersions | core/script_version_manager.py:218-227 | metadata and backups are gone and the script is untouched |
| ScriptVersions.DeletedHistoryRestarts | core/script_version_manager.py:218-227 | after deleting, nothing is listed and the next backup is number 1 |
| ScriptExecution.DefFor | core/script_executor.py:95-98 | the first definition with the name; None exactly when none has it |
| ScriptExecution.ParamTokens | core/script_executor.py:93-104 | a boolean parameter adds "--name" only when truthy; any other adds "--name" and its text |
| ScriptExecution.ParamsTokensAppend | core/script_executor.py:93-104 | the parameter tokens of two parts are the tokens of each, concatenated |
| ScriptExecution.ParamPlacement | core/script_executor.py:93-104 | each parameter's tokens come right after those of the parameters before it |
| ScriptExecution.SingleOutputPath | core/script_executor.py:86-88 | a single-file script's output path ends in ".jpg" inside the output directory |
| ScriptExecution.CommandLayout | core/script_executor.py:61-106 | the command is "python", the script, the files, then the parameters; a single-file script gets at most the first file and one ".jpg" output path |
| ScriptExecution.InputTokens | core/script_executor.py:82-91 | the file tokens of the command |
| ScriptExecution.BuildCommand | core/script_executor.py:61-106 | the command line as specified by Command |
| ScriptExecution.OutputSlug | core/script_executor.py:44-45 | same length as the name, no upper case, no space: spaces become "_" and letters are lowercased |
| ScriptExecution.OutputSlugIdempotent | core/script_executor.py:44-45 | a slug is its own slug |
| ScriptExecution.OutputDir | core/script_executor.py:44-47 | the output directory is under the downloads directory and ends with the slug |
| FileHandling.ParseInputTypes | core/file_handler.py:58-83 | nothing for ""; otherwise the declared pair when there is a "(", then "All Files" |
| FileHandling.Cleaned | core/file_handler.py:98 | no ")", "*" or "," remains, and only characters of the segment |
| FileHandling.GetFileExtensions | core/file_handler.py:85-102 | nothing without "("; every extension is a non-empty word free of "(", ")", "*", "," and whitespace |
| FileHandling.ExtensionsOfDeclared | core/file_handler.py:85-102 | for "desc(patterns" the extensions are the words of the cleaned patterns |
| FileHandling.TwoExtensions | core/file_handler.py:85-102 | "desc(*a *b)" gives exactly [a, b] |
| FileHandling.ImagesExample | core/file_handler.py:85-102 | "Images (*.png *.jpg)" gives [".png", ".jpg"] |
| FileHandling.DirImagesMembers | core/file_handler.py:52-55 | a path is collected from a directory exactly when it joins the directory with one of its accepted files |
| FileHandling.FolderImagesMembers | core/file_handler.py:39-56 | a path is collected exactly when it joins a walked directory with one of its accepted files |
| FileHandling.FolderImagesCount | core/file_handler.py:39-56 | never more paths than files walked; every file when the filter accepts everything |
| FileHandling.ExtensionFilterCount | core/file_handler.py:39-56 | with the extension filter, never more paths than files walked; without extensions, every file |
| FileHandling.AcceptsAll | core/file_handler.py:53 | without extensions every file is accepted |
| FileHandling.GetImagesFromFolder | core/file_handler.py:39-56 | the loops collect exactly FolderImages under the extension filter |
| MainWindow.RemovedSpec | ui/app.py:404-408 | an out-of-range index changes nothing; an in-range one removes exactly that entry, shifting the rest |
| MainWindow.RemovedDistinct | ui/app.py:404-408 | removing keeps the list free of duplicates, and the removed path is then gone |
| MainWindow.AppendNewSpec | ui/app.py:432-434 | existing files stay first and in order; the result holds exactly the old and the chosen paths |
| MainWindow.AppendNewDistinct | ui/app.py:432-434 | appending keeps the list free of duplicates |
| MainWindow.AppendNewPresent | ui/app.py:432-434 | adding paths that are all present changes nothing |
| MainWindow.AppendNewTwice | ui/app.py:432-434 | adding the same paths twice equals adding them once |
| MainWindow.FileTypesSpec | ui/app.py:437-448 | the dialog's list always ends with "All Files": only that for an empty INPUT_TYPES, otherwise `parse_input_types` |
| MainWindow.Names | ui/app.py:299-342 | the parameter names, in order |
| MainWindow.CollectedSpec | ui/app.py:482-491 | one parameter per widget, in order; a boolean one is a flag set exactly when its switch is on; any other gives its widget's text |
| MainWindow.WidgetKeys | ui/app.py:288-342 | the widget keys are the parameter names without repeats |
| MainWindow.CollectParams | ui/app.py:482-491 | the loop builds exactly Collected |
| MainWindow.App.constructor | ui/app.py:40-45 | no script, no files, no widgets, and the run button disabled (created with state "disabled" at ui/app.py:218-227), so the run-button rule holds from the start |
| MainWindow.App.UpdateFileListUi | ui/app.py:362-402 | the run button is enabled exactly when files are selected |
| MainWindow.App.LoadScriptDetails | ui/app.py:258-358 | the script becomes current, one widget per distinct parameter name, the file list empties and the button follows it |
| MainWindow.App.RemoveFile | ui/app.py:404-408 | the list is Removed(old list, index); the button rule and distinctness are preserved |
| MainWindow.App.ClearFiles | ui/app.py:410-413 | no files and the button disabled |
| MainWindow.App.AddFile | ui/app.py:415-423 | nothing without a script; a chosen file replaces the list and enables the button; cancelling changes nothing |
| MainWindow.App.AddFiles | ui/app.py:425-435 | new paths are appended without duplicates; the button rule and distinctness are preserved |
| MainWindow.App.AppendChosen | ui/app.py:432-434 | the list becomes AppendNew(old list, chosen) |
| MainWindow.App.AddFolder | ui/app.py:450-469 | the images the folder filter finds for the script's extensions are appended without duplicates; the run button is refreshed when some were found and left as it was when none were, or when there is no script or no folder |
| MainWindow.App.RunScript | ui/app.py:473-506 | nothing without a script; otherwise the button is disabled and the request holds the script path, the files, the widget parameters and the output directory |
| Boomerang.InsideRunDirectory | scripts/images_to_boomerang_webp.py:50-52 | for every home directory and timestamp, the folder the script writes to lies inside the output directory core/script_executor.py:44-47 prepares for a script of this name |
| Boomerang.Reversed | scripts/images_to_boomerang_webp.py:84 | same length, elements in reverse order |
| Boomerang.BoomerangSpec | scripts/images_to_boomerang_webp.py:83-89 | with n > 2 frames: 2n-2 entries, the frames then frames n-2 down to 1, mirrored around the last frame and ending on frame 1; otherwise the frames unchanged |
| Boomerang.FiveFrames | scripts/images_to_boomerang_webp.py:83-89 | 1..5 plays as 1,2,3,4,5,4,3,2 |
| Boomerang.WithWebpSuffix | scripts/images_to_boomerang_webp.py:58-60 | the name ends in ".webp": unchanged if it already did, otherwise ".webp" is appended |
| Boomerang.WithWebpSuffixIdempotent | scripts/images_to_boomerang_webp.py:58-60 | applying the suffix rule twice equals applying it once |
| Boomerang.WebpPath | scripts/images_to_boomerang_webp.py:92 | the output path, the suffixed file name joined to the output folder, ends in ".webp" |
| Boomerang.LoadedAppend | scripts/images_to_boomerang_webp.py:64-73 | loading splits over any split of the paths, so a failed image is skipped without moving the others |
| Boomerang.LoadedCount | scripts/images_to_boomerang_webp.py:64-77 | at most one frame per path; all of them when every image loads; none exactly when none loads |
| Boomerang.NothingLoaded | scripts/images_to_boomerang_webp.py:62-77 | sorting does not change whether an image loads: nothing is loaded exactly when no path loads |
| Boomerang.LoadFrames | scripts/images_to_boomerang_webp.py:64-73 | the loading loop gives exactly Loaded |
| Boomerang.RunSpec | scripts/images_to_boomerang_webp.py:36-105 | no input writes nothing; no loadable image writes nothing; otherwise the boomerang of the images loaded in sorted order, written to a ".webp" path |
| Boomerang.ProcessFiles | scripts/images_to_boomerang_webp.py:36-105 | the outcome of Run |
| PdfToImages.InsideRunDirectory | scripts/pdf_to_images.py:60-62 | for every home directory and timestamp, the folder the script writes to lies inside the output directory core/script_executor.py:44-47 prepares for a script of this name |
| PdfToImages.ImageFormat | scripts/pdf_to_images.py:66-76 | always a valid format: the uppercased request when valid, otherwise "PNG" |
| PdfToImages.OutputExtSpec | scripts/pdf_to_images.py:79-86 | "JPG" and "JPEG" give "jpeg", other formats their lowercase name, and every result is one of four extensions |
| PdfToImages.PageRangeSpec | scripts/pdf_to_images.py:104-110 | the range never passes the last page; the default range is every page |
| PdfToImages.PageFileNameShape | scripts/pdf_to_images.py:117-121 | a page file "[prefix_]name_page_<k>.<ext>" starts with the prefix and "_" when there is one, then the PDF name and "_page_", and ends in "." and the format |
| PdfToImages.PageFileNameInjective | scripts/pdf_to_images.py:117-121 | different pages never share a file name |
| PdfToImages.PageOutputsSpec | scripts/pdf_to_images.py:113-123 | one output per page index of the range, in order |
| PdfToImages.FileOutputsSpec | scripts/pdf_to_images.py:92-133 | a file contributes exactly when it exists, opens and its start page is in range, and it then contributes exactly its pages in range |
| PdfToImages.CompletedBound | scripts/pdf_to_images.py:129-133 | never more completed files than inputs; none, and nothing written, when every input is skipped (produces no outputs) |
| PdfToImages.MissingSkipped | scripts/pdf_to_images.py:93-95 | an input that does not exist is skipped: it produces no outputs |
| PdfToImages.ConvertPages | scripts/pdf_to_images.py:113-130 | the page loop writes exactly PageOutputs |
| PdfToImages.ConvertFile | scripts/pdf_to_images.py:92-133 | a skipped file writes nothing; otherwise its pages are written |
| PdfToImages.ConvertNextFile | scripts/pdf_to_images.py:92-133 | one pass of the file loop: the totals before the next file become those that include it, Written and Completed one path further |
| PdfToImages.ConvertAll | scripts/pdf_to_images.py:88-133 | the files written, the page counter equal to their number, and the completed-file counter |
| PdfToImages.ProcessFiles | scripts/pdf_to_images.py:50-141 | the same, under the settings derived from the keyword arguments |
| RemoveBackground.InsideRunDirectory | scripts/remove_bg.py:65-70 | for every home directory and timestamp, the folder the script writes to lies inside the output directory core/script_executor.py:44-47 prepares for a script of this name |
| RemoveBackground.StrToBoolSpec | scripts/remove_bg.py:52-54 | true exactly for "yes", "true", "t" or "1" in any case; "False" is false and "True" true |
| RemoveBackground.ImageFilesSpec | scripts/remove_bg.py:31-50 | only accepted paths are collected, and every accepted input file is collected |
| RemoveBackground.ImageFilesMembers | scripts/remove_bg.py:36-49 | a path is collected exactly when it has an accepted extension and is either an input file or a file found by walking an input folder |
| RemoveBackground.PathImagesMembers | scripts/remove_bg.py:40-48 | one input contributes exactly the accepted paths among itself (a file) or the files its walk finds (a folder) |
| RemoveBackground.WalkImagesMembers | scripts/remove_bg.py:45-48 | a folder walk contributes exactly the accepted paths `root/file` over every directory it visits |
| RemoveBackground.DirImageFilesMembers | scripts/remove_bg.py:46-48 | one visited directory contributes exactly the accepted paths `root/file` over its files |
| RemoveBackground.CollectDir | scripts/remove_bg.py:46-49 | the images of one directory |
| RemoveBackground.CollectWalk | scripts/remove_bg.py:44-49 | the images of a folder's walk |
| RemoveBackground.GetImageFiles | scripts/remove_bg.py:31-50 | the loops collect exactly ImageFiles |
| RemoveBackground.OutputPath | scripts/remove_bg.py:101-103 | the output ends with "<stem>_nobg.png" |
| RemoveBackground.SavedSpec | scripts/remove_bg.py:81-109 | never more files than images; all of them when every image succeeds; each ends in "_nobg.png" |
| RemoveBackground.SaveAll | scripts/remove_bg.py:81-109 | the files saved, and the success count equal to their number and at most the image count |
| RemoveBackground.ProcessFiles | scripts/remove_bg.py:56-116 | both switches read by `str_to_bool`; the files saved from the images found |
| VideoToImages.InsideRunDirectory | scripts/video_to_images.py:11-12 | for every home directory, video and timestamp, the folder the script writes to lies inside the output directory core/script_executor.py:44-47 prepares for a script of this name |
| VideoToImages.Trunc | scripts/video_to_images.py:35 | `int()` rounds toward zero |
| VideoToImages.FrameInterval | scripts/video_to_images.py:32-35 | corrected: never 0, equal to the code's interval wherever that is not 0, and 1 for an interval shorter than a frame |
| VideoToImages.FrameFileNameShape | scripts/video_to_images.py:46-48 | a frame file "<video>_<n:06d>.png" starts with the video name and "_" and ends in ".png" |
| VideoToImages.FrameFileNameInjective | scripts/video_to_images.py:46-48 | different counters give different file names |
| VideoToImages.ShotsSpec | scripts/video_to_images.py:37-52 | the n-th file written is numbered n; exactly the frames whose read index is a multiple of the interval are written, in reading order |
| VideoToImages.EveryFrame | scripts/video_to_images.py:32-33 | with an interval of one frame, every frame read is written |
| VideoToImages.Video | scripts/video_to_images.py:15-55 | the folder is always made; a video is skipped exactly when it cannot be opened |
| VideoToImages.ShortIntervalCrashes | scripts/video_to_images.py:35-45 | as written, 30 fps with a 0.02 s interval gives a frame interval of 0, and the first frame raises ZeroDivisionError |
| VideoToImages.CorrectedAgrees | scripts/video_to_images.py:32-52 | the correction changes nothing wherever the code as written completes |
| VideoToImages.ShortIntervalSavesEveryFrame | scripts/video_to_images.py:32-52 | an interval of 0, or one shorter than a frame, saves every frame |
| VideoToImages.VideosSpec | scripts/video_to_images.py:15-55 | one result per video, each processed independently of the others |
| VideoToImages.ExtractFrames | scripts/video_to_images.py:37-52 | the read loop writes exactly Shots; the saved counter equals the number written |
| VideoToImages.ProcessVideo | scripts/video_to_images.py:16-55 | one video with the corrected interval |
| VideoToImages.ProcessVideos | scripts/video_to_images.py:9-55 | all videos, in order |

## Left out

- Character handling:
  - lower, upper and strip act on ASCII only;
  - there is no Unicode case folding;
  - Python's `str.isspace` is taken as the ASCII whitespace characters.
- Prompt templates: the creation and editing templates and the system instruction are opaque constants; their prose is not modelled.
- The HTTP request and the JSON decoding of its reply: they become a function from the messages to a reply or an API error.
- Timeouts and status codes are folded into that error.
- `exec`, `compile` and `importlib`: their outcomes are parameters (a namespace of bindings, or the exception text).
- Processes: starting the script process, streaming its output, `stop`, `open_output_folder` and the run-finished callback that re-enables the run button are left out.
- UI widgets: layout, the scrollable file rows, the console and the theme are left out. Only the state they show is modelled.
- Image, PDF and video numerics: decoding, rendering at a DPI, background removal and WebP encoding are outcomes given as parameters.
- VideoToImages: the seek to `start_time` is not modelled; a capture gives the number of frames read after it. Float rounding of `fps * interval` uses exact reals.
- I/O errors:
  - an exception raised in the middle of a PDF page render or an image write is modelled only as that file or image not completing;
  - a failure writing the version metadata file is not modelled;
  - a failing `shutil.copy2` in `create_backup` (core/script_version_manager.py:128, 153-155), which records nothing and returns None, is not modelled: CreateBackup fails only when the script is missing or pruning meets a version without "backup_file".
- The file system:
  - Path normalisation beyond `os.path.join`, basename, stem and suffix is not modelled.
  - Directory walks are given as sequences of directories with their files.
  - `SKIP_FILES` lives in config/app_config.py, which is not part of this model. It is a parameter.
- ScriptVersions:
  - metadata lacking a "versions" key is read as an unreadable file;
  - `created_at` (timestamp parsing) is not modelled;
  - `get_versions` is stated newest first, the order its final sort gives.
- ScriptVersions.BackupNumbering: it does not claim that the new backup file survives pruning, because an older version's metadata may name the same file.
- LlmConfig: the legacy `get_config` and `save_config` (config/llm_config.py:231-255) are not modelled.
- RemoveBackground.ProcessFiles: the image filter is a parameter of the collection methods. The script passes IsImage. This keeps the path-suffix check out of the loop proofs.
- ScriptVersions.VersionStore.CreateBackup: the pruning loop (PruneOldest) works on copies of the version map and the files, and the store takes the result when the loop ends. The files deleted before a missing "backup_file" stay deleted, as on disk; only the moment of each deletion is not modelled.
- FileHandling.FolderImages: the extension test is passed to the collection as a predicate. `get_images_from_folder` passes Accepting(extensions).
- MainWindow.CollectedSpec: a switch read under a definition that is not boolean is passed on as the text "1" or "0".

## Findings

| source | as written | input that shows it | evidently intended | confidence | as-written member | corrected member |
|---|---|---|---|---|---|---|
| core/script_version_manager.py:187-216 | `restore_version` calls `create_backup` first, and that prunes the history to ten versions before the chosen backup is read | a history of ten versions; restore the oldest: its backup file is deleted by pruning, then the copy fails and the result is False | restore reads the chosen version before anything can prune it, so every listed version can be restored | not executed | ScriptVersions.RestoringOldestOfFullHistoryFails | ScriptVersions.RestoreListedSucceeds |
| scripts/video_to_images.py:32-45 | `frame_interval = int(fps * interval)` can be 0, and `frame_count % frame_interval` then raises ZeroDivisionError on the first frame | 30 fps, interval 0.02 s: int(0.6) = 0 | an interval shorter than one frame extracts every frame | not executed | VideoToImages.ShortIntervalCrashes | VideoToImages.ShortIntervalSavesEveryFrame |

=== FILE: app.dfy ===
/** The main window's bookkeeping (ui/app.py): the selected script, the list
    of selected input files, the run button's state and the parameters read
    back from the parameter widgets when a script is run. The file dialogs
    and the user's input are parameters: what a dialog returns ("" or an
    empty tuple when cancelled), the directory walk of a chosen folder, and
    what each parameter widget reads when the script is started. */
module MainWindow {
  import opened Optional
  import opened Strings
  import opened ScriptManager
  import opened FileHandling
  import opened ScriptExecution

  /** No path occurs twice. */
  predicate Distinct(s: seq<string>) {
    forall i, j :: 0 <= i < j < |s| ==> s[i] != s[j]
  }

  // ---------------------------------------------------------------------
  // Removing one file
  // ---------------------------------------------------------------------

  /** The list after `del files[index]` when the index is in range, and the
      list itself otherwise. */
  function Removed(files: seq<string>, index: int): seq<string> {
    if 0 <= index < |files| then files[..index] + files[index + 1..] else files
  }

  /** An out-of-range index changes nothing; an in-range one removes exactly
      the file at that index and shifts the later ones down by one. */
  lemma RemovedSpec(files: seq<string>, index: int)
    ensures !(0 <= index < |files|) ==> Removed(files, index) == files
    ensures 0 <= index < |files| ==>
              var r := Removed(files, index);
              && |r| == |files| - 1
              && (forall k :: 0 <= k < index ==> r[k] == files[k])
              && (forall k :: index <= k < |r| ==> r[k] == files[k + 1])
              && multiset(r) + multiset{files[index]} == multiset(files)
  {
    if 0 <= index < |files| {
      assert files == files[..index] + [files[index]] + files[index + 1..];
    }
  }

  /** Removing keeps a list free of duplicates, and the removed path is then gone. */
  lemma RemovedDistinct(files: seq<string>, index: int)
    requires Distinct(files)
    ensures Distinct(Removed(files, index))
    ensures 0 <= index < |files| ==> files[index] !in Removed(files, index)
  {
    if 0 <= index < |files| {
      var r := Removed(files, index);
      RemovedSpec(files, index);
      forall i, j | 0 <= i < j < |r| ensures r[i] != r[j] {
        var i' := if i < index then i else i + 1;
        var j' := if j < index then j else j + 1;
        assert r[i] == files[i'] && r[j] == files[j'];
      }
      forall k | 0 <= k < |r| ensures r[k] != files[index] {
        var k' := if k < index then k else k + 1;
        assert r[k] == files[k'];
      }
    }
  }

  // ---------------------------------------------------------------------
  // Appending without duplicates
  // ---------------------------------------------------------------------

  /** `for f in chosen: if f not in files: files.append(f)` */
  function AppendNew(files: seq<string>, chosen: seq<string>): seq<string> {
    if chosen == [] then files
    else
      var r := AppendNew(files, chosen[..|chosen| - 1]);
      var f := chosen[|chosen| - 1];
      if f in r then r else r + [f]
  }

  /** The existing files stay first and in their order; the result holds
      exactly the existing and the chosen paths, and at most one more entry
      per chosen path. */
  lemma {:induction false} AppendNewSpec(files: seq<string>, chosen: seq<string>)
    ensures var r := AppendNew(files, chosen);
            && |files| <= |r| <= |files| + |chosen|
            && r[..|files|] == files
            && forall x :: x in r <==> x in files || x in chosen
  {
    if chosen != [] {
      var front := chosen[..|chosen| - 1];
      AppendNewSpec(files, front);
      var r := AppendNew(files, front);
      assert chosen == front + [chosen[|chosen| - 1]];
      assert (r + [chosen[|chosen| - 1]])[..|files|] == r[..|files|];
    }
  }

  /** Appending keeps a list free of duplicates. */
  lemma {:induction false} AppendNewDistinct(files: seq<string>, chosen: seq<string>)
    requires Distinct(files)
    ensures Distinct(AppendNew(files, chosen))
  {
    if chosen != [] {
      AppendNewDistinct(files, chosen[..|chosen| - 1]);
    }
  }

  /** Adding paths that are all present already changes nothing, so adding
      the same paths twice is adding them once. */
  lemma {:induction false} AppendNewPresent(files: seq<string>, chosen: seq<string>)
    requires forall x :: x in chosen ==> x in files
    ensures AppendNew(files, chosen) == files
  {
    if chosen != [] {
      var front := chosen[..|chosen| - 1];
      assert forall x :: x in front ==> x in chosen;
      AppendNewPresent(files, front);
      assert chosen[|chosen| - 1] in chosen;
    }
  }

  lemma AppendNewTwice(files: seq<string>, chosen: seq<string>)
    ensures AppendNew(AppendNew(files, chosen), chosen) == AppendNew(files, chosen)
  {
    AppendNewSpec(files, chosen);
    AppendNewPresent(AppendNew(files, chosen), chosen);
  }

  // ---------------------------------------------------------------------
  // Dialog file types
  // ---------------------------------------------------------------------

  /** `_get_filetypes`: the declared pair when INPUT_TYPES has a "(", then
      "All Files". */
  function FileTypes(info: ScriptInfo): seq<FileType> {
    var input := info.inputTypes;
    var declared :=
      if input != "" then
        var parts := SplitOn(input, '(');
        if |parts| > 1 then [FileType(Strip(parts[0]), RemoveChar(parts[1], ')'))] else []
      else [];
    declared + [AllFiles]
  }

  /** The dialog always ends with "All Files"; it offers only that for an
      empty INPUT_TYPES and otherwise exactly what `parse_input_types` gives. */
  lemma FileTypesSpec(info: ScriptInfo)
    ensures var r := FileTypes(info);
            && r != [] && r[|r| - 1] == AllFiles
            && (info.inputTypes == "" ==> r == [AllFiles])
            && (info.inputTypes != "" ==> r == ParseInputTypes(info.inputTypes))
  {
  }

  // ---------------------------------------------------------------------
  // Reading the parameter widgets
  // ---------------------------------------------------------------------

  /** What `widget.get()` returns: a switch gives 1 or 0, an entry or an
      option menu its text. */
  datatype Reading = SwitchState(on: bool) | EntryText(text: string)

  /** The text of a reading; a switch read as text is "1" or "0". */
  function ReadingText(r: Reading): string {
    match r
    case SwitchState(on) => if on then "1" else "0"
    case EntryText(t) => t
  }

  /** The names of the parameter definitions, in order. */
  function Names(defs: seq<ParamDef>): (r: seq<string>)
    ensures |r| == |defs| && forall k :: 0 <= k < |defs| ==> r[k] == defs[k].name
  {
    if defs == [] then [] else Names(defs[..|defs| - 1]) + [defs[|defs| - 1].name]
  }

  /** The value run_script stores for one widget: for a boolean parameter
      whether the switch reads 1, otherwise what the widget reads. */
  function ParamOf(defs: seq<ParamDef>, name: string, reading: Reading): Param {
    if IsFlag(defs, name) then Param(name, BoolValue(reading == SwitchState(true)))
    else Param(name, TextValue(ReadingText(reading)))
  }

  /** The parameter dictionary run_script builds, in widget order. */
  function Collected(defs: seq<ParamDef>, names: seq<string>, read: string -> Reading): seq<Param> {
    if names == [] then []
    else
      var n := names[|names| - 1];
      Collected(defs, names[..|names| - 1], read) + [ParamOf(defs, n, read(n))]
  }

  /** One parameter per widget, in widget order; a boolean parameter is a
      flag set exactly when its switch is on, and so contributes "--name"
      exactly then; every other one contributes its name and its widget's
      text. */
  lemma {:induction false} CollectedSpec(defs: seq<ParamDef>, names: seq<string>, read: string -> Reading)
    ensures var ps := Collected(defs, names, read);
            && |ps| == |names|
            && forall k :: 0 <= k < |names| ==> Contributes(defs, names[k], read(names[k]), ps[k])
  {
    if names != [] {
      var front := names[..|names| - 1];
      var n := names[|names| - 1];
      var ps := Collected(defs, names, read);
      var before := Collected(defs, front, read);
      CollectedSpec(defs, front, read);
      ParamOfTokens(defs, n, read(n));
      forall k | 0 <= k < |front|
        ensures Contributes(defs, names[k], read(names[k]), ps[k])
      {
        assert front[k] == names[k] && ps[k] == before[k];
      }
    }
  }

  /** What the widget `name` read as `reading` contributes: a parameter of
      that name; for a boolean one "--name" exactly when the switch is on,
      otherwise the name and the widget's text. */
  predicate Contributes(defs: seq<ParamDef>, name: string, reading: Reading, p: Param) {
    && p.name == name
    && (IsFlag(defs, name) ==>
          ParamTokens(defs, p) == if reading == SwitchState(true) then ["--" + name] else [])
    && (!IsFlag(defs, name) ==> ParamTokens(defs, p) == ["--" + name, ReadingText(reading)])
  }

  lemma ParamOfTokens(defs: seq<ParamDef>, name: string, reading: Reading)
    ensures Contributes(defs, name, reading, ParamOf(defs, name, reading))
  {
  }

  /** The keys `parameter_widgets` ends up with when one widget is stored
      per parameter: each name once, in the order of its first definition. */
  method WidgetKeys(defs: seq<ParamDef>) returns (keys: seq<string>)
    ensures keys == AppendNew([], Names(defs))
    ensures Distinct(keys)
  {
    keys := [];
    ghost var names := Names(defs);
    var i := 0;
    while i < |defs|
      invariant 0 <= i <= |defs|
      invariant keys == AppendNew([], names[..i])
    {
      var name := defs[i].name;
      if name !in keys {
        keys := keys + [name];
      }
      assert names[..i + 1][..i] == names[..i];
      i := i + 1;
    }
    assert names[..|defs|] == names;
    AppendNewDistinct([], names);
  }

  /** The parameter loop of run_script. */
  method CollectParams(defs: seq<ParamDef>, names: seq<string>, read: string -> Reading) returns (params: seq<Param>)
    ensures params == Collected(defs, names, read)
  {
    params := [];
    var i := 0;
    while i < |names|
      invariant 0 <= i <= |names|
      invariant params == Collected(defs, names[..i], read)
    {
      var name := names[i];
      var paramDef := DefFor(defs, name);
      if paramDef.Some? && (paramDef.value.kind == "boolean" || paramDef.value.kind == "bool") {
        params := params + [Param(name, BoolValue(read(name) == SwitchState(true)))];
      } else {
        params := params + [Param(name, TextValue(ReadingText(read(name))))];
      }
      assert names[..i + 1][..i] == names[..i];
      i := i + 1;
    }
    assert names[..|names|] == names;
  }

  /** What run_script hands to the executor. */
  datatype RunRequest = RunRequest(scriptPath: string, files: seq<string>, params: seq<Param>, outputDir: string)

  // ---------------------------------------------------------------------
  // The window
  // ---------------------------------------------------------------------

  class App {
    var currentScript: Option<ScriptInfo>
    var selectedFiles: seq<string>
    /** The keys of `parameter_widgets`, in insertion order. */
    var widgetNames: seq<string>
    var runEnabled: bool

    /** The rule update_file_list_ui establishes: the run button is enabled
        exactly when files are selected. */
    predicate RunRule()
      reads this
    {
      runEnabled == (selectedFiles != [])
    }

    constructor ()
      ensures currentScript == None && selectedFiles == [] && widgetNames == []
      ensures !runEnabled && RunRule()
    {
      currentScript := None;
      selectedFiles := [];
      widgetNames := [];
      runEnabled := false;
    }

    /** `update_file_list_ui`: the file rows are not modelled, the button is. */
    method UpdateFileListUi()
      modifies this
      ensures RunRule()
      ensures currentScript == old(currentScript) && selectedFiles == old(selectedFiles)
      ensures widgetNames == old(widgetNames)
    {
      if selectedFiles == [] {
        runEnabled := false;
        return;
      }
      runEnabled := true;
    }

    /** `load_script_details`: the script becomes current, one widget per
        parameter name, and the selection is cleared. */
    method LoadScriptDetails(script: ScriptInfo)
      modifies this
      ensures currentScript == Some(script) && selectedFiles == []
      ensures widgetNames == AppendNew([], Names(script.parameters))
      ensures Distinct(widgetNames)
      ensures RunRule()
    {
      currentScript := Some(script);
      runEnabled := true;
      widgetNames := WidgetKeys(script.parameters);
      selectedFiles := [];
      UpdateFileListUi();
    }

    /** `remove_file(index)` */
    method RemoveFile(index: int)
      modifies this
      ensures selectedFiles == Removed(old(selectedFiles), index)
      ensures runEnabled == if 0 <= index < |old(selectedFiles)| then selectedFiles != [] else old(runEnabled)
      ensures currentScript == old(currentScript) && widgetNames == old(widgetNames)
      ensures old(RunRule()) ==> RunRule()
      ensures old(Distinct(selectedFiles)) ==> Distinct(selectedFiles)
    {
      ghost var before := selectedFiles;
      if 0 <= index < |selectedFiles| {
        selectedFiles := selectedFiles[..index] + selectedFiles[index + 1..];
        UpdateFileListUi();
      }
      if Distinct(before) {
        RemovedDistinct(before, index);
      }
    }

    /** `clear_files` */
    method ClearFiles()
      modifies this
      ensures selectedFiles == [] && !runEnabled
      ensures currentScript == old(currentScript) && widgetNames == old(widgetNames)
    {
      selectedFiles := [];
      UpdateFileListUi();
    }

    /** `add_file`, with `chosen` the path the dialog returns ("" when
        cancelled). `offered` is what the dialog is opened with, None when
        no script is selected and so no dialog opens. */
    method AddFile(chosen: string) returns (offered: Option<seq<FileType>>)
      modifies this
      ensures currentScript == old(currentScript) && widgetNames == old(widgetNames)
      ensures currentScript.None? ==> offered == None && selectedFiles == old(selectedFiles) && runEnabled == old(runEnabled)
      ensures currentScript.Some? ==> offered == Some(FileTypes(currentScript.value))
      ensures currentScript.Some? && chosen != "" ==> selectedFiles == [chosen] && runEnabled
      ensures chosen == "" ==> selectedFiles == old(selectedFiles) && runEnabled == old(runEnabled)
    {
      if currentScript.None? {
        return None;
      }
      offered := Some(FileTypes(currentScript.value));
      if chosen != "" {
        selectedFiles := [chosen];
        UpdateFileListUi();
      }
    }

    /** `add_files`, with `chosen` the paths the dialog returns (empty when
        cancelled). */
    method AddFiles(chosen: seq<string>) returns (offered: Option<seq<FileType>>)
      modifies this
      ensures currentScript == old(currentScript) && widgetNames == old(widgetNames)
      ensures currentScript.None? ==> offered == None && selectedFiles == old(selectedFiles) && runEnabled == old(runEnabled)
      ensures currentScript.Some? ==> offered == Some(FileTypes(currentScript.value))
      ensures currentScript.Some? ==> selectedFiles == AppendNew(old(selectedFiles), chosen)
      ensures currentScript.Some? && chosen != [] ==> RunRule()
      ensures chosen == [] ==> selectedFiles == old(selectedFiles) && runEnabled == old(runEnabled)
      ensures old(Distinct(selectedFiles)) ==> Distinct(selectedFiles)
      ensures old(RunRule()) ==> RunRule()
    {
      ghost var before := selectedFiles;
      if currentScript.None? {
        return None;
      }
      offered := Some(FileTypes(currentScript.value));
      if chosen != [] {
        AppendChosen(chosen);
        AppendNewSpec(before, chosen);
        UpdateFileListUi();
      }
      if Distinct(before) {
        AppendNewDistinct(before, chosen);
      }
    }

    /** The loop `add_files` and `add_folder` share. */
    method AppendChosen(chosen: seq<string>)
      modifies this
      ensures selectedFiles == AppendNew(old(selectedFiles), chosen)
      ensures currentScript == old(currentScript) && widgetNames == old(widgetNames)
      ensures runEnabled == old(runEnabled)
    {
      ghost var before := selectedFiles;
      var i := 0;
      while i < |chosen|
        invariant 0 <= i <= |chosen|
        invariant selectedFiles == AppendNew(before, chosen[..i])
        invariant currentScript == old(currentScript) && widgetNames == old(widgetNames)
        invariant runEnabled == old(runEnabled)
      {
        var file := chosen[i];
        if file !in selectedFiles {
          selectedFiles := selectedFiles + [file];
        }
        assert chosen[..i + 1][..i] == chosen[..i];
        i := i + 1;
      }
      assert chosen[..|chosen|] == chosen;
    }

    /** `add_folder`, with `folder` the directory the dialog returns (""
        when cancelled) and `walk` the walk of that directory. */
    method AddFolder(folder: string, walk: seq<WalkDir>)
      modifies this
      ensures currentScript == old(currentScript) && widgetNames == old(widgetNames)
      ensures currentScript.None? || folder == "" ==> selectedFiles == old(selectedFiles) && runEnabled == old(runEnabled)
      ensures currentScript.Some? && folder != "" ==>
                var images := FolderImages(walk, Accepting(GetFileExtensions(currentScript.value.inputTypes)));
                && selectedFiles == AppendNew(old(selectedFiles), images)
                && (images != [] ==> RunRule())
                && (images == [] ==> runEnabled == old(runEnabled))
      ensures old(Distinct(selectedFiles)) ==> Distinct(selectedFiles)
      ensures old(RunRule()) ==> RunRule()
    {
      ghost var before := selectedFiles;
      if currentScript.None? {
        return;
      }
      if folder == "" {
        return;
      }
      var targetExts := GetFileExtensions(currentScript.value.inputTypes);
      var images := GetImagesFromFolder(walk, targetExts);
      AppendChosen(images);
      if images != [] {
        AppendNewSpec(before, images);
        UpdateFileListUi();
      }
      if Distinct(before) {
        AppendNewDistinct(before, images);
      }
    }

    /** `run_script`, with `read` what each parameter widget reads and
        `home` the user's home directory. Nothing happens without a current
        script; otherwise the run button is disabled while the script runs. */
    method RunScript(read: string -> Reading, home: string) returns (request: Option<RunRequest>)
      modifies this
      ensures currentScript == old(currentScript) && selectedFiles == old(selectedFiles)
      ensures widgetNames == old(widgetNames)
      ensures currentScript.None? ==> request == None && runEnabled == old(runEnabled)
      ensures currentScript.Some? ==>
                var info := currentScript.value;
                && !runEnabled
                && request == Some(RunRequest(Join("scripts", info.filename + ".py"), selectedFiles,
                                              Collected(info.parameters, widgetNames, read),
                                              OutputDir(Join(home, "Downloads"), info.name)))
    {
      if currentScript.None? {
        return None;
      }
      var info := currentScript.value;
      var scriptPath := Join("scripts", info.filename + ".py");
      var params := CollectParams(info.parameters, widgetNames, read);
      var outputDir := OutputDir(Join(home, "Downloads"), info.name);
      runEnabled := false;
      request := Some(RunRequest(scriptPath, selectedFiles, params, outputDir));
    }
  }
}

=== FILE: boomerang.dfy ===
/** The "Images to Boomerang WebP" script
    (scripts/images_to_boomerang_webp.py): the input images, sorted by path,
    are played forwards and then backwards without repeating either end, and
    saved as one animated WebP. Decoding an image is a parameter `load` (None
    when the file cannot be opened); the encoder, the clock and the home
    directory are parameters or left out. */
module Boomerang {
  import opened Optional
  import opened Strings
  import opened Sorting
  import opened ScriptExecution

  const Name: string := "Images to Boomerang WebP"

  /** The output directory name, the script name lowercased with spaces as "_". */
  const Slug: string := "images_to_boomerang_webp"

  const DefaultOutputFilename: string := "boomerang_animation.webp"
  const DefaultDuration: int := 100
  const DefaultLoop: int := 0

  /** `s[::-1]` */
  function Reversed<T>(s: seq<T>): (r: seq<T>)
    ensures |r| == |s|
    ensures forall k :: 0 <= k < |s| ==> r[k] == s[|s| - 1 - k]
  {
    if s == [] then [] else Reversed(s[1..]) + [s[0]]
  }

  /** The played sequence: with more than two frames, the frames followed by
      `frames[-2:0:-1]`; otherwise the frames themselves. */
  function BoomerangFrames<T>(frames: seq<T>): seq<T> {
    if |frames| > 2 then frames + Reversed(frames[1..|frames| - 1]) else frames
  }

  /** With n > 2 frames the sequence has 2n - 2 entries: the frames in
      order, then frames n-2 down to 1. It mirrors around the last frame and
      ends on the second frame, so looping never shows the first frame
      twice in a row. With at most two frames nothing is added. */
  lemma BoomerangSpec<T>(frames: seq<T>)
    ensures var n := |frames|;
            var r := BoomerangFrames(frames);
            && (n <= 2 ==> r == frames)
            && (n > 2 ==>
                  && |r| == 2 * n - 2
                  && r[..n] == frames
                  && (forall j :: n <= j < |r| ==> r[j] == frames[2 * n - 2 - j])
                  && (forall j :: n <= j < |r| ==> r[j] == r[2 * n - 2 - j])
                  && r[|r| - 1] == frames[1])
  {
    var n := |frames|;
    if n > 2 {
      var mid := frames[1..n - 1];
      var back := Reversed(mid);
      var r := frames + back;
      assert r[..n] == frames;
      forall j | n <= j < |r|
        ensures r[j] == frames[2 * n - 2 - j] && r[j] == r[2 * n - 2 - j]
      {
        assert r[j] == back[j - n] == mid[|mid| - 1 - (j - n)];
      }
    }
  }

  /** Frames 1, 2, 3, 4, 5 play as 1, 2, 3, 4, 5, 4, 3, 2. */
  lemma FiveFrames()
    ensures BoomerangFrames([1, 2, 3, 4, 5]) == [1, 2, 3, 4, 5, 4, 3, 2]
  {
    var f := [1, 2, 3, 4, 5];
    assert f[1..4] == [2, 3, 4];
    assert Reversed([2, 3, 4]) == [4, 3, 2] by {
      assert Reversed([4]) == [4];
      assert [3, 4][1..] == [4];
      assert [2, 3, 4][1..] == [3, 4];
    }
  }

  /** The output name gets ".webp" appended unless it already ends so. */
  function WithWebpSuffix(name: string): (r: string)
    ensures EndsWith(r, ".webp")
    ensures EndsWith(name, ".webp") ==> r == name
    ensures !EndsWith(name, ".webp") ==> r == name + ".webp"
  {
    if EndsWith(name, ".webp") then name
    else
      var r := name + ".webp";
      assert r[|r| - 5..] == ".webp";
      r
  }

  /** Applying the suffix rule twice is applying it once. */
  lemma WithWebpSuffixIdempotent(name: string)
    ensures WithWebpSuffix(WithWebpSuffix(name)) == WithWebpSuffix(name)
  {
  }

  /** The frames that load, in the order of `paths`. */
  function Loaded<T>(paths: seq<string>, load: string -> Option<T>): seq<T> {
    if paths == [] then []
    else
      var img := load(paths[|paths| - 1]);
      Loaded(paths[..|paths| - 1], load) + (if img.Some? then [img.value] else [])
  }

  /** Loading splits over any split of the paths, so a failed path is
      skipped without moving the others. */
  lemma {:induction false} LoadedAppend<T>(a: seq<string>, b: seq<string>, load: string -> Option<T>)
    ensures Loaded(a + b, load) == Loaded(a, load) + Loaded(b, load)
    decreases |b|
  {
    if b == [] {
      assert a + b == a;
    } else {
      var front := b[..|b| - 1];
      LoadedAppend(a, front, load);
      assert (a + b)[..|a + b| - 1] == a + front;
      assert (a + b)[|a + b| - 1] == b[|b| - 1];
    }
  }

  /** At most one frame per path; one per path when all load; none exactly
      when none loads. */
  lemma {:induction false} LoadedCount<T>(paths: seq<string>, load: string -> Option<T>)
    ensures |Loaded(paths, load)| <= |paths|
    ensures (forall k :: 0 <= k < |paths| ==> load(paths[k]).Some?) ==>
              Loaded(paths, load) == seq(|paths|, k requires 0 <= k < |paths| => load(paths[k]).value)
    ensures Loaded(paths, load) == [] <==> forall k :: 0 <= k < |paths| ==> load(paths[k]).None?
  {
    if paths != [] {
      var front := paths[..|paths| - 1];
      LoadedCount(front, load);
      assert forall k :: 0 <= k < |front| ==> front[k] == paths[k];
    }
  }

  /** The loading loop's step: the next path adds its frame when it loads. */
  lemma LoadedNext<T>(paths: seq<string>, i: nat, load: string -> Option<T>, frames: seq<T>)
    requires i < |paths| && frames == Loaded(paths[..i], load)
    ensures Loaded(paths[..i + 1], load) == frames + (if load(paths[i]).Some? then [load(paths[i]).value] else [])
  {
    assert paths[..i + 1][..i] == paths[..i];
  }

  /** The loop of step 3: load each path in order, skipping failures. */
  method LoadFrames<T>(paths: seq<string>, load: string -> Option<T>) returns (frames: seq<T>)
    ensures frames == Loaded(paths, load)
  {
    frames := [];
    var i := 0;
    while i < |paths|
      invariant 0 <= i <= |paths|
      invariant frames == Loaded(paths[..i], load)
    {
      var img := load(paths[i]);
      LoadedNext(paths, i, load, frames);
      if img.Some? {
        frames := frames + [img.value];
      }
      i := i + 1;
    }
    assert paths[..|paths|] == paths;
  }

  /** What a run does: nothing without input or without a loadable image,
      otherwise one file written. */
  datatype Outcome<T> =
    | NoFiles
    | NoFrames
    | Saved(path: string, frames: seq<T>, duration: int, loop: int)

  /** The directory the script writes to: `~/Downloads/<slug>/<ts>_output`. */
  function OutputFolder(home: string, ts: string): string {
    Join(Join(Join(home, "Downloads"), Slug), ts + "_output")
  }

  /** The script writes inside the directory the executor prepares for a
      run of a script with this name. */
  lemma InsideRunDirectory(home: string, ts: string)
    ensures OutputFolder(home, ts) == Join(OutputDir(Join(home, "Downloads"), Name), ts + "_output")
  {
    assert OutputSlug(Name) == Slug;
  }

  /** What `process_files` does, with absent keyword arguments as None. */
  function Run<T>(paths: seq<string>, duration: Option<int>, loop: Option<int>, outputFilename: Option<string>,
                  load: string -> Option<T>, home: string, ts: string): Outcome<T> {
    if paths == [] then NoFiles
    else
      var frames := Loaded(Sort(paths), load);
      if frames == [] then NoFrames
      else
        var name := WithWebpSuffix(outputFilename.GetOr(DefaultOutputFilename));
        Saved(Join(OutputFolder(home, ts), name), BoomerangFrames(frames),
              duration.GetOr(DefaultDuration), loop.GetOr(DefaultLoop))
  }

  /** A saved animation is the boomerang of the loadable images in sorted
      path order, written to a ".webp" file; an empty input, or input with no
      loadable image, writes nothing. */
  lemma RunSpec<T>(paths: seq<string>, duration: Option<int>, loop: Option<int>, outputFilename: Option<string>,
                   load: string -> Option<T>, home: string, ts: string)
    ensures var out := Run(paths, duration, loop, outputFilename, load, home, ts);
            && (paths == [] <==> out.NoFiles?)
            && (out.NoFrames? <==> paths != [] && forall p :: p in paths ==> load(p).None?)
            && (out.Saved? ==>
                  && out.frames == BoomerangFrames(Loaded(Sort(paths), load))
                  && out.frames != []
                  && EndsWith(out.path, ".webp"))
  {
    NothingLoaded(paths, load);
    WebpPath(OutputFolder(home, ts), outputFilename.GetOr(DefaultOutputFilename));
  }

  /** Sorting does not change whether any image loads. */
  lemma NothingLoaded<T>(paths: seq<string>, load: string -> Option<T>)
    ensures Loaded(Sort(paths), load) == [] <==> forall p :: p in paths ==> load(p).None?
  {
    var sorted := Sort(paths);
    LoadedCount(sorted, load);
    assert forall p :: p in paths <==> p in multiset(sorted);
    assert forall p :: p in sorted <==> exists k :: 0 <= k < |sorted| && sorted[k] == p;
  }

  /** The output file, joined to the output folder, is a ".webp" file. */
  lemma WebpPath(folder: string, name: string)
    ensures EndsWith(Join(folder, WithWebpSuffix(name)), ".webp")
  {
    var file := WithWebpSuffix(name);
    JoinShape(folder, file);
    EndsWithTrans(Join(folder, file), file, ".webp");
  }

  /** `process_files` */
  method ProcessFiles<T>(paths: seq<string>, duration: Option<int>, loop: Option<int>, outputFilename: Option<string>,
                         load: string -> Option<T>, home: string, ts: string) returns (out: Outcome<T>)
    ensures out == Run(paths, duration, loop, outputFilename, load, home, ts)
  {
    if paths == [] {
      return NoFiles;
    }
    var folder := OutputFolder(home, ts);
    var d := duration.GetOr(DefaultDuration);
    var l := loop.GetOr(DefaultLoop);
    var name := outputFilename.GetOr(DefaultOutputFilename);
    if !EndsWith(name, ".webp") {
      name := name + ".webp";
    }
    assert name == WithWebpSuffix(outputFilename.GetOr(DefaultOutputFilename));
    var sortedPaths := Sort(paths);
    var frames := LoadFrames(sortedPaths, load);
    if frames == [] {
      return NoFrames;
    }
    var played := frames;
    if |frames| > 2 {
      var back := Reversed(frames[1..|frames| - 1]);
      played := frames + back;
    }
    assert played == BoomerangFrames(frames);
    out := Saved(Join(folder, name), played, d, l);
  }
}

=== FILE: file_handler.dfy ===
/** Input-type strings and the folder filter (core/file_handler.py). A
    script declares what it reads as an INPUT_TYPES string such as
    "Images (*.png *.jpg)"; the file dialogs take (description, pattern)
    pairs from it, and adding a folder keeps the files whose names end with
    one of its extensions. The directory walk is an input: the directories
    `os.walk` visits, in its order, each with its file names. */
module FileHandling {
  import opened Optional
  import opened Strings

  /** A `(description, patterns)` pair of a file dialog. */
  datatype FileType = FileType(description: string, patterns: string)

  /** The entry every dialog ends with. */
  const AllFiles: FileType := FileType("All Files", "*.*")

  /** The second "("-separated segment of `s`: the text after the first
      "(" up to the next one. */
  function SecondSegment(s: string): (r: string)
    requires '(' in s
    ensures r == SplitOn(s, '(')[1]
    ensures '(' !in r
  {
    SplitOnPieces(s, '(');
    BeforeFirst(AfterFirst(s, '('), '(')
  }

  /** `parse_input_types`: nothing for an empty string; otherwise the
      declared pair when there is a "(", then "All Files". */
  function ParseInputTypes(input: string): (r: seq<FileType>)
    ensures input == "" ==> r == []
    ensures input != "" ==> |r| == (if '(' in input then 2 else 1) && r[|r| - 1] == AllFiles
    ensures input != "" && '(' in input ==>
              r[0].description == Strip(BeforeFirst(input, '('))
              && r[0].patterns == RemoveChar(SecondSegment(input), ')')
  {
    if input == "" then []
    else
      SplitOnPieces(input, '(');
      var parts := SplitOn(input, '(');
      var declared := if |parts| > 1 then [FileType(Strip(parts[0]), RemoveChar(parts[1], ')'))] else [];
      declared + [AllFiles]
  }

  /** The second segment with ")", "*" and "," removed. */
  function Cleaned(segment: string): (r: string)
    ensures ')' !in r && '*' !in r && ',' !in r
    ensures forall c :: c in r ==> c in segment
  {
    RemoveChar(RemoveChar(RemoveChar(segment, ')'), '*'), ',')
  }

  /** `get_file_extensions`: the words of the second segment once ")", "*"
      and "," are removed; nothing when there is no "(". */
  function GetFileExtensions(input: string): (r: seq<string>)
    ensures '(' !in input ==> r == []
    ensures forall e :: e in r ==>
              e != "" && ')' !in e && '*' !in e && ',' !in e && '(' !in e
              && forall k :: 0 <= k < |e| ==> !IsSpace(e[k])
  {
    SplitOnPieces(input, '(');
    var parts := SplitOn(input, '(');
    if |parts| > 1 then
      var words := SplitWhitespace(Cleaned(parts[1]));
      WordsAreInfixes(Cleaned(parts[1]), words);
      words
    else []
  }

  /** The words of `s` hold only characters of `s`. */
  lemma WordsAreInfixes(s: string, words: seq<string>)
    requires words == SplitWhitespace(s)
    ensures forall w, c :: w in words && c in w ==> c in s
  {
    forall w, c | w in words && c in w ensures c in s {
      WordCharsFrom(s, w, c);
    }
  }

  lemma {:induction false} WordCharsFrom(s: string, w: string, c: char)
    requires w in SplitWhitespace(s) && c in w
    ensures c in s
    decreases |s|
  {
    var t := StripLeft(s);
    var n := WordLength(t);
    assert t != [];
    if w == t[..n] {
      assert c in t;
    } else {
      WordCharsFrom(t[n..], w, c);
      assert c in t;
    }
  }

  /** For "<description>(<patterns>" with one "(", the extensions are the
      words of the cleaned patterns. */
  lemma ExtensionsOfDeclared(desc: string, patterns: string)
    requires '(' !in desc && '(' !in patterns
    ensures GetFileExtensions(desc + "(" + patterns) == SplitWhitespace(Cleaned(patterns))
  {
    var s := desc + "(" + patterns;
    var i := FindChar(s, '(').value;
    assert s[|desc|] == '(';
    assert s[..|desc|] == desc;
    assert forall k :: 0 <= k < i ==> s[k] == s[..i][k];
    assert forall k :: 0 <= k < |desc| ==> s[k] == desc[k];
    assert i == |desc|;
    assert s[i + 1..] == patterns;
    assert FindChar(patterns, '(') == None;
    assert SplitOn(patterns, '(') == [patterns];
    var parts := SplitOn(s, '(');
    assert parts == [desc, patterns];
    assert GetFileExtensions(s) == SplitWhitespace(Cleaned(parts[1]));
  }

  lemma {:induction false} RemoveCharAbsent(s: string, c: char)
    requires c !in s
    ensures RemoveChar(s, c) == s
  {
    if s != [] {
      RemoveCharAbsent(s[1..], c);
    }
  }

  lemma {:induction false} WordLengthOfWord(w: string, rest: string)
    requires forall k :: 0 <= k < |w| ==> !IsSpace(w[k])
    requires rest == [] || IsSpace(rest[0])
    ensures WordLength(w + rest) == |w|
  {
    if w != [] {
      WordLengthOfWord(w[1..], rest);
      assert (w + rest)[1..] == w[1..] + rest;
    }
  }

  /** A word followed by whitespace or nothing is split off first. */
  lemma SplitWordFirst(w: string, rest: string)
    requires w != [] && forall k :: 0 <= k < |w| ==> !IsSpace(w[k])
    requires rest == [] || IsSpace(rest[0])
    ensures SplitWhitespace(w + rest) == [w] + SplitWhitespace(rest)
  {
    var s := w + rest;
    assert s[0] == w[0];
    assert StripLeft(s) == s;
    WordLengthOfWord(w, rest);
    assert s[..|w|] == w && s[|w|..] == rest;
  }

  /** Leading whitespace does not change the words. */
  lemma SplitAfterSpace(s: string)
    ensures SplitWhitespace(" " + s) == SplitWhitespace(s)
  {
    assert IsSpace(' ');
    StripLeftPadded(" ", s);
  }

  /** A single word splits into itself. */
  lemma OneWord(w: string)
    requires w != [] && forall k :: 0 <= k < |w| ==> !IsSpace(w[k])
    ensures SplitWhitespace(w) == [w]
  {
    assert w + [] == w;
    SplitWordFirst(w, []);
    assert SplitWhitespace([]) == [] by {
      assert StripLeft([]) == [];
    }
  }

  /** A space and then a word splits into that word. */
  lemma SpaceWord(b: string)
    requires b != [] && forall k :: 0 <= k < |b| ==> !IsSpace(b[k])
    ensures SplitWhitespace(" " + b) == [b]
  {
    SplitAfterSpace(b);
    OneWord(b);
  }

  lemma TwoWords(a: string, b: string)
    requires a != [] && b != []
    requires forall k :: 0 <= k < |a| ==> !IsSpace(a[k])
    requires forall k :: 0 <= k < |b| ==> !IsSpace(b[k])
    ensures SplitWhitespace(a + [' '] + b) == [a, b]
  {
    var sb := " " + b;
    assert a + [' '] + b == a + sb;
    assert IsSpace(sb[0]);
    SplitWordFirst(a, sb);
    SpaceWord(b);
  }

  lemma {:induction false} RemoveCharAppend(a: string, b: string, c: char)
    ensures RemoveChar(a + b, c) == RemoveChar(a, c) + RemoveChar(b, c)
  {
    if a == [] {
      assert a + b == b;
    } else {
      var h := if a[0] == c then [] else [a[0]];
      var x := RemoveChar(a[1..], c);
      var y := RemoveChar(b, c);
      RemoveCharAppend(a[1..], b, c);
      AppendTail(a, b);
      RemoveCharCons(a + b, c);
      RemoveCharCons(a, c);
      AppendAssoc(h, x, y);
    }
  }

  /** The first character is dropped or kept, and the rest cleaned. */
  lemma RemoveCharCons(s: string, c: char)
    requires s != []
    ensures RemoveChar(s, c) == (if s[0] == c then [] else [s[0]]) + RemoveChar(s[1..], c)
  {
  }

  lemma {:induction false} DropLead(c: char, x: string)
    ensures RemoveChar([c] + x, c) == RemoveChar(x, c)
  {
    assert ([c] + x)[1..] == x;
  }

  lemma {:induction false} KeepLead(d: char, c: char, x: string)
    requires d != c
    ensures RemoveChar([d] + x, c) == [d] + RemoveChar(x, c)
  {
    assert ([d] + x)[1..] == x;
  }

  /** A closing ")" after text free of it is all that goes. */
  lemma {:induction false} DropCloser(p: string)
    requires ')' !in p
    ensures RemoveChar(p + [')'], ')') == p
  {
    RemoveCharAppend(p, [')'], ')');
    DropLead(')', []);
    RemoveCharAbsent(p, ')');
  }

  /** Text free of `c` followed by `rest` keeps itself and cleans `rest`. */
  lemma {:induction false} CleanTail(c: char, a: string, rest: string)
    requires c !in a
    ensures RemoveChar([c] + (a + rest), c) == a + RemoveChar(rest, c)
  {
    DropLead(c, a + rest);
    RemoveCharAppend(a, rest, c);
    RemoveCharAbsent(a, c);
  }

  /** " *b" loses its star. */
  lemma {:induction false} SpaceStar(b: string)
    requires '*' !in b
    ensures RemoveChar([' '] + (['*'] + b), '*') == [' '] + b
  {
    KeepLead(' ', '*', ['*'] + b);
    DropLead('*', b);
    RemoveCharAbsent(b, '*');
  }

  /** "*a *b" loses exactly its two stars. */
  lemma {:induction false} DropStars(a: string, b: string)
    requires '*' !in a && '*' !in b
    ensures RemoveChar(['*'] + a + [' ', '*'] + b, '*') == a + [' '] + b
  {
    var rest := [' '] + (['*'] + b);
    assert ['*'] + a + [' ', '*'] + b == ['*'] + (a + rest);
    CleanTail('*', a, rest);
    SpaceStar(b);
    assert a + ([' '] + b) == a + [' '] + b;
  }

  /** "*a *b)" cleans to "a b" for two extensions free of the removed characters. */
  lemma {:induction false} PatternsClean(a: string, b: string)
    requires '*' !in a && ')' !in a && ',' !in a
    requires '*' !in b && ')' !in b && ',' !in b
    ensures Cleaned(['*'] + a + [' ', '*'] + b + [')']) == a + [' '] + b
  {
    var p := ['*'] + a + [' ', '*'] + b;
    DropCloser(p);
    DropStars(a, b);
    RemoveCharAbsent(a + [' '] + b, ',');
  }

  /** A description followed by "(*a *b)" declares the extensions `a` and
      `b`; "Images (*.png *.jpg)" declares ".png" and ".jpg". */
  lemma {:induction false} TwoExtensions(desc: string, a: string, b: string)
    requires '(' !in desc
    requires a != [] && '(' !in a && '*' !in a && ')' !in a && ',' !in a
    requires b != [] && '(' !in b && '*' !in b && ')' !in b && ',' !in b
    requires forall k :: 0 <= k < |a| ==> !IsSpace(a[k])
    requires forall k :: 0 <= k < |b| ==> !IsSpace(b[k])
    ensures GetFileExtensions(desc + "(" + (['*'] + a + [' ', '*'] + b + [')'])) == [a, b]
  {
    var patterns := ['*'] + a + [' ', '*'] + b + [')'];
    assert '(' !in patterns;
    ExtensionsOfDeclared(desc, patterns);
    PatternsClean(a, b);
    TwoWords(a, b);
  }

  lemma ImagesExample()
    ensures GetFileExtensions("Images " + "(" + (['*'] + ".png" + [' ', '*'] + ".jpg" + [')'])) == [".png", ".jpg"]
  {
    TwoExtensions("Images ", ".png", ".jpg");
  }

  // ---------------------------------------------------------------------
  // The folder filter
  // ---------------------------------------------------------------------

  /** A file is kept when no extension is given, or when its lowercased
      name ends with one of the lowercased extensions. */
  predicate Accepts(file: string, exts: seq<string>) {
    exts == [] || exists e :: e in exts && EndsWith(Lower(file), Lower(e))
  }

  /** The extension filter as a test on file names. */
  function Accepting(exts: seq<string>): string -> bool {
    (file: string) => Accepts(file, exts)
  }

  /** Without extensions every file is kept. */
  lemma AcceptsAll(exts: seq<string>)
    requires exts == []
    ensures forall file :: Accepting(exts)(file)
  {
  }

  /** One directory of the walk: its path and the names of its files. */
  datatype WalkDir = WalkDir(root: string, files: seq<string>)

  /** The paths of the files of one directory that `keep` accepts, in
      order; for the script, `keep` is Accepting. */
  function DirImages(root: string, files: seq<string>, keep: string -> bool): seq<string> {
    if files == [] then []
    else
      var last := files[|files| - 1];
      DirImages(root, files[..|files| - 1], keep) + (if keep(last) then [Join(root, last)] else [])
  }

  /** The accepted files of the whole walk, directory by directory. */
  function FolderImages(walk: seq<WalkDir>, keep: string -> bool): seq<string> {
    if walk == [] then []
    else
      var last := walk[|walk| - 1];
      FolderImages(walk[..|walk| - 1], keep) + DirImages(last.root, last.files, keep)
  }

  /** A path is found in a directory exactly when it joins the directory
      with one of its accepted files. */
  lemma {:induction false} DirImagesMembers(root: string, files: seq<string>, keep: string -> bool, p: string)
    ensures p in DirImages(root, files, keep) <==>
            exists j :: 0 <= j < |files| && keep(files[j]) && p == Join(root, files[j])
  {
    if files != [] {
      var front := files[..|files| - 1];
      DirImagesMembers(root, front, keep, p);
      assert forall j :: 0 <= j < |front| ==> front[j] == files[j];
    }
  }

  /** `p` joins one of the visited directories with one of its accepted files. */
  predicate FoundIn(walk: seq<WalkDir>, keep: string -> bool, p: string) {
    exists k, j :: 0 <= k < |walk| && 0 <= j < |walk[k].files|
                   && keep(walk[k].files[j]) && p == Join(walk[k].root, walk[k].files[j])
  }

  /** A path is found in the walk exactly when it joins one of the visited
      directories with one of its accepted files. */
  lemma {:induction false} FolderImagesMembers(walk: seq<WalkDir>, keep: string -> bool, p: string)
    ensures p in FolderImages(walk, keep) <==> FoundIn(walk, keep, p)
  {
    if walk != [] {
      var n := |walk| - 1;
      var front := walk[..n];
      var last := walk[n];
      FolderImagesMembers(front, keep, p);
      DirImagesMembers(last.root, last.files, keep, p);
      assert FolderImages(walk, keep) == FolderImages(front, keep) + DirImages(last.root, last.files, keep);
      if FoundIn(walk, keep, p) {
        var k, j :| 0 <= k < |walk| && 0 <= j < |walk[k].files|
                    && keep(walk[k].files[j]) && p == Join(walk[k].root, walk[k].files[j]);
        if k < n {
          assert front[k] == walk[k];
        }
      }
      if FoundIn(front, keep, p) {
        var k, j :| 0 <= k < |front| && 0 <= j < |front[k].files|
                    && keep(front[k].files[j]) && p == Join(front[k].root, front[k].files[j]);
        assert walk[k] == front[k];
      }
    }
  }

  /** The number of files the walk visits. */
  function TotalFiles(walk: seq<WalkDir>): nat {
    if walk == [] then 0 else TotalFiles(walk[..|walk| - 1]) + |walk[|walk| - 1].files|
  }

  /** Never more paths than files visited; every visited file when `keep`
      accepts everything. */
  lemma {:induction false} FolderImagesCount(walk: seq<WalkDir>, keep: string -> bool)
    ensures |FolderImages(walk, keep)| <= TotalFiles(walk)
    ensures (forall file :: keep(file)) ==> |FolderImages(walk, keep)| == TotalFiles(walk)
  {
    if walk != [] {
      var last := walk[|walk| - 1];
      FolderImagesCount(walk[..|walk| - 1], keep);
      DirImagesCount(last.root, last.files, keep);
    }
  }

  lemma {:induction false} DirImagesCount(root: string, files: seq<string>, keep: string -> bool)
    ensures |DirImages(root, files, keep)| <= |files|
    ensures (forall file :: keep(file)) ==> |DirImages(root, files, keep)| == |files|
  {
    if files != [] {
      DirImagesCount(root, files[..|files| - 1], keep);
    }
  }

  /** Without extensions every visited file is kept; with them, no more. */
  lemma ExtensionFilterCount(walk: seq<WalkDir>, exts: seq<string>)
    ensures |FolderImages(walk, Accepting(exts))| <= TotalFiles(walk)
    ensures exts == [] ==> |FolderImages(walk, Accepting(exts))| == TotalFiles(walk)
  {
    FolderImagesCount(walk, Accepting(exts));
    if exts == [] {
      AcceptsAll(exts);
    }
  }

  /** The file loop's step: the next file adds its path when it is accepted. */
  lemma DirImagesNext(root: string, files: seq<string>, j: nat, keep: string -> bool, found: seq<string>)
    requires j < |files| && found == DirImages(root, files[..j], keep)
    ensures DirImages(root, files[..j + 1], keep)
            == found + (if keep(files[j]) then [Join(root, files[j])] else [])
  {
    assert files[..j + 1][..j] == files[..j];
  }

  /** The walk loop's step: the next directory adds its accepted files. */
  lemma FolderImagesNext(walk: seq<WalkDir>, k: nat, keep: string -> bool, before: seq<string>, images: seq<string>)
    requires k < |walk| && before == FolderImages(walk[..k], keep)
    requires images == before + DirImages(walk[k].root, walk[k].files, keep)
    ensures images == FolderImages(walk[..k + 1], keep)
  {
    assert walk[..k + 1][..k] == walk[..k];
  }

  /** `get_images_from_folder(folder, extensions)` over the walk of `folder`. */
  method GetImagesFromFolder(walk: seq<WalkDir>, exts: seq<string>) returns (images: seq<string>)
    ensures images == FolderImages(walk, Accepting(exts))
  {
    ghost var keep := Accepting(exts);
    images := [];
    var k := 0;
    while k < |walk|
      invariant 0 <= k <= |walk|
      invariant images == FolderImages(walk[..k], keep)
    {
      var root := walk[k].root;
      var files := walk[k].files;
      ghost var before := images;
      var j := 0;
      while j < |files|
        invariant 0 <= j <= |files|
        invariant images == before + DirImages(root, files[..j], keep)
      {
        var file := files[j];
        ghost var found := DirImages(root, files[..j], keep);
        DirImagesNext(root, files, j, keep, found);
        if exts == [] || exists e :: e in exts && EndsWith(Lower(file), Lower(e)) {
          assert before + found + [Join(root, file)] == before + (found + [Join(root, file)]);
          images := images + [Join(root, file)];
        } else {
          assert found + [] == found;
        }
        j := j + 1;
      }
      assert files[..|files|] == files;
      FolderImagesNext(walk, k, keep, before, images);
      k := k + 1;
    }
    assert walk[..|walk|] == walk;
  }
}

=== FILE: llm_config.dfy ===
/** The registry of language-model endpoints (config/llm_config.py). The
    registry lives in one JSON file holding the list of configurations and
    the id of the current one; every operation reads the file, changes the
    list and writes it back. The file is the state of `LlmStore`; whether a
    write succeeds is an input of each writing operation. */
module LlmConfig {
  import opened Optional
  import opened Strings

  /** One configuration as stored: "id", "name", "endpoint", "model", "api_key". */
  datatype LlmEntry = LlmEntry(id: string, name: string, endpoint: string, model: string, apiKey: string)

  /** A configuration as handed out, with its "is_current" marker. */
  datatype Llm = Llm(entry: LlmEntry, isCurrent: bool)

  /** The configuration file: absent, not decodable, or its two keys
      (a missing "llms" key reads as [], a missing or null id as None). */
  datatype ConfigFile =
    | NoFile
    | Unreadable
    | Stored(llms: seq<LlmEntry>, currentId: Option<string>)

  /** How a write of the configuration file ends: it completes; it fails
      before `open(..., "w")` truncates the file (creating the directory or
      opening fails), so the old file stays; or it fails after the
      truncation, while the JSON is dumped or the file closed, so what is
      left is empty or cut short and no longer decodes. */
  datatype WriteOutcome = Written | FailedBeforeOpen | FailedWhileWriting

  /** `DEFAULT_LLMS` */
  const DefaultLlms: seq<LlmEntry> := [
    LlmEntry("openai-gpt4o", "OpenAI GPT-4o", "https://api.openai.com/v1/chat/completions", "gpt-4o", ""),
    LlmEntry("ollama-local", "Ollama (Local)", "http://localhost:11434/v1/chat/completions", "llama3", "")
  ]

  /** The entries of a marked list, markers dropped. */
  function Entries(llms: seq<Llm>): (r: seq<LlmEntry>)
    ensures |r| == |llms| && forall i :: 0 <= i < |llms| ==> r[i] == llms[i].entry
  {
    seq(|llms|, i requires 0 <= i < |llms| => llms[i].entry)
  }

  /** No two entries share an id. */
  predicate UniqueIds(entries: seq<LlmEntry>) {
    forall i, j :: 0 <= i < j < |entries| ==> entries[i].id != entries[j].id
  }

  /** The ids in use. */
  function Ids(llms: seq<Llm>): (r: set<string>)
    ensures forall i :: 0 <= i < |llms| ==> llms[i].entry.id in r
    ensures forall x :: x in r ==> exists i :: 0 <= i < |llms| && llms[i].entry.id == x
  {
    set i | 0 <= i < |llms| :: llms[i].entry.id
  }

  /** The ids in use are the ids of the entries. */
  lemma IdsOfEntries(llms: seq<Llm>)
    ensures Ids(llms) == set e | e in Entries(llms) :: e.id
  {
    var es := Entries(llms);
    forall x | x in Ids(llms) ensures x in set e | e in es :: e.id {
      var i :| 0 <= i < |llms| && llms[i].entry.id == x;
      assert es[i] in es;
    }
    forall x | x in set e | e in es :: e.id ensures x in Ids(llms) {
      var e :| e in es && e.id == x;
      var i :| 0 <= i < |es| && es[i] == e;
      assert llms[i].entry.id == x;
    }
  }

  /** There are never more ids than entries, and exactly as many when no
      two entries share one. */
  lemma {:induction false} IdsCount(llms: seq<Llm>)
    ensures |Ids(llms)| <= |llms|
    ensures UniqueIds(Entries(llms)) <==> |Ids(llms)| == |llms|
  {
    if llms == [] {
      assert Ids(llms) == {};
    } else {
      var n := |llms| - 1;
      var front := llms[..n];
      var x := llms[n].entry.id;
      IdsCount(front);
      IdsSnoc(llms);
      UniqueSnoc(llms);
      if x in Ids(front) {
        assert Ids(llms) == Ids(front);
      } else {
        assert |Ids(llms)| == |Ids(front)| + 1;
      }
    }
  }

  /** The ids of a list are those of all but its last entry, and the last one's. */
  lemma IdsSnoc(llms: seq<Llm>)
    requires llms != []
    ensures Ids(llms) == Ids(llms[..|llms| - 1]) + {llms[|llms| - 1].entry.id}
  {
    var front := llms[..|llms| - 1];
    forall x | x in Ids(front) ensures x in Ids(llms) {
      var i :| 0 <= i < |front| && front[i].entry.id == x;
      assert llms[i] == front[i];
    }
    forall x | x in Ids(llms) ensures x in Ids(front) || x == llms[|llms| - 1].entry.id {
      var i :| 0 <= i < |llms| && llms[i].entry.id == x;
      if i < |front| {
        assert front[i] == llms[i];
      }
    }
  }

  /** A list has unique ids exactly when all but its last entry do and the
      last one's id is not among theirs. */
  lemma UniqueSnoc(llms: seq<Llm>)
    requires llms != []
    ensures UniqueIds(Entries(llms)) <==>
            UniqueIds(Entries(llms[..|llms| - 1])) && llms[|llms| - 1].entry.id !in Ids(llms[..|llms| - 1])
  {
    var n := |llms| - 1;
    var front := llms[..n];
    var es := Entries(llms);
    var fs := Entries(front);
    assert forall i :: 0 <= i < n ==> fs[i] == es[i];
    if UniqueIds(es) {
      forall i | 0 <= i < n ensures front[i].entry.id != llms[n].entry.id {
        assert es[i].id != es[n].id;
      }
    }
    if UniqueIds(fs) && llms[n].entry.id !in Ids(front) {
      forall i, j | 0 <= i < j < |es| ensures es[i].id != es[j].id {
        if j == n {
          assert front[i] == llms[i];
        } else {
          assert fs[i] == es[i] && fs[j] == es[j];
        }
      }
    }
  }

  // ---------------------------------------------------------------------
  // Reading
  // ---------------------------------------------------------------------

  /** `get_all_llms`: the stored list, an entry marked current exactly when
      its id is the stored current id; without a readable file, the defaults
      with only the first marked. */
  function AllLlms(f: ConfigFile): (r: seq<Llm>)
    ensures f.Stored? ==> Entries(r) == f.llms
    ensures f.Stored? ==> forall i :: 0 <= i < |r| ==> (r[i].isCurrent <==> f.currentId == Some(f.llms[i].id))
    ensures !f.Stored? ==> Entries(r) == DefaultLlms
    ensures !f.Stored? ==> forall i :: 0 <= i < |r| ==> (r[i].isCurrent <==> i == 0)
  {
    match f
    case Stored(llms, current) =>
      seq(|llms|, i requires 0 <= i < |llms| => Llm(llms[i], current == Some(llms[i].id)))
    case _ =>
      [Llm(DefaultLlms[0], true), Llm(DefaultLlms[1], false)]
  }

  /** The index of the first entry marked current. */
  function FirstMarked(llms: seq<Llm>): (r: Option<nat>)
    ensures r.Some? ==> r.value < |llms| && llms[r.value].isCurrent
                        && forall j :: 0 <= j < r.value ==> !llms[j].isCurrent
    ensures r.None? <==> forall j :: 0 <= j < |llms| ==> !llms[j].isCurrent
  {
    if llms == [] then None
    else if llms[0].isCurrent then Some(0)
    else match FirstMarked(llms[1..])
      case None => None
      case Some(i) => Some(i + 1)
  }

  /** `get_current_llm`: the first marked entry, else the first entry, else None. */
  function CurrentOf(llms: seq<Llm>): (r: Option<Llm>)
    ensures r.None? <==> llms == []
    ensures FirstMarked(llms).Some? ==> r == Some(llms[FirstMarked(llms).value])
    ensures FirstMarked(llms).None? && llms != [] ==> r == Some(llms[0])
  {
    match FirstMarked(llms)
    case Some(i) => Some(llms[i])
    case None => if llms == [] then None else Some(llms[0])
  }

  /** Without a configuration file the first default is current. */
  lemma CurrentWithoutFile()
    ensures CurrentOf(AllLlms(NoFile)) == Some(Llm(DefaultLlms[0], true))
  {
    assert FirstMarked(AllLlms(NoFile)) == Some(0);
  }

  // ---------------------------------------------------------------------
  // Saving
  // ---------------------------------------------------------------------

  /** The id `save_llms` records as current: that of the first marked entry
      when it is not empty, otherwise that of the first entry; None for an
      empty list. */
  function PersistedCurrentId(llms: seq<Llm>): (r: Option<string>)
    ensures r.None? <==> llms == []
    ensures r.Some? ==> exists i :: 0 <= i < |llms| && r.value == llms[i].entry.id
    ensures FirstMarked(llms).Some? && llms[FirstMarked(llms).value].entry.id != "" ==>
              r == Some(llms[FirstMarked(llms).value].entry.id)
    ensures llms != [] && (FirstMarked(llms).None? || llms[FirstMarked(llms).value].entry.id == "") ==>
              r == Some(llms[0].entry.id)
  {
    match FirstMarked(llms)
    case Some(i) => if llms[i].entry.id != "" then Some(llms[i].entry.id) else Some(llms[0].entry.id)
    case None => if llms == [] then None else Some(llms[0].entry.id)
  }

  /** The file `save_llms` writes: the entries without their markers, and the current id. */
  function Persist(llms: seq<Llm>): ConfigFile {
    Stored(Entries(llms), PersistedCurrentId(llms))
  }

  /** The file after an attempt to write `saved` that ends as `write` says. */
  function AfterWrite(before: ConfigFile, saved: ConfigFile, write: WriteOutcome): ConfigFile {
    match write
    case Written => saved
    case FailedBeforeOpen => before
    case FailedWhileWriting => Unreadable
  }

  /** What the next `get_all_llms` sees after a save: the saved list when
      the write completes, the earlier list when it failed before the file
      was opened, and the two defaults (the first current) once a failure
      after the truncation has left the file undecodable. */
  lemma ReadAfterSave(before: ConfigFile, llms: seq<Llm>, k: nat, write: WriteOutcome)
    requires UniqueIds(Entries(llms))
    requires k < |llms| && llms[k].entry.id != ""
    requires forall i :: 0 <= i < |llms| ==> (llms[i].isCurrent <==> i == k)
    ensures write.Written? ==> AllLlms(AfterWrite(before, Persist(llms), write)) == llms
    ensures write.FailedBeforeOpen? ==> AllLlms(AfterWrite(before, Persist(llms), write)) == AllLlms(before)
    ensures write.FailedWhileWriting? ==>
              AllLlms(AfterWrite(before, Persist(llms), write)) == [Llm(DefaultLlms[0], true), Llm(DefaultLlms[1], false)]
  {
    if write.Written? {
      SaveLoadRoundTrip(llms, k);
    }
  }

  /** A list with unique ids and exactly one marked entry, whose id is not
      empty, reads back from the saved file as it was. */
  lemma SaveLoadRoundTrip(llms: seq<Llm>, k: nat)
    requires UniqueIds(Entries(llms))
    requires k < |llms| && llms[k].entry.id != ""
    requires forall i :: 0 <= i < |llms| ==> (llms[i].isCurrent <==> i == k)
    ensures AllLlms(Persist(llms)) == llms
  {
    assert FirstMarked(llms) == Some(k);
    var r := AllLlms(Persist(llms));
    forall i | 0 <= i < |llms| ensures r[i] == llms[i] {
      assert r[i].entry == Entries(llms)[i];
    }
  }

  /** Saving never loses an entry and never stores a marker, and the saved
      file names the current entry of the list saved, when it has an id. */
  lemma SaveKeepsCurrent(llms: seq<Llm>)
    requires UniqueIds(Entries(llms))
    requires CurrentOf(llms).Some? && CurrentOf(llms).value.entry.id != ""
    ensures Entries(AllLlms(Persist(llms))) == Entries(llms)
    ensures CurrentOf(AllLlms(Persist(llms))) == Some(Llm(CurrentOf(llms).value.entry, true))
  {
    var r := AllLlms(Persist(llms));
    var id := CurrentOf(llms).value.entry.id;
    var k: nat := if FirstMarked(llms).Some? then FirstMarked(llms).value else 0;
    assert llms[k].entry.id == id;
    assert r[k].isCurrent;
    forall j | 0 <= j < |r| && j != k ensures !r[j].isCurrent {
      assert Entries(llms)[j].id != Entries(llms)[k].id;
    }
    assert FirstMarked(r) == Some(k);
    assert r[k].entry == Entries(llms)[k];
  }

  // ---------------------------------------------------------------------
  // Adding
  // ---------------------------------------------------------------------

  /** The id stem of a new configuration: the name lower-cased, with spaces
      and slashes turned into hyphens. */
  function BaseId(name: string): (r: string)
    ensures |r| == |name|
    ensures ' ' !in r && '/' !in r
  {
    ReplaceChar(ReplaceChar(Lower(name), ' ', '-'), '/', '-')
  }

  lemma BaseIdExample()
    ensures BaseId("OpenAI GPT-4o") == "openai-gpt-4o"
  {
  }

  /** The `c`-th id tried for stem `base`: the stem itself, then "base-1", "base-2", ... */
  function Candidate(base: string, c: nat): (r: string)
    ensures StartsWith(r, base)
  {
    if c <= 1 then base else base + "-" + NatToString(c - 1)
  }

  /** Different attempts try different ids. */
  lemma CandidateInjective(base: string, a: nat, b: nat)
    requires 1 <= a && 1 <= b && a != b
    ensures Candidate(base, a) != Candidate(base, b)
  {
    if a > 1 && b > 1 && Candidate(base, a) == Candidate(base, b) {
      var n := |base| + 1;
      assert Candidate(base, a)[n..] == NatToString(a - 1);
      assert Candidate(base, b)[n..] == NatToString(b - 1);
      NatToStringInjective(a - 1, b - 1);
    }
  }

  /** The ids tried by the first `m` attempts. */
  function CandidatesUpTo(base: string, m: nat): set<string> {
    if m == 0 then {} else CandidatesUpTo(base, m - 1) + {Candidate(base, m)}
  }

  lemma {:induction false} CandidatesUpToSize(base: string, m: nat)
    ensures |CandidatesUpTo(base, m)| == m
    ensures forall k :: k > m ==> Candidate(base, k) !in CandidatesUpTo(base, m)
  {
    if m > 0 {
      CandidatesUpToSize(base, m - 1);
      forall k | k > m ensures Candidate(base, k) != Candidate(base, m) {
        CandidateInjective(base, k, m);
      }
    }
  }

  lemma {:induction false} CandidatesUpToTaken(base: string, ids: set<string>, m: nat)
    requires forall c :: 1 <= c <= m ==> Candidate(base, c) in ids
    ensures CandidatesUpTo(base, m) <= ids
  {
    if m > 0 {
      CandidatesUpToTaken(base, ids, m - 1);
    }
  }

  /** If the first `m` attempts all hit a used id, there are at least `m` used ids. */
  lemma CandidatesTaken(base: string, ids: set<string>, m: nat)
    requires forall c :: 1 <= c <= m ==> Candidate(base, c) in ids
    ensures m <= |ids|
  {
    CandidatesUpToSize(base, m);
    CandidatesUpToTaken(base, ids, m);
    SubsetSize(CandidatesUpTo(base, m), ids);
  }

  lemma SubsetSize(a: set<string>, b: set<string>)
    requires a <= b
    ensures |a| <= |b|
  {
    assert b == a + (b - a);
  }

  /** The first free id from attempt `counter` on. */
  function FreshIdFrom(base: string, ids: set<string>, counter: nat): (id: string)
    requires counter >= 1
    requires forall c :: 1 <= c < counter ==> Candidate(base, c) in ids
    ensures id !in ids
    decreases |ids| + 1 - counter
  {
    if Candidate(base, counter) in ids then
      CandidatesTaken(base, ids, counter);
      FreshIdFrom(base, ids, counter + 1)
    else Candidate(base, counter)
  }

  /** The id `add_llm` gives a new configuration with stem `base`. */
  function FreshId(base: string, ids: set<string>): (id: string)
    ensures id !in ids
    ensures StartsWith(id, base)
  {
    FreshIdShape(base, ids, 1);
    FreshIdFrom(base, ids, 1)
  }

  /** The id found is the first attempt that is free. */
  lemma {:induction false} FreshIdShape(base: string, ids: set<string>, counter: nat)
    requires counter >= 1
    requires forall c :: 1 <= c < counter ==> Candidate(base, c) in ids
    ensures exists n :: n >= counter && FreshIdFrom(base, ids, counter) == Candidate(base, n)
                        && forall c :: 1 <= c < n ==> Candidate(base, c) in ids
    decreases |ids| + 1 - counter
  {
    if Candidate(base, counter) in ids {
      CandidatesTaken(base, ids, counter);
      FreshIdShape(base, ids, counter + 1);
    }
  }

  /** A free stem is used as it is; a used one gets the smallest free "-k". */
  lemma FreshIdIsFirstFree(base: string, ids: set<string>)
    ensures base !in ids ==> FreshId(base, ids) == base
    ensures base in ids ==> exists k: nat :: k >= 1 && FreshId(base, ids) == base + "-" + NatToString(k)
                             && forall j :: 1 <= j < k ==> base + "-" + NatToString(j) in ids
  {
    FreshIdShape(base, ids, 1);
    if base in ids {
      var n :| n >= 1 && FreshIdFrom(base, ids, 1) == Candidate(base, n)
               && forall c :: 1 <= c < n ==> Candidate(base, c) in ids;
      assert n > 1;
      forall j | 1 <= j < n - 1 ensures base + "-" + NatToString(j) in ids {
        assert Candidate(base, j + 1) in ids;
      }
    }
  }

  /** `add_llm`'s list: the new configuration, not current, appended. */
  function Added(llms: seq<Llm>, name: string, endpoint: string, model: string, apiKey: string): (r: seq<Llm>)
    ensures |r| == |llms| + 1 && r[..|llms|] == llms
    ensures r[|llms|] == Llm(LlmEntry(r[|llms|].entry.id, name, endpoint, model, apiKey), false)
    ensures r[|llms|].entry.id !in Ids(llms)
    ensures UniqueIds(Entries(llms)) ==> UniqueIds(Entries(r))
  {
    var id := FreshId(BaseId(name), Ids(llms));
    var r := llms + [Llm(LlmEntry(id, name, endpoint, model, apiKey), false)];
    assert r[..|llms|] == llms;
    r
  }

  // ---------------------------------------------------------------------
  // Updating, deleting, selecting
  // ---------------------------------------------------------------------

  /** The index of the first configuration with id `id`. */
  function FirstWithId(llms: seq<Llm>, id: string): (r: Option<nat>)
    ensures r.Some? ==> r.value < |llms| && llms[r.value].entry.id == id
                        && forall j :: 0 <= j < r.value ==> llms[j].entry.id != id
    ensures r.None? <==> forall j :: 0 <= j < |llms| ==> llms[j].entry.id != id
  {
    if llms == [] then None
    else if llms[0].entry.id == id then Some(0)
    else match FirstWithId(llms[1..], id)
      case None => None
      case Some(i) => Some(i + 1)
  }

  /** `update_llm`'s list: the first configuration with the id gets the
      new name, endpoint, model and key; id and marker stay. */
  function Updated(llms: seq<Llm>, i: nat, name: string, endpoint: string, model: string, apiKey: string): (r: seq<Llm>)
    requires i < |llms|
    ensures |r| == |llms|
    ensures forall j :: 0 <= j < |llms| && j != i ==> r[j] == llms[j]
    ensures r[i] == Llm(LlmEntry(llms[i].entry.id, name, endpoint, model, apiKey), llms[i].isCurrent)
    ensures Ids(r) == Ids(llms)
    ensures UniqueIds(Entries(llms)) ==> UniqueIds(Entries(r))
  {
    var r := llms[i := Llm(LlmEntry(llms[i].entry.id, name, endpoint, model, apiKey), llms[i].isCurrent)];
    assert forall j :: 0 <= j < |r| ==> r[j].entry.id == llms[j].entry.id;
    r
  }

  /** The configurations whose id is not `id`, in their order. */
  function Without(llms: seq<Llm>, id: string): (r: seq<Llm>)
    ensures |r| <= |llms|
    ensures forall j :: 0 <= j < |r| ==> r[j].entry.id != id
    decreases |llms|
  {
    if llms == [] then []
    else
      var init := Without(llms[..|llms| - 1], id);
      if llms[|llms| - 1].entry.id == id then init else init + [llms[|llms| - 1]]
  }

  /** One more configuration is kept unless it has the id. */
  lemma WithoutNext(llms: seq<Llm>, k: nat, id: string, rest: seq<Llm>)
    requires k < |llms| && rest == Without(llms[..k], id)
    ensures Without(llms[..k + 1], id) == rest + (if llms[k].entry.id != id then [llms[k]] else [])
  {
    assert llms[..k + 1][..k] == llms[..k];
  }

  lemma {:induction false} WithoutMembers(llms: seq<Llm>, id: string, x: Llm)
    ensures x in Without(llms, id) <==> x in llms && x.entry.id != id
    decreases |llms|
  {
    if llms != [] {
      WithoutMembers(llms[..|llms| - 1], id, x);
      assert llms == llms[..|llms| - 1] + [llms[|llms| - 1]];
    }
  }

  /** Unique ids stay unique without the last entry, whose id no earlier
      entry has. */
  lemma UniqueFront(llms: seq<Llm>)
    requires llms != [] && UniqueIds(Entries(llms))
    ensures UniqueIds(Entries(llms[..|llms| - 1]))
    ensures forall j :: 0 <= j < |llms| - 1 ==> llms[j].entry.id != llms[|llms| - 1].entry.id
  {
    var n := |llms| - 1;
    var e := Entries(llms);
    forall j | 0 <= j < n ensures llms[j].entry.id != llms[n].entry.id {
      assert e[j].id != e[n].id;
    }
    assert Entries(llms[..n]) == e[..n];
  }

  /** With unique ids, removing a present id removes exactly one entry,
      and one that is absent removes none. */
  lemma {:induction false} WithoutCount(llms: seq<Llm>, id: string)
    requires UniqueIds(Entries(llms))
    ensures FirstWithId(llms, id).Some? ==> |Without(llms, id)| == |llms| - 1
    ensures FirstWithId(llms, id).None? ==> Without(llms, id) == llms
    decreases |llms|
  {
    if FirstWithId(llms, id).None? {
      WithoutAbsent(llms, id);
    } else {
      var init := llms[..|llms| - 1];
      var last := llms[|llms| - 1];
      UniqueFront(llms);
      if last.entry.id == id {
        WithoutAbsent(init, id);
      } else {
        var k := FirstWithId(llms, id).value;
        assert init[k] == llms[k];
        WithoutCount(init, id);
      }
    }
  }

  /** Removing an id that no configuration has changes nothing. */
  lemma {:induction false} WithoutAbsent(llms: seq<Llm>, id: string)
    requires forall j :: 0 <= j < |llms| ==> llms[j].entry.id != id
    ensures Without(llms, id) == llms
    decreases |llms|
  {
    if llms != [] {
      var init := llms[..|llms| - 1];
      WithoutAbsent(init, id);
      assert llms == init + [llms[|llms| - 1]];
    }
  }

  /** `delete_llm`'s list, when there are at least two configurations:
      every configuration with the id removed, and the first remaining one
      marked current when the first removed one was current. */
  function Deleted(llms: seq<Llm>, id: string): (r: seq<Llm>)
  {
    var wasCurrent := match FirstWithId(llms, id)
      case Some(i) => llms[i].isCurrent
      case None => false;
    var rest := Without(llms, id);
    if wasCurrent && rest != [] then rest[0 := Llm(rest[0].entry, true)] else rest
  }

  /** Deleted in terms of the two loops of `delete_llm`: whether the first
      entry with the id was current, and the entries kept. */
  lemma DeletedOf(llms: seq<Llm>, id: string, wasCurrent: bool, rest: seq<Llm>)
    requires wasCurrent == (FirstWithId(llms, id).Some? && llms[FirstWithId(llms, id).value].isCurrent)
    requires rest == Without(llms, id)
    ensures Deleted(llms, id) == if wasCurrent && rest != [] then rest[0 := Llm(rest[0].entry, true)] else rest
  {
  }

  /** With unique ids, deleting from a list of at least two entries leaves
      at least one, and the removed id is gone. */
  lemma DeleteKeepsOne(llms: seq<Llm>, id: string)
    requires |llms| >= 2 && UniqueIds(Entries(llms))
    ensures |Deleted(llms, id)| >= 1
    ensures forall j :: 0 <= j < |Deleted(llms, id)| ==> Deleted(llms, id)[j].entry.id != id
    ensures FirstWithId(llms, id).None? ==> Deleted(llms, id) == llms
  {
    WithoutCount(llms, id);
  }

  /** Deleting the current configuration makes the first remaining one current. */
  lemma DeleteCurrentMovesToFirst(llms: seq<Llm>, id: string)
    requires |llms| >= 2 && UniqueIds(Entries(llms))
    requires FirstWithId(llms, id).Some? && llms[FirstWithId(llms, id).value].isCurrent
    ensures |Deleted(llms, id)| >= 1 && Deleted(llms, id)[0].isCurrent
    ensures CurrentOf(Deleted(llms, id)) == Some(Deleted(llms, id)[0])
  {
    WithoutCount(llms, id);
  }

  /** The ids stay unique when entries are removed. */
  lemma {:induction false} WithoutUnique(llms: seq<Llm>, id: string)
    requires UniqueIds(Entries(llms))
    ensures UniqueIds(Entries(Without(llms, id)))
    decreases |llms|
  {
    if llms != [] {
      var init := llms[..|llms| - 1];
      var last := llms[|llms| - 1];
      UniqueFront(llms);
      WithoutUnique(init, id);
      if last.entry.id != id {
        var r := Without(llms, id);
        var w := Without(init, id);
        forall j | 0 <= j < |w| ensures w[j].entry.id != last.entry.id {
          WithoutMembers(init, id, w[j]);
          var k :| 0 <= k < |init| && init[k] == w[j];
        }
        assert r == w + [last];
        assert forall j :: 0 <= j < |w| ==> Entries(r)[j] == Entries(w)[j];
      }
    }
  }

  /** `set_current_llm`'s list: exactly the entries with the id are marked. */
  function Selected(llms: seq<Llm>, id: string): (r: seq<Llm>)
    ensures Entries(r) == Entries(llms)
    ensures forall j :: 0 <= j < |r| ==> (r[j].isCurrent <==> llms[j].entry.id == id)
  {
    seq(|llms|, j requires 0 <= j < |llms| => Llm(llms[j].entry, llms[j].entry.id == id))
  }

  /** After selecting an id that is present and not empty, the saved file
      names it as current; selecting an id that is absent makes the first
      entry current. */
  lemma SelectPersists(llms: seq<Llm>, id: string)
    requires llms != []
    ensures FirstWithId(llms, id).Some? && id != "" ==> Persist(Selected(llms, id)).currentId == Some(id)
    ensures FirstWithId(llms, id).None? ==> Persist(Selected(llms, id)).currentId == Some(llms[0].entry.id)
  {
    var r := Selected(llms, id);
    assert |r| == |Entries(r)| == |llms|;
    match FirstWithId(llms, id)
    case Some(k) =>
      assert r[k].isCurrent;
      assert r[k].entry == Entries(r)[k] == llms[k].entry;
      var m := FirstMarked(r);
      assert m.Some? && m.value <= k;
      assert r[m.value].isCurrent;
      assert llms[m.value].entry.id == id;
    case None =>
      assert forall j :: 0 <= j < |r| ==> !r[j].isCurrent;
      assert FirstMarked(r).None?;
      assert r[0].entry == Entries(r)[0] == llms[0].entry;
  }

  /** The first loop of `delete_llm`: whether the first configuration with
      the id is marked current (false when there is none). */
  method FirstIsCurrent(llms: seq<Llm>, id: string) returns (wasCurrent: bool)
    ensures wasCurrent == (FirstWithId(llms, id).Some? && llms[FirstWithId(llms, id).value].isCurrent)
  {
    wasCurrent := false;
    var i := 0;
    while i < |llms|
      invariant 0 <= i <= |llms|
      invariant forall j :: 0 <= j < i ==> llms[j].entry.id != id
      invariant !wasCurrent
    {
      if llms[i].entry.id == id {
        assert FirstWithId(llms, id) == Some(i);
        wasCurrent := llms[i].isCurrent;
        return;
      }
      i := i + 1;
    }
  }

  /** The list comprehension of `delete_llm`: the configurations whose id
      differs, in order. */
  method KeepOthers(llms: seq<Llm>, id: string) returns (rest: seq<Llm>)
    ensures rest == Without(llms, id)
  {
    rest := [];
    var k := 0;
    while k < |llms|
      invariant 0 <= k <= |llms|
      invariant rest == Without(llms[..k], id)
    {
      WithoutNext(llms, k, id, rest);
      if llms[k].entry.id != id {
        rest := rest + [llms[k]];
      }
      k := k + 1;
    }
    assert llms[..|llms|] == llms;
  }

  /** `delete_llm`'s list: the two loops, then the first kept configuration
      marked current when the first removed one was current. */
  method DeleteFromList(llms: seq<Llm>, id: string) returns (rest: seq<Llm>)
    ensures rest == Deleted(llms, id)
  {
    var wasCurrent := FirstIsCurrent(llms, id);
    rest := KeepOthers(llms, id);
    DeletedOf(llms, id, wasCurrent, rest);
    if wasCurrent && rest != [] {
      rest := rest[0 := Llm(rest[0].entry, true)];
    }
  }

  // ---------------------------------------------------------------------
  // The store
  // ---------------------------------------------------------------------

  /** The configuration file and the module-level functions that read and write it. */
  class LlmStore {
    var file: ConfigFile

    constructor(file: ConfigFile)
      ensures this.file == file
    {
      this.file := file;
    }

    /** `get_all_llms` */
    method GetAllLlms() returns (r: seq<Llm>)
      ensures r == AllLlms(file)
    {
      match file
      case Stored(llms, current) =>
        r := [];
        var i := 0;
        while i < |llms|
          invariant 0 <= i <= |llms|
          invariant |r| == i
          invariant forall j :: 0 <= j < i ==> r[j] == Llm(llms[j], current == Some(llms[j].id))
        {
          r := r + [Llm(llms[i], current == Some(llms[i].id))];
          i := i + 1;
        }
      case _ =>
        r := [Llm(DefaultLlms[0], true), Llm(DefaultLlms[1], false)];
    }

    /** `get_current_llm` */
    method GetCurrentLlm() returns (r: Option<Llm>)
      ensures r == CurrentOf(AllLlms(file))
    {
      var llms := GetAllLlms();
      var i := 0;
      while i < |llms|
        invariant 0 <= i <= |llms|
        invariant forall j :: 0 <= j < i ==> !llms[j].isCurrent
      {
        if llms[i].isCurrent {
          assert FirstMarked(llms) == Some(i);
          return Some(llms[i]);
        }
        i := i + 1;
      }
      r := if llms == [] then None else Some(llms[0]);
    }

    /** `save_llms`: `write` says how creating the directory and writing the
        file end; the result is True exactly when the write completes. */
    method SaveLlms(llms: seq<Llm>, write: WriteOutcome) returns (ok: bool)
      modifies this
      ensures ok == write.Written?
      ensures file == AfterWrite(old(file), Persist(llms), write)
    {
      if write.FailedBeforeOpen? {
        return false;
      }
      if write.FailedWhileWriting? {
        file := Unreadable;
        return false;
      }
      var current: Option<string> := None;
      var i := 0;
      while i < |llms|
        invariant 0 <= i <= |llms|
        invariant forall j :: 0 <= j < i ==> !llms[j].isCurrent
        invariant current == None
      {
        if llms[i].isCurrent {
          assert FirstMarked(llms) == Some(i);
          current := Some(llms[i].entry.id);
          break;
        }
        i := i + 1;
      }
      if (current.None? || current.value == "") && llms != [] {
        current := Some(llms[0].entry.id);
      }
      var toSave := seq(|llms|, j requires 0 <= j < |llms| => llms[j].entry);
      file := Stored(toSave, current);
      ok := true;
    }

    /** The id the loop of `add_llm` settles on. */
    method UniqueId(base: string, llms: seq<Llm>) returns (id: string)
      ensures id == FreshId(base, Ids(llms))
    {
      var ids := Ids(llms);
      id := base;
      var counter := 1;
      while exists j :: 0 <= j < |llms| && llms[j].entry.id == id
        invariant counter >= 1 && id == Candidate(base, counter)
        invariant forall c :: 1 <= c < counter ==> Candidate(base, c) in ids
        invariant FreshIdFrom(base, ids, counter) == FreshIdFrom(base, ids, 1)
        decreases |ids| + 1 - counter
      {
        CandidatesTaken(base, ids, counter);
        id := base + "-" + NatToString(counter);
        counter := counter + 1;
      }
    }

    /** `add_llm` */
    method AddLlm(name: string, endpoint: string, model: string, apiKey: string, write: WriteOutcome)
      returns (ok: bool)
      modifies this
      ensures ok == write.Written?
      ensures file == AfterWrite(old(file), Persist(Added(AllLlms(old(file)), name, endpoint, model, apiKey)), write)
    {
      var llms := GetAllLlms();
      var id := UniqueId(BaseId(name), llms);
      llms := llms + [Llm(LlmEntry(id, name, endpoint, model, apiKey), false)];
      ok := SaveLlms(llms, write);
    }

    /** `update_llm`: False, and no write, when no configuration has the id. */
    method UpdateLlm(id: string, name: string, endpoint: string, model: string, apiKey: string, write: WriteOutcome)
      returns (ok: bool)
      modifies this
      ensures FirstWithId(AllLlms(old(file)), id).None? ==> !ok && file == old(file)
      ensures FirstWithId(AllLlms(old(file)), id).Some? ==>
                ok == write.Written?
                && file == AfterWrite(old(file), Persist(Updated(AllLlms(old(file)), FirstWithId(AllLlms(old(file)), id).value,
                                                                  name, endpoint, model, apiKey)), write)
    {
      var llms := GetAllLlms();
      var i := 0;
      while i < |llms|
        invariant 0 <= i <= |llms|
        invariant forall j :: 0 <= j < i ==> llms[j].entry.id != id
      {
        if llms[i].entry.id == id {
          assert FirstWithId(llms, id) == Some(i);
          llms := llms[i := Llm(LlmEntry(id, name, endpoint, model, apiKey), llms[i].isCurrent)];
          ok := SaveLlms(llms, write);
          return;
        }
        i := i + 1;
      }
      ok := false;
    }

    /** `delete_llm`: False, and no write, when there is at most one configuration. */
    method DeleteLlm(id: string, write: WriteOutcome) returns (ok: bool)
      modifies this
      ensures |AllLlms(old(file))| <= 1 ==> !ok && file == old(file)
      ensures |AllLlms(old(file))| > 1 ==>
                ok == write.Written?
                && file == AfterWrite(old(file), Persist(Deleted(AllLlms(old(file)), id)), write)
    {
      var llms := GetAllLlms();
      if |llms| <= 1 {
        return false;
      }
      var rest := DeleteFromList(llms, id);
      ok := SaveLlms(rest, write);
    }

    /** `set_current_llm` */
    method SetCurrentLlm(id: string, write: WriteOutcome) returns (ok: bool)
      modifies this
      ensures ok == write.Written?
      ensures file == AfterWrite(old(file), Persist(Selected(AllLlms(old(file)), id)), write)
    {
      var llms := GetAllLlms();
      var marked: seq<Llm> := [];
      var i := 0;
      while i < |llms|
        invariant 0 <= i <= |llms|
        invariant |marked| == i
        invariant forall j :: 0 <= j < i ==> marked[j] == Llm(llms[j].entry, llms[j].entry.id == id)
      {
        marked := marked + [Llm(llms[i].entry, llms[i].entry.id == id)];
        i := i + 1;
      }
      assert marked == Selected(llms, id);
      ok := SaveLlms(marked, write);
    }
  }

  /** The list read back has unique ids when the stored one has (the two
      defaults have different ids). */
  lemma ReadIdsUnique(f: ConfigFile)
    requires f.Stored? ==> UniqueIds(f.llms)
    ensures UniqueIds(Entries(AllLlms(f)))
  {
  }

  /** Every operation keeps the ids of the list it saves unique. */
  lemma OperationsKeepIdsUnique(llms: seq<Llm>, id: string, name: string, endpoint: string,
                                model: string, apiKey: string)
    requires UniqueIds(Entries(llms))
    ensures UniqueIds(Persist(Added(llms, name, endpoint, model, apiKey)).llms)
    ensures FirstWithId(llms, id).Some? ==>
              UniqueIds(Persist(Updated(llms, FirstWithId(llms, id).value, name, endpoint, model, apiKey)).llms)
    ensures UniqueIds(Persist(Deleted(llms, id)).llms)
    ensures UniqueIds(Persist(Selected(llms, id)).llms)
  {
    WithoutUnique(llms, id);
    var rest := Without(llms, id);
    if rest != [] {
      assert Entries(rest[0 := Llm(rest[0].entry, true)]) == Entries(rest);
    }
  }
}

=== FILE: llm_generator.dfy ===
/** Generation of a new script, or an edit of an existing one, by a
    language model (core/llm_generator.py): the prompt is chosen, one request
    is sent, the code is cut out of the reply, and it is accepted only when
    the structural check passes. The HTTP exchange is a function parameter. */
module LlmGenerator {
  import opened Optional
  import opened Strings
  import opened ScriptValidation

  // ---------------------------------------------------------------------
  // File names for generated scripts
  // ---------------------------------------------------------------------

  /** The characters `sanitize_filename` keeps: `[a-z0-9_]`. */
  predicate IsSlugChar(c: char) {
    IsLowerAscii(c) || IsDigit(c) || c == '_'
  }

  /** `re.sub(r'[^a-z0-9_]', '', s)` */
  function KeepSlugChars(s: string): (r: string)
    ensures forall k :: 0 <= k < |r| ==> IsSlugChar(r[k])
    ensures |r| <= |s|
  {
    if s == [] then []
    else (if IsSlugChar(s[0]) then [s[0]] else []) + KeepSlugChars(s[1..])
  }

  /** `sanitize_filename`: lower-case, spaces to underscores, then every
      character outside `[a-z0-9_]` dropped. */
  function SanitizeFilename(name: string): (r: string)
    ensures forall k :: 0 <= k < |r| ==> IsSlugChar(r[k])
    ensures |r| <= |name|
  {
    KeepSlugChars(ReplaceChar(Lower(name), ' ', '_'))
  }

  /** The filter works character by character: a slug character is kept,
      any other is dropped. */
  lemma KeepSlugCharsOne(c: char)
    ensures KeepSlugChars([c]) == if IsSlugChar(c) then [c] else []
  {
  }

  /** The filter keeps the order of what it keeps: filtering a concatenation
      concatenates the filtered parts. */
  lemma {:induction false} KeepSlugCharsAppend(a: string, b: string)
    ensures KeepSlugChars(a + b) == KeepSlugChars(a) + KeepSlugChars(b)
  {
    if a == [] {
      assert a + b == b;
    } else {
      assert (a + b)[0] == a[0];
      assert (a + b)[1..] == a[1..] + b;
      KeepSlugCharsAppend(a[1..], b);
    }
  }

  /** What a character of the name becomes before the filter: lower-cased,
      with a space turned into an underscore. */
  function SlugSource(c: char): char {
    if LowerChar(c) == ' ' then '_' else LowerChar(c)
  }

  /** `sanitize_filename` reads the name one character at a time: one more
      character of the name adds what the filter keeps of that character,
      lower-cased and with a space turned into an underscore. */
  lemma SanitizeSnoc(name: string, k: nat)
    requires k < |name|
    ensures SanitizeFilename(name[..k + 1])
            == SanitizeFilename(name[..k]) + KeepSlugChars([SlugSource(name[k])])
  {
    var longer := ReplaceChar(Lower(name[..k + 1]), ' ', '_');
    var shorter := ReplaceChar(Lower(name[..k]), ' ', '_');
    assert longer == shorter + [SlugSource(name[k])] by {
      forall i | 0 <= i < k ensures longer[i] == shorter[i] {
        assert name[..k + 1][i] == name[..k][i];
      }
      assert name[..k + 1][k] == name[k];
    }
    KeepSlugCharsAppend(shorter, [SlugSource(name[k])]);
  }

  lemma {:induction false} KeepSlugCharsOfSlug(s: string)
    requires forall k :: 0 <= k < |s| ==> IsSlugChar(s[k])
    ensures KeepSlugChars(s) == s
  {
    if s != [] {
      KeepSlugCharsOfSlug(s[1..]);
    }
  }

  /** The names `sanitize_filename` leaves alone are exactly the slugs. */
  lemma SanitizeFixedPoints(name: string)
    ensures SanitizeFilename(name) == name <==> forall k :: 0 <= k < |name| ==> IsSlugChar(name[k])
  {
    if forall k :: 0 <= k < |name| ==> IsSlugChar(name[k]) {
      assert ReplaceChar(Lower(name), ' ', '_') == name;
      KeepSlugCharsOfSlug(name);
    }
  }

  /** `sanitize_filename` is idempotent. */
  lemma SanitizeIdempotent(name: string)
    ensures SanitizeFilename(SanitizeFilename(name)) == SanitizeFilename(name)
  {
    SanitizeFixedPoints(SanitizeFilename(name));
  }

  /** The example of the docstring. */
  lemma SanitizeExample()
    ensures SanitizeFilename("Background Remover") == "background_remover"
  {
    LowerExample();
    ExampleIsSlug();
  }

  lemma ExampleIsSlug()
    ensures KeepSlugChars("background_remover") == "background_remover"
  {
    KeepSlugCharsOfSlug("background_remover");
  }

  lemma LowerExample()
    ensures ReplaceChar(Lower("Background Remover"), ' ', '_') == "background_remover"
  {
    assert Lower("Background Remover") == "background remover";
  }

  // ---------------------------------------------------------------------
  // Cutting the code out of the reply
  // ---------------------------------------------------------------------

  const Fence: string := "```"

  /** The index just past the leading whitespace of `s[from..]`. */
  function SkipSpaces(s: string, from: nat): (w: nat)
    requires from <= |s|
    ensures from <= w <= |s|
    ensures forall j :: from <= j < w ==> IsSpace(s[j])
    ensures w < |s| ==> !IsSpace(s[w])
    decreases |s| - from
  {
    if from < |s| && IsSpace(s[from]) then SkipSpaces(s, from + 1) else from
  }

  /** `_extract_code_from_response`: the first match of
      ```` ```(?:python)?\s*\n?(.*?)\n?``` ```` (dot matches newline), stripped;
      the whole reply stripped when there is no match. The regular expression
      is followed step by step: after the opening fence an optional
      "python", then the longest run of whitespace; the group then stops
      at the earliest closing fence, before the newline that precedes it.
      If the first opening fence has no closing fence after it, no later
      one has either, so there is no match at all. */
  function ExtractCode(response: string): (code: string)
    ensures code == [] || (!IsSpace(code[0]) && !IsSpace(code[|code| - 1]))
    ensures FindFrom(response, Fence, 0).None? ==> code == Strip(response)
  {
    match FindFrom(response, Fence, 0)
    case None => Strip(response)
    case Some(i) =>
      var p := i + 3;
      var q := if OccursAt(response, "python", p) then p + 6 else p;
      GroupFrom(response, SkipSpaces(response, q))
  }

  /** The group once the whitespace after the opening fence (and its tag)
      is skipped up to `w`: it ends at the next fence, before the newline
      that precedes it; with no fence after `w` there is no match. */
  function GroupFrom(response: string, w: nat): (code: string)
    requires w <= |response|
    ensures code == [] || (!IsSpace(code[0]) && !IsSpace(code[|code| - 1]))
  {
    match FindFrom(response, Fence, w)
    case None => Strip(response)
    case Some(k) =>
      var e := if k > w && response[k - 1] == '\n' then k - 1 else k;
      Strip(response[w..e])
  }

  /** A reply with no fence is taken whole, stripped. */
  lemma UnfencedReply(response: string)
    requires forall j :: !OccursAt(response, Fence, j)
    ensures ExtractCode(response) == Strip(response)
  {
  }

  /** The usual reply: prose free of backticks, an opening fence with or
      without the "python" tag, a newline, code holding no fence, a newline
      and the closing fence, then anything at all (more prose, more fenced
      blocks). The extraction gives the code back, stripped: the first
      fenced block wins whatever follows it. */
  lemma FencedReplyExtracted(pre: string, tag: string, code: string, post: string)
    requires tag == "" || tag == "python"
    requires '`' !in pre
    requires forall j :: !OccursAt(code, Fence, j)
    ensures ExtractCode(pre + "```" + tag + "\n" + code + "\n```" + post) == Strip(code)
  {
    var head := pre + "```" + tag + "\n";
    var s := head + code + "\n```" + post;
    ReplySlices(head, code, post, s);
    ExtractOfPieces(s, pre, tag, code, |head| - 1);
  }

  /** `FencedReplyExtracted` for a reply given by its pieces. */
  lemma ExtractOfPieces(s: string, pre: string, tag: string, code: string, q: nat)
    requires tag == "" || tag == "python"
    requires '`' !in pre
    requires forall j :: !OccursAt(code, Fence, j)
    requires q == |pre| + 3 + |tag| && q + 1 + |code| + 4 <= |s|
    requires s[..q + 1] == pre + "```" + tag + "\n"
    requires s[q + 1..q + 1 + |code| + 4] == code + "\n```"
    ensures ExtractCode(s) == Strip(code)
  {
    ExtractAfterOpening(s, pre, tag, q);
    CodeAfterOpening(s, q, code);
  }

  /** After an opening line `pre` + fence + tag + newline, with no backquote
      in `pre`, the group starts with the whitespace from that newline on. */
  lemma ExtractAfterOpening(s: string, pre: string, tag: string, q: nat)
    requires tag == "" || tag == "python"
    requires '`' !in pre
    requires q == |pre| + 3 + |tag| && q + 1 <= |s| && s[..q + 1] == pre + "```" + tag + "\n"
    ensures s[q] == '\n'
    ensures ExtractCode(s) == GroupFrom(s, SkipSpaces(s, q))
  {
    OpeningFence(s, pre, tag);
    ExtractOpened(s, |pre|);
  }

  /** Once the opening line ends with the newline at `q`, the group is the
      code stripped. */
  lemma CodeAfterOpening(s: string, q: nat, code: string)
    requires forall j :: !OccursAt(code, Fence, j)
    requires q + 1 + |code| + 4 <= |s|
    requires s[q] == '\n' && s[q + 1..q + 1 + |code| + 4] == code + "\n```"
    ensures GroupFrom(s, SkipSpaces(s, q)) == Strip(code)
  {
    ClosingFence(s, q + 1, code);
    GroupAfterOpening(s, q + 1, code);
  }

  /** The reply cut at the end of the opening line and around the code. */
  lemma ReplySlices(head: string, code: string, post: string, s: string)
    requires s == head + code + "\n```" + post
    ensures |s| == |head| + |code| + 4 + |post|
    ensures s[..|head|] == head
    ensures s[|head|..|head| + |code| + 4] == code + "\n```"
  {
    var tail := code + "\n```";
    assert s == head + tail + post;
    assert s[..|head|] == (head + tail + post)[..|head|];
    assert s[|head|..|head| + |tail|] == tail;
  }

  /** The opening line: the first fence stands right after the prose, it is
      followed by "python" exactly when that is the tag, and the line ends
      after the tag. */
  lemma OpeningFence(s: string, pre: string, tag: string)
    requires tag == "" || tag == "python"
    requires '`' !in pre
    requires |pre| + 3 + |tag| + 1 <= |s| && s[..|pre| + 3 + |tag| + 1] == pre + "```" + tag + "\n"
    ensures FindFrom(s, Fence, 0) == Some(|pre|)
    ensures OccursAt(s, "python", |pre| + 3) <==> tag == "python"
    ensures s[|pre| + 3 + |tag|] == '\n'
  {
    var h := pre + "```" + tag + "\n";
    forall j | 0 <= j < |h| ensures s[j] == h[j] {
      assert s[..|h|][j] == s[j];
    }
    FenceAfterProse(s, pre, h);
    TagAfterFence(s, pre, tag, h);
  }

  /** No fence starts in prose free of backticks, so the first is the one
      right after it. */
  lemma FenceAfterProse(s: string, pre: string, h: string)
    requires '`' !in pre && |pre| + 3 <= |h| <= |s| && h[..|pre| + 3] == pre + "```"
    requires forall j :: 0 <= j < |h| ==> s[j] == h[j]
    ensures FindFrom(s, Fence, 0) == Some(|pre|)
  {
    var o := |pre|;
    assert s[o..o + 3] == Fence by {
      forall j | 0 <= j < 3 ensures s[o..o + 3][j] == Fence[j] {
        assert h[..o + 3][o + j] == Fence[j];
      }
    }
    forall j | 0 <= j < o ensures !OccursAt(s, Fence, j) {
      assert s[j] == h[..o + 3][j] == pre[j] && pre[j] in pre;
      if j + 3 <= |s| {
        assert s[j..j + 3][0] == s[j];
      }
    }
    FindFromFirst(s, Fence, 0, o);
  }

  /** After the opening fence comes "python" exactly when that is the tag,
      and the line ends after the tag. */
  lemma TagAfterFence(s: string, pre: string, tag: string, h: string)
    requires tag == "" || tag == "python"
    requires h == pre + "```" + tag + "\n" && |h| <= |s|
    requires forall j :: 0 <= j < |h| ==> s[j] == h[j]
    ensures OccursAt(s, "python", |pre| + 3) <==> tag == "python"
    ensures s[|pre| + 3 + |tag|] == '\n'
  {
    var o := |pre|;
    if tag == "python" {
      assert s[o + 3..o + 9] == "python" by {
        forall j | 0 <= j < 6 ensures s[o + 3..o + 9][j] == "python"[j] {
          assert h[o + 3 + j] == tag[j];
        }
      }
      assert h[o + 9] == '\n';
    } else {
      assert h[o + 3] == '\n';
      if o + 9 <= |s| {
        assert s[o + 3..o + 9][0] == s[o + 3];
      }
    }
  }

  /** The code, its newline and the closing fence: no fence starts inside
      the code or on that newline. */
  lemma ClosingFence(s: string, c0: nat, code: string)
    requires forall j :: !OccursAt(code, Fence, j)
    requires c0 + |code| + 4 <= |s| && s[c0..c0 + |code| + 4] == code + "\n```"
    ensures s[c0..c0 + |code|] == code && s[c0 + |code|] == '\n' && !IsSpace(s[c0 + |code| + 1])
    ensures OccursAt(s, Fence, c0 + |code| + 1)
    ensures forall j :: c0 <= j < c0 + |code| + 1 ==> !OccursAt(s, Fence, j)
  {
    var n := |code|;
    var tail := code + "\n```";
    forall j | 0 <= j < n + 4 ensures s[c0 + j] == tail[j] {
      assert s[c0..c0 + n + 4][j] == s[c0 + j];
    }
    assert s[c0..c0 + n] == code by {
      forall j | 0 <= j < n ensures s[c0..c0 + n][j] == code[j] {
        assert tail[j] == code[j];
      }
    }
    assert s[c0 + n + 1..c0 + n + 4] == Fence by {
      forall j | 0 <= j < 3 ensures s[c0 + n + 1..c0 + n + 4][j] == Fence[j] {
        assert tail[n + 1 + j] == '`';
      }
    }
    assert s[c0 + n] == tail[n] == '\n';
    forall j | c0 <= j < c0 + n + 1 ensures !OccursAt(s, Fence, j) {
      if j + 3 <= c0 + n {
        var here := s[j..j + 3];
        var there := code[j - c0..j - c0 + 3];
        assert here == there by {
          forall i | 0 <= i < 3 ensures here[i] == there[i] {
            assert tail[j - c0 + i] == code[j - c0 + i];
          }
        }
        assert !OccursAt(code, Fence, j - c0);
      } else {
        assert s[j..j + 3][c0 + n - j] == '\n';
      }
    }
  }

  /** The group of a reply whose opening line ends with the newline at
      `c0 - 1` and whose code, starting at `c0`, is followed by a newline and
      the next fence: the code, stripped. */
  lemma GroupAfterOpening(s: string, c0: nat, code: string)
    requires 0 < c0 && c0 + |code| + 1 < |s| && s[c0 - 1] == '\n'
    requires s[c0..c0 + |code|] == code && s[c0 + |code|] == '\n' && !IsSpace(s[c0 + |code| + 1])
    requires OccursAt(s, Fence, c0 + |code| + 1)
    requires forall j :: c0 <= j < c0 + |code| + 1 ==> !OccursAt(s, Fence, j)
    ensures GroupFrom(s, SkipSpaces(s, c0 - 1)) == Strip(code)
  {
    var close := c0 + |code| + 1;
    var w := SkipSpaces(s, c0 - 1);
    SkipToCode(s, c0 - 1, close);
    GroupOfLayout(s, code, c0, w);
  }

  /** How `ExtractCode` reads a reply whose first fence is at `o`: the group
      starts once the whitespace after the fence, and after the "python" tag
      when there is one, is skipped. */
  lemma ExtractOpened(s: string, o: nat)
    requires FindFrom(s, Fence, 0) == Some(o)
    ensures var q := if OccursAt(s, "python", o + 3) then o + 9 else o + 3;
            q <= |s| && ExtractCode(s) == GroupFrom(s, SkipSpaces(s, q))
  {
  }

  /** The whitespace skipped from the newline at `q` ends at the latest on
      the first non-blank character. */
  lemma SkipToCode(s: string, q: nat, close: nat)
    requires q < close < |s| && IsSpace(s[q]) && !IsSpace(s[close])
    ensures q < SkipSpaces(s, q) <= close
  {
  }

  /** The group ends before the newline that precedes the next fence. */
  lemma GroupBeforeFence(s: string, w: nat, e: nat)
    requires w <= e < |s| && s[e] == '\n' && OccursAt(s, Fence, e + 1)
    requires forall j :: w <= j < e + 1 ==> !OccursAt(s, Fence, j)
    ensures GroupFrom(s, w) == Strip(s[w..e])
  {
    FindFromFirst(s, Fence, w, e + 1);
    GroupBeforeFound(s, w, e);
  }

  /** `GroupBeforeFence` once the search from `w` has found the fence. */
  lemma GroupBeforeFound(s: string, w: nat, e: nat)
    requires w <= e < |s| && FindFrom(s, Fence, w) == Some(e + 1) && s[e] == '\n'
    ensures GroupFrom(s, w) == Strip(s[w..e])
  {
    var k := e + 1;
    var end := if k > w && s[k - 1] == '\n' then k - 1 else k;
    assert end == e;
  }

  /** The group is empty when the next fence comes right where the
      whitespace ends. */
  lemma GroupAtFence(s: string, w: nat)
    requires OccursAt(s, Fence, w)
    ensures GroupFrom(s, w) == []
  {
    FindFromFirst(s, Fence, w, w);
    assert s[w..w] == [];
  }

  /** The group of a reply whose code starts at `c0` and is followed by a
      newline and the next fence, once the whitespace before it is skipped
      up to `w`, is the code stripped, however much of the code that
      whitespace swallowed. */
  lemma GroupOfLayout(s: string, code: string, c0: nat, w: nat)
    requires c0 + |code| < |s| && c0 <= w <= c0 + |code| + 1
    requires s[c0 + |code|] == '\n' && s[c0..c0 + |code|] == code
    requires forall j :: c0 <= j < w ==> IsSpace(s[j])
    requires OccursAt(s, Fence, c0 + |code| + 1)
    requires forall j :: w <= j < c0 + |code| + 1 ==> !OccursAt(s, Fence, j)
    ensures GroupFrom(s, w) == Strip(code)
  {
    var close := c0 + |code| + 1;
    if w < close {
      GroupBeforeFence(s, w, c0 + |code|);
      StrippedCodeTail(s, code, c0, w);
    } else {
      GroupAtFence(s, w);
      BlankCode(s, code, c0);
    }
  }

  /** Stripping what is left of the code after the pattern's whitespace
      gives the stripped code. */
  lemma StrippedCodeTail(s: string, code: string, c0: nat, w: nat)
    requires c0 + |code| <= |s| && c0 <= w <= c0 + |code|
    requires s[c0..c0 + |code|] == code
    requires forall j :: c0 <= j < w ==> IsSpace(s[j])
    ensures Strip(s[w..c0 + |code|]) == Strip(code)
  {
    var pad := w - c0;
    var tail := s[w..c0 + |code|];
    CodeTail(s, code, c0, w);
    assert tail == code[pad..];
    StripOfCodeTail(code, pad);
  }

  /** What is left of the code after the pattern's whitespace: the code
      without its first `w - c0` characters, all of them blank. */
  lemma CodeTail(s: string, code: string, c0: nat, w: nat)
    requires c0 + |code| <= |s| && c0 <= w <= c0 + |code|
    requires s[c0..c0 + |code|] == code
    requires forall j :: c0 <= j < w ==> IsSpace(s[j])
    ensures s[w..c0 + |code|] == code[w - c0..]
    ensures forall i :: 0 <= i < w - c0 ==> IsSpace(code[i])
  {
    forall i | 0 <= i < w - c0
      ensures IsSpace(code[i])
    {
      assert code[i] == s[c0 + i];
    }
  }

  /** Leading whitespace does not change the stripped code. */
  lemma StripOfCodeTail(code: string, pad: nat)
    requires pad <= |code|
    requires forall i :: 0 <= i < pad ==> IsSpace(code[i])
    ensures Strip(code[pad..]) == Strip(code)
  {
    forall i | 0 <= i < pad
      ensures IsSpace(code[..pad][i])
    {
    }
    StripPadded(code[..pad], code[pad..], "");
    assert code[..pad] + code[pad..] + "" == code;
  }

  /** The pattern skipped the whole code and its newline: the code was
      blank, so it strips to nothing. */
  lemma BlankCode(s: string, code: string, c0: nat)
    requires c0 + |code| < |s| && s[c0..c0 + |code|] == code
    requires forall j :: c0 <= j < c0 + |code| + 1 ==> IsSpace(s[j])
    ensures Strip(code) == []
  {
    forall j | 0 <= j < |code|
      ensures IsSpace(code[j])
    {
      assert code[j] == s[c0 + j];
    }
    StripEmpty(code);
  }

  // ---------------------------------------------------------------------
  // One generation request
  // ---------------------------------------------------------------------

  /** The user message: CREATE_TEMPLATE or EDIT_TEMPLATE with its fields
      filled in (the template texts themselves are fixed prose). */
  datatype Prompt =
    | CreatePrompt(userPrompt: string)
    | EditPrompt(existingScript: string, userPrompt: string)

  datatype Message =
    | SystemMessage(content: string)
    | UserMessage(prompt: Prompt)

  const SystemInstruction: string :=
    "You are an expert Python developer. Always respond with valid Python code only, no explanations."

  /** What the API call gave back: the reply text, or the APIError message. */
  datatype ApiReply = Reply(content: string) | ApiFailure(message: string)

  /** The result of `generate_script`: its dictionary, or the exception it raises. */
  datatype Generation =
    | Generated(code: string, name: Binding, description: Binding)
    | ApiError(message: string)
    | ValidationError(message: string)

  /** The edit template is used exactly when an existing script is given and
      is not empty (Python truthiness). */
  function ChoosePrompt(userPrompt: string, existingScript: Option<string>): (p: Prompt)
    ensures p.userPrompt == userPrompt
    ensures p.EditPrompt? <==> existingScript.Some? && existingScript.value != ""
    ensures p.EditPrompt? ==> p.existingScript == existingScript.value
  {
    if existingScript.Some? && existingScript.value != "" then
      EditPrompt(existingScript.value, userPrompt)
    else CreatePrompt(userPrompt)
  }

  /** The messages of the one request: the fixed system message, then the prompt. */
  function Messages(userPrompt: string, existingScript: Option<string>): (ms: seq<Message>)
    ensures |ms| == 2
    ensures ms[0] == SystemMessage(SystemInstruction)
    ensures ms[1].UserMessage? && ms[1].prompt == ChoosePrompt(userPrompt, existingScript)
  {
    [SystemMessage(SystemInstruction), UserMessage(ChoosePrompt(userPrompt, existingScript))]
  }

  /** `namespace.get(key, default)` */
  function Lookup(ns: map<string, Binding>, key: string, default: Binding): Binding {
    if key in ns then ns[key] else default
  }

  /** `generate_script`: `api` is the model endpoint (called once, on the
      two messages) and `run` is what compiling and running a piece of code
      yields. */
  function GenerateScript(userPrompt: string, existingScript: Option<string>,
                          api: seq<Message> -> ApiReply, run: string -> ExecOutcome): (g: Generation)
    ensures api(Messages(userPrompt, existingScript)).ApiFailure? ==>
              g == ApiError(api(Messages(userPrompt, existingScript)).message)
    ensures api(Messages(userPrompt, existingScript)).Reply? ==> !g.ApiError?
    ensures g.Generated? ==>
              g.code == ExtractCode(api(Messages(userPrompt, existingScript)).content)
              && Validate(run(g.code)).valid
    ensures g.ValidationError? ==>
              var code := ExtractCode(api(Messages(userPrompt, existingScript)).content);
              !Validate(run(code)).valid
              && g.message == "Generated script failed validation:\n" + Validate(run(code)).error
                              + "\n\nYou can try regenerating or edit the script manually."
  {
    match api(Messages(userPrompt, existingScript))
    case ApiFailure(m) => ApiError(m)
    case Reply(response) =>
      var code := ExtractCode(response);
      var verdict := Validate(run(code));
      if !verdict.valid then
        ValidationError("Generated script failed validation:\n" + verdict.error
                        + "\n\nYou can try regenerating or edit the script manually.")
      else
        var ns := run(code).namespace;
        Generated(code, Lookup(ns, "NAME", Text("Generated Script")),
                  Lookup(ns, "DESCRIPTION", Text("No description")))
  }

  /** Code that is returned has passed validation, so its name is the
      script's own non-blank NAME string: the "Generated Script" default
      can never be used. The description is whatever DESCRIPTION holds. */
  lemma GeneratedNameIsScriptName(userPrompt: string, existingScript: Option<string>,
                                  api: seq<Message> -> ApiReply, run: string -> ExecOutcome)
    requires GenerateScript(userPrompt, existingScript, api, run).Generated?
    ensures var g := GenerateScript(userPrompt, existingScript, api, run);
            run(g.code).Ran? && NameIsUsable(run(g.code).namespace)
            && g.name == run(g.code).namespace["NAME"]
            && "DESCRIPTION" in run(g.code).namespace
            && g.description == run(g.code).namespace["DESCRIPTION"]
  {
    var g := GenerateScript(userPrompt, existingScript, api, run);
    assert WellFormed(run(g.code).namespace);
    assert RequiredVariables[1] == "DESCRIPTION";
  }
}

=== FILE: optional.dfy ===
/** The Option datatype used wherever the source returns a value or None. */
module Optional {
  datatype Option<+T> = None | Some(value: T) {
    /** The wrapped value, or `default` for None (Python's `x if x is not None else default`). */
    function GetOr(default: T): T {
      match this
      case Some(v) => v
      case None => default
    }
  }
}

=== FILE: pdf_to_images.dfy ===
/** The "PDF to Images" script (scripts/pdf_to_images.py): each page in the
    requested range of each PDF is rendered to one image file. What the file
    system says about each path is a parameter `pdfs` (missing, unreadable,
    or readable with its page count); rendering itself, the DPI and the
    clock are left out or parameters. */
module PdfToImages {
  import opened Optional
  import opened Strings
  import opened ScriptExecution

  const Name: string := "PDF to Images"

  /** The output directory name, the script name lowercased with spaces as "_". */
  const Slug: string := "pdf_to_images"


  /** The formats accepted as given (after uppercasing). */
  const ValidFormats: seq<string> := ["PNG", "JPEG", "JPG", "BMP", "WEBP"]

  /** The requested format uppercased, or "PNG" when it is not a valid one. */
  function ImageFormat(requested: string): (r: string)
    ensures r in ValidFormats
    ensures Upper(requested) in ValidFormats ==> r == Upper(requested)
    ensures Upper(requested) !in ValidFormats ==> r == "PNG"
  {
    var f := Upper(requested);
    if f in ValidFormats then f else "PNG"
  }

  /** `format_map.get(image_format, "png")` */
  function OutputExt(format: string): string {
    if format == "PNG" then "png"
    else if format == "JPEG" || format == "JPG" then "jpeg"
    else if format == "BMP" then "bmp"
    else if format == "WEBP" then "webp"
    else "png"
  }

  /** Every valid format maps to its lowercase name, except that "JPG" and
      "JPEG" both map to "jpeg"; so the extension chosen for any request is
      one of four. */
  lemma OutputExtSpec(requested: string)
    ensures OutputExt("JPG") == OutputExt("JPEG") == "jpeg"
    ensures forall f :: f in ValidFormats && f != "JPG" ==> OutputExt(f) == Lower(f)
    ensures OutputExt(ImageFormat(requested)) in ["png", "jpeg", "bmp", "webp"]
  {
    assert Lower("PNG") == "png";
    assert Lower("JPEG") == "jpeg";
    assert Lower("BMP") == "bmp";
    assert Lower("WEBP") == "webp";
  }

  /** The first page index converted: `max(0, start_page - 1)`. */
  function StartIdx(startPage: int): nat {
    if startPage - 1 > 0 then startPage - 1 else 0
  }

  /** One past the last page index converted: all pages for end_page 0,
      otherwise `min(end_page, page_count)`. */
  function EndIdx(endPage: int, pageCount: nat): int {
    if endPage == 0 then pageCount
    else if endPage < pageCount then endPage
    else pageCount
  }

  /** A file is skipped when its start index is past its last page; the
      pages converted otherwise lie inside the document, and the range is
      the whole document for start_page 1 (or less) and end_page 0. */
  lemma PageRangeSpec(startPage: int, endPage: int, pageCount: nat)
    ensures EndIdx(endPage, pageCount) <= pageCount
    ensures StartIdx(startPage) <= 0 <==> startPage <= 1
    ensures startPage <= 1 && endPage == 0 ==> StartIdx(startPage) == 0 && EndIdx(endPage, pageCount) == pageCount
    ensures endPage > 0 ==> EndIdx(endPage, pageCount) <= endPage
  {
  }

  /** The file name of page `k` (1-based). */
  function PageFileName(prefix: string, pdfName: string, k: nat, ext: string): string {
    var head := if prefix != "" then prefix + "_" + pdfName + "_page_" else pdfName + "_page_";
    head + NatToString(k) + "." + ext
  }

  /** A page file carries the prefix (when there is one), the PDF name and
      "_page_", and ends in the image format's extension. */
  lemma PageFileNameShape(prefix: string, pdfName: string, k: nat, ext: string)
    ensures EndsWith(PageFileName(prefix, pdfName, k, ext), "." + ext)
    ensures prefix != "" ==> StartsWith(PageFileName(prefix, pdfName, k, ext), prefix + "_" + pdfName + "_page_")
    ensures prefix == "" ==> StartsWith(PageFileName(prefix, pdfName, k, ext), pdfName + "_page_")
  {
    var head := if prefix != "" then prefix + "_" + pdfName + "_page_" else pdfName + "_page_";
    var r := PageFileName(prefix, pdfName, k, ext);
    assert r[..|head|] == head;
    assert r[|r| - |"." + ext|..] == "." + ext;
  }

  /** Text around a middle part determines the middle part. */
  lemma MiddleCancel(head: string, a: string, b: string, tail: string)
    requires head + a + tail == head + b + tail
    ensures a == b
  {
    var s := head + a + tail;
    assert |a| == |b|;
    assert a == s[|head|..|head| + |a|];
    assert b == (head + b + tail)[|head|..|head| + |b|];
  }

  /** Different pages of one PDF never share a file name. */
  lemma PageFileNameInjective(prefix: string, pdfName: string, j: nat, k: nat, ext: string)
    requires PageFileName(prefix, pdfName, j, ext) == PageFileName(prefix, pdfName, k, ext)
    ensures j == k
  {
    var head := if prefix != "" then prefix + "_" + pdfName + "_page_" else pdfName + "_page_";
    assert PageFileName(prefix, pdfName, j, ext) == head + NatToString(j) + ("." + ext);
    assert PageFileName(prefix, pdfName, k, ext) == head + NatToString(k) + ("." + ext);
    MiddleCancel(head, NatToString(j), NatToString(k), "." + ext);
    NatToStringInjective(j, k);
  }

  /** `os.path.splitext(os.path.basename(path))[0]` */
  function PdfName(path: string): string {
    SplitExtRoot(Basename(path))
  }

  /** What the file system says about an input path. */
  datatype PdfStatus = Missing | Unreadable | Readable(pageCount: nat)

  /** The settings every file is converted with. */
  datatype Settings = Settings(folder: string, ext: string, startPage: int, endPage: int, prefix: string)

  /** The output path of each page index (0-based) of the PDF named `pdfName`. */
  function PagePaths(s: Settings, pdfName: string): nat -> string {
    (i: nat) => Join(s.folder, PageFileName(s.prefix, pdfName, i + 1, s.ext))
  }

  /** Applying PagePaths to one page index. */
  lemma PagePathsAt(s: Settings, pdfName: string, i: nat)
    ensures PagePaths(s, pdfName)(i) == Join(s.folder, PageFileName(s.prefix, pdfName, i + 1, s.ext))
  {
  }

  /** The outputs `page(lo)`, `page(lo + 1)`, ..., `page(hi - 1)`; for the
      script, `page` is PagePaths. */
  function PageOutputs(page: nat -> string, lo: nat, hi: int): seq<string>
    decreases hi - lo
  {
    if hi <= lo then [] else PageOutputs(page, lo, hi - 1) + [page(hi - 1)]
  }

  /** One more index adds its output at the end. */
  lemma PageOutputsNext(page: nat -> string, lo: nat, hi: nat, outputs: seq<string>, path: string)
    requires lo <= hi
    requires outputs == PageOutputs(page, lo, hi) && path == page(hi)
    ensures outputs + [path] == PageOutputs(page, lo, hi + 1)
  {
  }

  /** One output per index of [lo, hi), in order. */
  lemma {:induction false} PageOutputsSpec(page: nat -> string, lo: nat, hi: int)
    ensures var r := PageOutputs(page, lo, hi);
            && |r| == (if hi <= lo then 0 else hi - lo)
            && forall j :: 0 <= j < |r| ==> r[j] == page(lo + j)
    decreases hi - lo
  {
    if hi > lo {
      PageOutputsSpec(page, lo, hi - 1);
      var front := PageOutputs(page, lo, hi - 1);
      var r := PageOutputs(page, lo, hi);
      assert r == front + [page(hi - 1)];
      forall j | 0 <= j < |r| ensures r[j] == page(lo + j) {
        if j < |front| {
          assert r[j] == front[j];
        } else {
          assert lo + j == hi - 1;
        }
      }
    }
  }

  /** The outputs of one input path, None when it is skipped: missing,
      unreadable, or starting past its last page. */
  function FileOutputs(s: Settings, path: string, status: PdfStatus): Option<seq<string>> {
    match status
    case Missing => None
    case Unreadable => None
    case Readable(count) =>
      if StartIdx(s.startPage) >= count then None
      else Some(PageOutputs(PagePaths(s, PdfName(path)), StartIdx(s.startPage), EndIdx(s.endPage, count)))
  }

  /** A file that is not skipped contributes exactly its pages in range. */
  lemma FileOutputsSpec(s: Settings, path: string, status: PdfStatus)
    ensures FileOutputs(s, path, status).Some? <==> status.Readable? && StartIdx(s.startPage) < status.pageCount
    ensures FileOutputs(s, path, status).Some? ==>
              var r := FileOutputs(s, path, status).value;
              var lo := StartIdx(s.startPage);
              var hi := EndIdx(s.endPage, status.pageCount);
              && |r| == (if hi <= lo then 0 else hi - lo)
              && forall j :: 0 <= j < |r| ==> lo + j < status.pageCount && r[j] == PagePaths(s, PdfName(path))(lo + j)
  {
    if status.Readable? && StartIdx(s.startPage) < status.pageCount {
      var lo := StartIdx(s.startPage);
      var hi := EndIdx(s.endPage, status.pageCount);
      var page := PagePaths(s, PdfName(path));
      var r := PageOutputs(page, lo, hi);
      assert FileOutputs(s, path, status) == Some(r);
      PageOutputsSpec(page, lo, hi);
      assert hi <= status.pageCount;
    }
  }

  /** What `process_files` does with each input path under settings `s`. */
  function FileStep(s: Settings, pdfs: string -> PdfStatus): string -> Option<seq<string>> {
    (path: string) => FileOutputs(s, path, pdfs(path))
  }

  /** Applying FileStep to one path. */
  lemma FileStepAt(s: Settings, pdfs: string -> PdfStatus, path: string)
    ensures FileStep(s, pdfs)(path) == FileOutputs(s, path, pdfs(path))
  {
  }

  /** All outputs, file after file; for the script, `outputs` is FileStep. */
  function Written(paths: seq<string>, outputs: string -> Option<seq<string>>): seq<string> {
    if paths == [] then []
    else
      var last := paths[|paths| - 1];
      Written(paths[..|paths| - 1], outputs) + outputs(last).GetOr([])
  }

  /** The number of files converted to the end. */
  function Completed(paths: seq<string>, outputs: string -> Option<seq<string>>): nat {
    if paths == [] then 0
    else
      var last := paths[|paths| - 1];
      Completed(paths[..|paths| - 1], outputs) + (if outputs(last).Some? then 1 else 0)
  }

  /** No more files are completed than given; none, and nothing written,
      when every file is skipped. */
  lemma {:induction false} CompletedBound(paths: seq<string>, outputs: string -> Option<seq<string>>)
    ensures Completed(paths, outputs) <= |paths|
    ensures (forall k :: 0 <= k < |paths| ==> outputs(paths[k]).None?) ==> Completed(paths, outputs) == 0 && Written(paths, outputs) == []
  {
    if paths != [] {
      var front := paths[..|paths| - 1];
      CompletedBound(front, outputs);
      assert forall k :: 0 <= k < |front| ==> front[k] == paths[k];
    }
  }

  /** One more path adds its own outputs and completion at the end. */
  lemma WrittenNext(paths: seq<string>, i: nat, outputs: string -> Option<seq<string>>,
                    written: seq<string>, found: seq<string>, files: nat)
    requires i < |paths|
    requires written == Written(paths[..i], outputs) && files == Completed(paths[..i], outputs)
    requires found == outputs(paths[i]).GetOr([])
    ensures written + found == Written(paths[..i + 1], outputs)
    ensures files + (if outputs(paths[i]).Some? then 1 else 0) == Completed(paths[..i + 1], outputs)
  {
    assert paths[..i + 1][..i] == paths[..i];
  }

  /** A missing input is always skipped. */
  lemma MissingSkipped(s: Settings, pdfs: string -> PdfStatus, path: string)
    requires pdfs(path).Missing?
    ensures FileStep(s, pdfs)(path).None?
  {
  }

  /** The settings `process_files` derives from its keyword arguments. */
  function SettingsOf(format: Option<string>, startPage: Option<int>, endPage: Option<int>, prefix: Option<string>,
                      home: string, ts: string): Settings {
    Settings(Join(Join(Join(home, "Downloads"), Slug), ts + "_output"),
             OutputExt(ImageFormat(format.GetOr("PNG"))),
             startPage.GetOr(1), endPage.GetOr(0), prefix.GetOr(""))
  }

  /** The script writes inside the directory the executor prepares for a
      run of a script with this name. */
  lemma InsideRunDirectory(home: string, format: Option<string>, startPage: Option<int>, endPage: Option<int>,
                              prefix: Option<string>, ts: string)
    ensures SettingsOf(format, startPage, endPage, prefix, home, ts).folder
            == Join(OutputDir(Join(home, "Downloads"), Name), ts + "_output")
  {
    assert OutputSlug(Name) == Slug;
  }

  /** The page loop for one document. */
  method ConvertPages(s: Settings, pdfName: string, count: nat) returns (outputs: seq<string>)
    requires StartIdx(s.startPage) < count
    ensures outputs == PageOutputs(PagePaths(s, pdfName), StartIdx(s.startPage), EndIdx(s.endPage, count))
  {
    ghost var page := PagePaths(s, pdfName);
    var startIdx := StartIdx(s.startPage);
    var endIdx := EndIdx(s.endPage, count);
    outputs := [];
    var pageNum := startIdx;
    while pageNum < endIdx
      invariant pageNum == startIdx || startIdx < pageNum <= endIdx
      invariant outputs == PageOutputs(page, startIdx, pageNum)
      decreases endIdx - pageNum
    {
      var pageNumDisplay := pageNum + 1;
      var outputFilename;
      if s.prefix != "" {
        outputFilename := s.prefix + "_" + pdfName + "_page_" + NatToString(pageNumDisplay) + "." + s.ext;
      } else {
        outputFilename := pdfName + "_page_" + NatToString(pageNumDisplay) + "." + s.ext;
      }
      assert outputFilename == PageFileName(s.prefix, pdfName, pageNumDisplay, s.ext);
      var outputPath := Join(s.folder, outputFilename);
      PagePathsAt(s, pdfName, pageNum);
      PageOutputsNext(page, startIdx, pageNum, outputs, outputPath);
      outputs := outputs + [outputPath];
      pageNum := pageNum + 1;
    }
  }

  /** The body of the file loop: skip a missing or unreadable file, or one
      whose start index is past its last page; otherwise convert its pages. */
  method ConvertFile(s: Settings, path: string, status: PdfStatus) returns (outputs: seq<string>, done: bool)
    ensures done <==> FileOutputs(s, path, status).Some?
    ensures outputs == FileOutputs(s, path, status).GetOr([])
  {
    outputs := [];
    done := false;
    match status
    case Missing =>
    case Unreadable =>
    case Readable(count) =>
      if StartIdx(s.startPage) < count {
        outputs := ConvertPages(s, PdfName(path), count);
        done := true;
      }
  }

  /** The file loop's step: the outputs and the completion of the next
      file, as ConvertFile reports them, extend Written and Completed. */
  lemma ConvertNext(s: Settings, pdfs: string -> PdfStatus, paths: seq<string>, i: nat,
                    written: seq<string>, files: nat, outputs: seq<string>, done: bool)
    requires i < |paths|
    requires written == Written(paths[..i], FileStep(s, pdfs))
    requires files == Completed(paths[..i], FileStep(s, pdfs))
    requires done <==> FileOutputs(s, paths[i], pdfs(paths[i])).Some?
    requires outputs == FileOutputs(s, paths[i], pdfs(paths[i])).GetOr([])
    ensures written + outputs == Written(paths[..i + 1], FileStep(s, pdfs))
    ensures files + (if done then 1 else 0) == Completed(paths[..i + 1], FileStep(s, pdfs))
  {
    FileStepAt(s, pdfs, paths[i]);
    WrittenNext(paths, i, FileStep(s, pdfs), written, outputs, files);
  }

  /** The body of the file loop: the next file is converted, and its pages
      and its completion are added to the totals. */
  method ConvertNextFile(s: Settings, pdfs: string -> PdfStatus, paths: seq<string>, i: nat,
                         written: seq<string>, totalPages: nat, totalFiles: nat)
    returns (written': seq<string>, totalPages': nat, totalFiles': nat)
    requires i < |paths| && totalPages == |written|
    requires written == Written(paths[..i], FileStep(s, pdfs))
    requires totalFiles == Completed(paths[..i], FileStep(s, pdfs))
    ensures written' == Written(paths[..i + 1], FileStep(s, pdfs)) && totalPages' == |written'|
    ensures totalFiles' == Completed(paths[..i + 1], FileStep(s, pdfs))
  {
    var path := paths[i];
    var outputs, done := ConvertFile(s, path, pdfs(path));
    ConvertNext(s, pdfs, paths, i, written, totalFiles, outputs, done);
    written' := written + outputs;
    totalPages' := totalPages + |outputs|;
    totalFiles' := totalFiles;
    if done {
      totalFiles' := totalFiles + 1;
    }
  }

  /** The file loop of `process_files` under settings `s`. */
  method ConvertAll(s: Settings, paths: seq<string>, pdfs: string -> PdfStatus)
    returns (written: seq<string>, totalPages: nat, totalFiles: nat)
    ensures written == Written(paths, FileStep(s, pdfs))
    ensures totalPages == |written|
    ensures totalFiles == Completed(paths, FileStep(s, pdfs))
  {
    ghost var step := FileStep(s, pdfs);
    written := [];
    totalPages := 0;
    totalFiles := 0;
    var i := 0;
    while i < |paths|
      invariant 0 <= i <= |paths|
      invariant written == Written(paths[..i], step)
      invariant totalPages == |written|
      invariant totalFiles == Completed(paths[..i], step)
    {
      written, totalPages, totalFiles := ConvertNextFile(s, pdfs, paths, i, written, totalPages, totalFiles);
      i := i + 1;
    }
    assert paths[..|paths|] == paths;
  }

  /** `process_files`: the files written, in order, and the two counters it
      reports. */
  method ProcessFiles(paths: seq<string>, format: Option<string>, startPage: Option<int>, endPage: Option<int>,
                      prefix: Option<string>, pdfs: string -> PdfStatus, home: string, ts: string)
    returns (written: seq<string>, totalPages: nat, totalFiles: nat)
    ensures var step := FileStep(SettingsOf(format, startPage, endPage, prefix, home, ts), pdfs);
            && written == Written(paths, step)
            && totalPages == |written|
            && totalFiles == Completed(paths, step)
  {
    var s := SettingsOf(format, startPage, endPage, prefix, home, ts);
    written, totalPages, totalFiles := ConvertAll(s, paths, pdfs);
  }
}

=== FILE: remove_bg.dfy ===
/** The "Background Remover" script (scripts/remove_bg.py): the image files
    among the inputs (a folder contributes the images found under it) each get
    their background removed and are saved as "<stem>_nobg.png". What a path
    is (file, folder with its walk, or neither) and whether removing and
    writing one image succeeds are parameters; the removal itself is left
    out. */
module RemoveBackground {
  import opened Strings
  import opened FileHandling
  import opened ScriptExecution

  const Name: string := "Background Remover"

  /** The output directory name, the script name lowercased with spaces as "_". */
  const Slug: string := "background_remover"


  /** The spellings `str_to_bool` reads as true, after lowercasing. */
  const TrueWords: seq<string> := ["yes", "true", "t", "1"]

  /** `str_to_bool` on the text of a parameter. */
  function StrToBool(v: string): bool {
    Lower(v) in TrueWords
  }

  /** Case does not matter, and the default "False" (like "True" spelled
      otherwise than the four words) reads as false. */
  lemma StrToBoolSpec(v: string)
    ensures StrToBool(v) <==> Lower(v) == "yes" || Lower(v) == "true" || Lower(v) == "t" || Lower(v) == "1"
    ensures StrToBool(Lower(v)) == StrToBool(v)
    ensures !StrToBool("False") && StrToBool("True")
  {
    assert Lower(Lower(v)) == Lower(v);
    assert Lower("False") == "false";
    assert Lower("True") == "true";
  }

  /** The suffixes of the files taken as images. */
  const ImageSuffixes: seq<string> := [".png", ".jpg", ".jpeg", ".webp", ".bmp", ".tiff"]

  /** `path.suffix.lower() in valid_extensions` */
  predicate IsImage(path: string) {
    Lower(PathSuffix(path)) in ImageSuffixes
  }

  /** What an input path is. */
  datatype PathKind = File | Folder(walk: seq<WalkDir>) | Other

  /** The paths among the files of one directory of a walk that `keep`
      accepts (for the script, IsImage). */
  function DirImageFiles(root: string, files: seq<string>, keep: string -> bool): seq<string> {
    if files == [] then []
    else
      var p := Join(root, files[|files| - 1]);
      DirImageFiles(root, files[..|files| - 1], keep) + (if keep(p) then [p] else [])
  }

  /** The images found by walking a folder, directory by directory. */
  function WalkImages(walk: seq<WalkDir>, keep: string -> bool): seq<string> {
    if walk == [] then []
    else
      var last := walk[|walk| - 1];
      WalkImages(walk[..|walk| - 1], keep) + DirImageFiles(last.root, last.files, keep)
  }

  /** The images one input path contributes. */
  function PathImages(path: string, kind: PathKind, keep: string -> bool): seq<string> {
    match kind
    case File => if keep(path) then [path] else []
    case Folder(walk) => WalkImages(walk, keep)
    case Other => []
  }

  /** `get_image_files(paths)`, with IsImage as `keep`. */
  function ImageFiles(paths: seq<string>, kinds: string -> PathKind, keep: string -> bool): seq<string> {
    if paths == [] then []
    else
      var p := paths[|paths| - 1];
      ImageFiles(paths[..|paths| - 1], kinds, keep) + PathImages(p, kinds(p), keep)
  }

  lemma {:induction false} DirImageFilesKept(root: string, files: seq<string>, keep: string -> bool)
    ensures forall p :: p in DirImageFiles(root, files, keep) ==> keep(p)
  {
    if files != [] {
      DirImageFilesKept(root, files[..|files| - 1], keep);
    }
  }

  lemma {:induction false} WalkImagesKept(walk: seq<WalkDir>, keep: string -> bool)
    ensures forall p :: p in WalkImages(walk, keep) ==> keep(p)
  {
    if walk != [] {
      var last := walk[|walk| - 1];
      WalkImagesKept(walk[..|walk| - 1], keep);
      DirImageFilesKept(last.root, last.files, keep);
    }
  }

  /** Only accepted paths are collected, and every input file that is
      accepted is; for the script, only images and every image file given. */
  lemma {:induction false} ImageFilesSpec(paths: seq<string>, kinds: string -> PathKind, keep: string -> bool)
    ensures forall p :: p in ImageFiles(paths, kinds, keep) ==> keep(p)
    ensures forall k :: 0 <= k < |paths| && kinds(paths[k]).File? && keep(paths[k]) ==>
              paths[k] in ImageFiles(paths, kinds, keep)
  {
    if paths != [] {
      var front := paths[..|paths| - 1];
      var p := paths[|paths| - 1];
      ImageFilesSpec(front, kinds, keep);
      if kinds(p).Folder? {
        WalkImagesKept(kinds(p).walk, keep);
      }
      assert forall k :: 0 <= k < |front| ==> front[k] == paths[k];
    }
  }

  /** A path is collected from a directory exactly when it joins the
      directory with one of its files and is accepted. */
  lemma {:induction false} DirImageFilesMembers(root: string, files: seq<string>, keep: string -> bool, p: string)
    ensures p in DirImageFiles(root, files, keep) <==>
            keep(p) && exists j :: 0 <= j < |files| && p == Join(root, files[j])
  {
    if files != [] {
      var front := files[..|files| - 1];
      var q := Join(root, files[|files| - 1]);
      assert DirImageFiles(root, files, keep) == DirImageFiles(root, front, keep) + (if keep(q) then [q] else []);
      DirImageFilesMembers(root, front, keep, p);
      assert forall j :: 0 <= j < |front| ==> front[j] == files[j];
    }
  }

  /** `p` joins the directory with one of its files. */
  predicate InDir(root: string, files: seq<string>, p: string) {
    exists j :: 0 <= j < |files| && p == Join(root, files[j])
  }

  /** `p` joins one of the walked directories with one of its files. */
  predicate WalkedTo(walk: seq<WalkDir>, p: string) {
    exists k, j :: 0 <= k < |walk| && 0 <= j < |walk[k].files| && p == Join(walk[k].root, walk[k].files[j])
  }

  /** A path is collected from a folder exactly when the walk reaches it and
      it is accepted. */
  lemma {:induction false} WalkImagesMembers(walk: seq<WalkDir>, keep: string -> bool, p: string)
    ensures p in WalkImages(walk, keep) <==> keep(p) && WalkedTo(walk, p)
  {
    if walk != [] {
      var n := |walk| - 1;
      var front := walk[..n];
      var last := walk[n];
      assert WalkImages(walk, keep) == WalkImages(front, keep) + DirImageFiles(last.root, last.files, keep);
      WalkImagesMembers(front, keep, p);
      DirImageFilesMembers(last.root, last.files, keep, p);
      WalkedToSplit(walk, p);
    }
  }

  /** The walk reaches `p` exactly when its earlier directories do or its
      last directory holds it. */
  lemma WalkedToSplit(walk: seq<WalkDir>, p: string)
    requires walk != []
    ensures WalkedTo(walk, p) <==>
            WalkedTo(walk[..|walk| - 1], p)
            || InDir(walk[|walk| - 1].root, walk[|walk| - 1].files, p)
  {
    var n := |walk| - 1;
    var front := walk[..n];
    if WalkedTo(walk, p) {
      var k, j :| 0 <= k < |walk| && 0 <= j < |walk[k].files| && p == Join(walk[k].root, walk[k].files[j]);
      if k < n {
        assert front[k] == walk[k];
      }
    }
    if WalkedTo(front, p) {
      var k, j :| 0 <= k < |front| && 0 <= j < |front[k].files| && p == Join(front[k].root, front[k].files[j]);
      assert walk[k] == front[k];
    }
  }

  /** `p` is an input file itself, or a file the walk of an input folder
      reaches. */
  predicate ReachedFrom(path: string, kind: PathKind, p: string) {
    (kind.File? && p == path) || (kind.Folder? && WalkedTo(kind.walk, p))
  }

  /** One input contributes a path exactly when it reaches it and the path
      is accepted. */
  lemma PathImagesMembers(path: string, kind: PathKind, keep: string -> bool, p: string)
    ensures p in PathImages(path, kind, keep) <==> keep(p) && ReachedFrom(path, kind, p)
  {
    if kind.Folder? {
      WalkImagesMembers(kind.walk, keep, p);
    }
  }

  /** `p` is one of the input files or lies under one of the input folders. */
  predicate FromInputs(paths: seq<string>, kinds: string -> PathKind, p: string) {
    exists k :: 0 <= k < |paths| && ReachedFrom(paths[k], kinds(paths[k]), p)
  }

  /** `get_image_files` collects a path exactly when it is accepted and it
      is one of the input files or lies under one of the input folders. */
  lemma {:induction false} ImageFilesMembers(paths: seq<string>, kinds: string -> PathKind, keep: string -> bool, p: string)
    ensures p in ImageFiles(paths, kinds, keep) <==> keep(p) && FromInputs(paths, kinds, p)
  {
    if paths != [] {
      var n := |paths| - 1;
      var front := paths[..n];
      var last := paths[n];
      assert ImageFiles(paths, kinds, keep) == ImageFiles(front, kinds, keep) + PathImages(last, kinds(last), keep);
      ImageFilesMembers(front, kinds, keep, p);
      PathImagesMembers(last, kinds(last), keep, p);
      FromInputsSplit(paths, kinds, p);
    }
  }

  /** The inputs reach `p` exactly when the earlier ones do or the last one does. */
  lemma FromInputsSplit(paths: seq<string>, kinds: string -> PathKind, p: string)
    requires paths != []
    ensures FromInputs(paths, kinds, p) <==>
            FromInputs(paths[..|paths| - 1], kinds, p) || ReachedFrom(paths[|paths| - 1], kinds(paths[|paths| - 1]), p)
  {
    var n := |paths| - 1;
    var front := paths[..n];
    if FromInputs(paths, kinds, p) {
      var k :| 0 <= k < |paths| && ReachedFrom(paths[k], kinds(paths[k]), p);
      if k < n {
        assert front[k] == paths[k];
      }
    }
    if FromInputs(front, kinds, p) {
      var k :| 0 <= k < |front| && ReachedFrom(front[k], kinds(front[k]), p);
      assert paths[k] == front[k];
    }
  }

  /** The innermost loop's step: the next file adds its path when it is kept. */
  lemma DirImageFilesNext(root: string, files: seq<string>, j: nat, keep: string -> bool, images: seq<string>)
    requires j < |files| && images == DirImageFiles(root, files[..j], keep)
    ensures DirImageFiles(root, files[..j + 1], keep)
            == images + (if keep(Join(root, files[j])) then [Join(root, files[j])] else [])
  {
    assert files[..j + 1][..j] == files[..j];
  }

  /** The walk loop's step: the next directory adds the images found in it. */
  lemma WalkImagesNext(walk: seq<WalkDir>, k: nat, keep: string -> bool, images: seq<string>, found: seq<string>)
    requires k < |walk| && images == WalkImages(walk[..k], keep)
    requires found == DirImageFiles(walk[k].root, walk[k].files, keep)
    ensures images + found == WalkImages(walk[..k + 1], keep)
  {
    assert walk[..k + 1][..k] == walk[..k];
  }

  /** The path loop's step: the next path adds the images it contributes. */
  lemma ImageFilesNext(paths: seq<string>, i: nat, kinds: string -> PathKind, keep: string -> bool,
                        images: seq<string>, found: seq<string>)
    requires i < |paths| && images == ImageFiles(paths[..i], kinds, keep)
    requires found == PathImages(paths[i], kinds(paths[i]), keep)
    ensures images + found == ImageFiles(paths[..i + 1], kinds, keep)
  {
    assert paths[..i + 1][..i] == paths[..i];
  }

  /** The images of one directory, as the innermost loop collects them. */
  method CollectDir(root: string, files: seq<string>, keep: string -> bool) returns (images: seq<string>)
    ensures images == DirImageFiles(root, files, keep)
  {
    images := [];
    var j := 0;
    while j < |files|
      invariant 0 <= j <= |files|
      invariant images == DirImageFiles(root, files[..j], keep)
    {
      var filePath := Join(root, files[j]);
      DirImageFilesNext(root, files, j, keep, images);
      if keep(filePath) {
        images := images + [filePath];
      }
      j := j + 1;
    }
    assert files[..|files|] == files;
  }

  /** The images of a folder, directory by directory of its walk. */
  method CollectWalk(walk: seq<WalkDir>, keep: string -> bool) returns (images: seq<string>)
    ensures images == WalkImages(walk, keep)
  {
    images := [];
    var k := 0;
    while k < |walk|
      invariant 0 <= k <= |walk|
      invariant images == WalkImages(walk[..k], keep)
    {
      var found := CollectDir(walk[k].root, walk[k].files, keep);
      WalkImagesNext(walk, k, keep, images, found);
      images := images + found;
      k := k + 1;
    }
    assert walk[..|walk|] == walk;
  }

  /** `get_image_files`, loop by loop. */
  method GetImageFiles(paths: seq<string>, kinds: string -> PathKind, keep: string -> bool) returns (images: seq<string>)
    ensures images == ImageFiles(paths, kinds, keep)
  {
    images := [];
    var i := 0;
    while i < |paths|
      invariant 0 <= i <= |paths|
      invariant images == ImageFiles(paths[..i], kinds, keep)
    {
      var path := paths[i];
      var found: seq<string> := [];
      match kinds(path) {
        case File =>
          if keep(path) {
            found := [path];
          }
        case Folder(walk) =>
          found := CollectWalk(walk, keep);
        case Other =>
      }
      ImageFilesNext(paths, i, kinds, keep, images, found);
      images := images + found;
      i := i + 1;
    }
    assert paths[..|paths|] == paths;
  }

  /** `f"{stem}_nobg.png"` in the output folder. */
  function OutputPath(folder: string, image: string): (r: string)
    ensures EndsWith(r, PathStem(image) + "_nobg.png")
  {
    Join(folder, PathStem(image) + "_nobg.png")
  }

  /** The files written: one per image whose removal and write succeed. */
  function Saved(folder: string, images: seq<string>, succeeds: string -> bool): seq<string> {
    if images == [] then []
    else
      var img := images[|images| - 1];
      Saved(folder, images[..|images| - 1], succeeds) + (if succeeds(img) then [OutputPath(folder, img)] else [])
  }

  /** Never more files than images; all of them when every image succeeds;
      each written file ends in "_nobg.png". */
  lemma {:induction false} SavedSpec(folder: string, images: seq<string>, succeeds: string -> bool)
    ensures |Saved(folder, images, succeeds)| <= |images|
    ensures (forall k :: 0 <= k < |images| ==> succeeds(images[k])) ==> |Saved(folder, images, succeeds)| == |images|
    ensures forall p :: p in Saved(folder, images, succeeds) ==> EndsWith(p, "_nobg.png")
  {
    if images != [] {
      var front := images[..|images| - 1];
      SavedSpec(folder, front, succeeds);
      assert forall k :: 0 <= k < |front| ==> front[k] == images[k];
      var img := images[|images| - 1];
      var out := OutputPath(folder, img);
      EndsWithTrans(out, PathStem(img) + "_nobg.png", "_nobg.png");
    }
  }

  /** The output folder: `~/Downloads/<slug>/<ts>_output`. */
  function OutputFolder(home: string, ts: string): string {
    Join(Join(Join(home, "Downloads"), Slug), ts + "_output")
  }

  /** The script writes inside the directory the executor prepares for a
      run of a script with this name. */
  lemma InsideRunDirectory(home: string, ts: string)
    ensures OutputFolder(home, ts) == Join(OutputDir(Join(home, "Downloads"), Name), ts + "_output")
  {
    assert OutputSlug(Name) == Slug;
  }

  /** The image loop's step: the next image adds its output when it succeeds. */
  lemma SavedNext(folder: string, images: seq<string>, i: nat, succeeds: string -> bool, written: seq<string>)
    requires i < |images| && written == Saved(folder, images[..i], succeeds)
    ensures Saved(folder, images[..i + 1], succeeds)
            == written + (if succeeds(images[i]) then [OutputPath(folder, images[i])] else [])
  {
    assert images[..i + 1][..i] == images[..i];
  }

  /** The image loop of `process_files`. */
  method SaveAll(folder: string, targets: seq<string>, succeeds: string -> bool)
    returns (written: seq<string>, successCount: nat)
    ensures written == Saved(folder, targets, succeeds)
    ensures successCount == |written| <= |targets|
  {
    written := [];
    successCount := 0;
    var i := 0;
    while i < |targets|
      invariant 0 <= i <= |targets|
      invariant written == Saved(folder, targets[..i], succeeds)
      invariant successCount == |written| <= i
    {
      var imgPath := targets[i];
      SavedNext(folder, targets, i, succeeds, written);
      if succeeds(imgPath) {
        var outputPath := Join(folder, PathStem(imgPath) + "_nobg.png");
        assert outputPath == OutputPath(folder, imgPath);
        written := written + [outputPath];
        successCount := successCount + 1;
      }
      i := i + 1;
    }
    assert targets[..|targets|] == targets;
  }

  /** `process_files`: the two switches as read, the files written and the
      number of images saved. */
  method ProcessFiles(paths: seq<string>, alphaMatting: string, postProcessMask: string,
                      kinds: string -> PathKind, succeeds: string -> bool, home: string, ts: string)
    returns (useAlpha: bool, usePost: bool, written: seq<string>, successCount: nat)
    ensures useAlpha == StrToBool(alphaMatting) && usePost == StrToBool(postProcessMask)
    ensures written == Saved(OutputFolder(home, ts), ImageFiles(paths, kinds, IsImage), succeeds)
    ensures successCount == |written| <= |ImageFiles(paths, kinds, IsImage)|
  {
    useAlpha := StrToBool(alphaMatting);
    usePost := StrToBool(postProcessMask);
    var folder := OutputFolder(home, ts);
    var targetImages := GetImageFiles(paths, kinds, IsImage);
    written, successCount := SaveAll(folder, targetImages, succeeds);
  }
}

=== FILE: script_executor.dfy ===
/** The command line of a script run (core/script_executor.py): the
    interpreter, the script, the input files in the layout the script
    expects, then one or two tokens per parameter. Starting the process,
    streaming its output and stopping it are not modelled; the clock and the
    home directory are parameters. */
module ScriptExecution {
  import opened Optional
  import opened Strings
  import opened ScriptManager

  /** A parameter value as the main window collects it: a switch's state or
      an entry's text. */
  datatype ParamValue = BoolValue(b: bool) | TextValue(s: string)

  /** One `name: value` item of the parameter dictionary, in its iteration order. */
  datatype Param = Param(name: string, value: ParamValue)

  /** Python truthiness of the value. */
  predicate Truthy(v: ParamValue) {
    match v
    case BoolValue(b) => b
    case TextValue(s) => s != ""
  }

  /** `str(value)` */
  function Str(v: ParamValue): string {
    match v
    case BoolValue(b) => if b then "True" else "False"
    case TextValue(s) => s
  }

  /** The definition `next((p for p in parameters if p["name"] == name), None)` finds. */
  function DefFor(defs: seq<ParamDef>, name: string): (r: Option<ParamDef>)
    ensures r.Some? ==> r.value in defs && r.value.name == name
    ensures r.None? <==> forall k :: 0 <= k < |defs| ==> defs[k].name != name
    ensures r.Some? ==> exists k :: 0 <= k < |defs| && defs[k] == r.value
                                    && forall j :: 0 <= j < k ==> defs[j].name != name
  {
    if defs == [] then None
    else if defs[0].name == name then
      assert defs[0] == defs[0];
      Some(defs[0])
    else
      var r := DefFor(defs[1..], name);
      if r.Some? then
        var k :| 0 <= k < |defs[1..]| && defs[1..][k] == r.value
                 && forall j :: 0 <= j < k ==> defs[1..][j].name != name;
        assert defs[k + 1] == r.value;
        assert forall j :: 0 <= j < k + 1 ==> defs[j].name != name by {
          forall j | 0 <= j < k + 1 ensures defs[j].name != name {
            if j > 0 { assert defs[j] == defs[1..][j - 1]; }
          }
        }
        r
      else
        assert forall k :: 1 <= k < |defs| ==> defs[k] == defs[1..][k - 1];
        r
  }

  /** A parameter whose definition has type "boolean" or "bool" is a flag. */
  predicate IsFlag(defs: seq<ParamDef>, name: string) {
    var d := DefFor(defs, name);
    d.Some? && (d.value.kind == "boolean" || d.value.kind == "bool")
  }

  /** What one parameter adds: a flag its name only, and only when set;
      anything else, a definition or not, its name and its value. */
  function ParamTokens(defs: seq<ParamDef>, p: Param): (r: seq<string>)
    ensures IsFlag(defs, p.name) ==> r == (if Truthy(p.value) then ["--" + p.name] else [])
    ensures !IsFlag(defs, p.name) ==> r == ["--" + p.name, Str(p.value)]
  {
    if IsFlag(defs, p.name) then
      if Truthy(p.value) then ["--" + p.name] else []
    else ["--" + p.name, Str(p.value)]
  }

  /** The tokens of all parameters, in iteration order. */
  function ParamsTokens(defs: seq<ParamDef>, ps: seq<Param>): seq<string> {
    if ps == [] then []
    else ParamsTokens(defs, ps[..|ps| - 1]) + ParamTokens(defs, ps[|ps| - 1])
  }

  /** The last parameter's tokens come last. */
  lemma ParamsTokensLast(defs: seq<ParamDef>, ps: seq<Param>)
    requires ps != []
    ensures ParamsTokens(defs, ps) == ParamsTokens(defs, ps[..|ps| - 1]) + ParamTokens(defs, ps[|ps| - 1])
  {
  }

  /** The parameters' tokens are the concatenation of each part's tokens. */
  lemma {:induction false} ParamsTokensAppend(defs: seq<ParamDef>, a: seq<Param>, b: seq<Param>)
    ensures ParamsTokens(defs, a + b) == ParamsTokens(defs, a) + ParamsTokens(defs, b)
    decreases |b|
  {
    if b == [] {
      assert a + b == a;
    } else {
      var b' := b[..|b| - 1];
      var ab := a + b;
      assert ab[..|ab| - 1] == a + b';
      assert ab[|ab| - 1] == b[|b| - 1];
      ParamsTokensAppend(defs, a, b');
      ParamsTokensLast(defs, ab);
      ParamsTokensLast(defs, b);
      var front, back, t := ParamsTokens(defs, a), ParamsTokens(defs, b'), ParamTokens(defs, b[|b| - 1]);
      assert front + back + t == front + (back + t);
    }
  }

  /** One more parameter adds its own tokens at the end. */
  lemma ParamsTokensSnoc(defs: seq<ParamDef>, ps: seq<Param>, i: nat)
    requires i < |ps|
    ensures ParamsTokens(defs, ps[..i + 1]) == ParamsTokens(defs, ps[..i]) + ParamTokens(defs, ps[i])
  {
    assert ps[..i + 1][..i] == ps[..i];
  }

  /** The command loop's step: a command holding the tokens of the first
      `i` parameters, extended by those of the next, holds those of the
      first `i + 1`. */
  lemma ParamsTokensNext(defs: seq<ParamDef>, ps: seq<Param>, i: nat,
                         head: seq<string>, before: seq<string>, after: seq<string>)
    requires i < |ps| && before == head + ParamsTokens(defs, ps[..i])
    requires after == before + ParamTokens(defs, ps[i])
    ensures after == head + ParamsTokens(defs, ps[..i + 1])
  {
    ParamsTokensSnoc(defs, ps, i);
  }

  lemma MiddleSlice(a: seq<string>, b: seq<string>, c: seq<string>)
    ensures (a + b + c)[|a|..|a| + |b|] == b
  {
  }

  /** Each parameter's tokens sit, in the order of the dictionary, right
      after those of the parameters before it. */
  lemma ParamPlacement(defs: seq<ParamDef>, ps: seq<Param>, i: nat)
    requires i < |ps|
    ensures var k := |ParamsTokens(defs, ps[..i])|;
            var mine := ParamTokens(defs, ps[i]);
            k + |mine| <= |ParamsTokens(defs, ps)|
            && ParamsTokens(defs, ps)[k..k + |mine|] == mine
  {
    var a := ParamsTokens(defs, ps[..i]);
    var b := ParamTokens(defs, ps[i]);
    var c := ParamsTokens(defs, ps[i + 1..]);
    assert ps == ps[..i + 1] + ps[i + 1..];
    ParamsTokensAppend(defs, ps[..i + 1], ps[i + 1..]);
    ParamsTokensSnoc(defs, ps, i);
    assert ParamsTokens(defs, ps) == a + b + c;
    MiddleSlice(a, b, c);
  }

  /** The output file of a single-file script: `<output_dir>/<timestamp>.jpg`. */
  function SingleOutputPath(outputDir: string, ts: string): (r: string)
    ensures EndsWith(r, ".jpg")
    ensures (ts == [] || ts[0] != '/') ==> StartsWith(r, outputDir)
  {
    var r := Join(outputDir, ts + ".jpg");
    assert r[|r| - 4..] == (ts + ".jpg")[|ts| + 4 - 4..];
    r
  }

  /** The tokens naming the input: every file for a multi-file script; for a
      single-file one, the first file if there is one, then the output path. */
  function FileTokens(files: seq<string>, info: ScriptInfo, outputDir: string, ts: string): seq<string> {
    if !info.acceptsMultipleFiles then
      (if files != [] then [files[0]] else []) + [SingleOutputPath(outputDir, ts)]
    else files
  }

  /** `build_command(script_path, file_paths, params, script_config, output_dir)` */
  function Command(scriptPath: string, files: seq<string>, params: seq<Param>,
                   info: ScriptInfo, outputDir: string, ts: string): seq<string> {
    ["python", scriptPath] + FileTokens(files, info, outputDir, ts) + ParamsTokens(info.parameters, params)
  }

  /** The layout of the command: interpreter and script first, then the
      input files (all of them, or at most the first followed by one
      ".jpg" path in the output directory), then the parameters. */
  lemma CommandLayout(scriptPath: string, files: seq<string>, params: seq<Param>,
                      info: ScriptInfo, outputDir: string, ts: string)
    ensures var c := Command(scriptPath, files, params, info, outputDir, ts);
            var ft := FileTokens(files, info, outputDir, ts);
            && |c| == 2 + |ft| + |ParamsTokens(info.parameters, params)|
            && c[..2] == ["python", scriptPath]
            && c[2..2 + |ft|] == ft
            && c[2 + |ft|..] == ParamsTokens(info.parameters, params)
            && (info.acceptsMultipleFiles ==> ft == files)
            && (!info.acceptsMultipleFiles ==>
                  var k := if files == [] then 0 else 1;
                  |ft| == k + 1 && ft[..k] == files[..k]
                  && EndsWith(ft[k], ".jpg")
                  && ((ts == [] || ts[0] != '/') ==> StartsWith(ft[k], outputDir)))
  {
    var c := Command(scriptPath, files, params, info, outputDir, ts);
    var ft := FileTokens(files, info, outputDir, ts);
    assert c == ["python", scriptPath] + ft + ParamsTokens(info.parameters, params);
  }

  /** The file part of `build_command`. */
  method InputTokens(files: seq<string>, info: ScriptInfo, outputDir: string, ts: string)
    returns (tokens: seq<string>)
    ensures tokens == FileTokens(files, info, outputDir, ts)
  {
    if !info.acceptsMultipleFiles {
      tokens := [];
      if files != [] {
        tokens := tokens + [files[0]];
      }
      var outputPath := SingleOutputPath(outputDir, ts);
      tokens := tokens + [outputPath];
    } else {
      tokens := files;
    }
  }

  /** `build_command`, with the clock's reading as `ts`. */
  method BuildCommand(scriptPath: string, files: seq<string>, params: seq<Param>,
                      info: ScriptInfo, outputDir: string, ts: string) returns (command: seq<string>)
    ensures command == Command(scriptPath, files, params, info, outputDir, ts)
  {
    var fileTokens := InputTokens(files, info, outputDir, ts);
    command := ["python", scriptPath] + fileTokens;
    ghost var head := command;
    var i := 0;
    while i < |params|
      invariant 0 <= i <= |params|
      invariant command == head + ParamsTokens(info.parameters, params[..i])
    {
      ghost var before := command;
      var name := params[i].name;
      var value := params[i].value;
      var paramDef := DefFor(info.parameters, name);
      if paramDef.Some? && (paramDef.value.kind == "boolean" || paramDef.value.kind == "bool") {
        assert IsFlag(info.parameters, name);
        if Truthy(value) {
          command := command + ["--" + name];
        }
        assert command == before + ParamTokens(info.parameters, params[i]);
      } else {
        assert !IsFlag(info.parameters, name);
        command := command + ["--" + name];
        command := command + [Str(value)];
        assert command == before + ParamTokens(info.parameters, params[i]);
      }
      ParamsTokensNext(info.parameters, params, i, head, before, command);
      i := i + 1;
    }
    assert params[..|params|] == params;
  }

  /** The run's output directory name: the script name lowercased with
      each space turned into "_". */
  function OutputSlug(name: string): (r: string)
    ensures |r| == |name| && ' ' !in r
    ensures forall k :: 0 <= k < |r| ==> !IsUpperAscii(r[k])
    ensures forall k :: 0 <= k < |r| ==> r[k] == if name[k] == ' ' then '_' else LowerChar(name[k])
  {
    ReplaceChar(Lower(name), ' ', '_')
  }

  /** A slug is its own slug. */
  lemma OutputSlugIdempotent(name: string)
    ensures OutputSlug(OutputSlug(name)) == OutputSlug(name)
  {
    var r := OutputSlug(name);
    assert forall k :: 0 <= k < |r| ==> LowerChar(r[k]) == r[k];
  }

  /** The output directory: `<downloads>/<slug>`. */
  function OutputDir(downloads: string, name: string): (r: string)
    ensures EndsWith(r, OutputSlug(name))
    ensures (name == [] || name[0] != '/') ==> StartsWith(r, downloads)
  {
    var slug := OutputSlug(name);
    assert name != [] ==> slug[0] == (if LowerChar(name[0]) == ' ' then '_' else LowerChar(name[0]));
    Join(downloads, slug)
  }
}

=== FILE: script_manager.dfy ===
/** The script catalogue (core/script_manager.py): which files of the
    scripts directory become entries, the defaults an entry takes for the
    attributes a script does not declare, the cached lookups and the search
    filter. Importing a module is not modelled; what the import of each file
    yields is a function parameter. */
module ScriptManager {
  import opened Optional
  import opened Strings
  import opened Sorting

  /** One element of a script's PARAMETERS list: its "name" and "type" keys. */
  datatype ParamDef = ParamDef(name: string, kind: string)

  /** One catalogue entry: the dictionary `load_scripts` builds. */
  datatype ScriptInfo = ScriptInfo(
    name: string,
    filename: string,               // the file name without ".py"
    description: string,
    inputTypes: string,
    parameters: seq<ParamDef>,
    acceptsMultipleFiles: bool)

  /** The module-level attributes an imported script declares. */
  datatype ModuleAttrs = ModuleAttrs(
    name: Option<string>,
    description: Option<string>,
    inputTypes: Option<string>,
    parameters: Option<seq<ParamDef>>,
    acceptsMultipleFiles: Option<bool>)

  /** Importing and executing one script file: its attributes, or the exception. */
  datatype ImportOutcome = ImportFailed(error: string) | Imported(attrs: ModuleAttrs)

  // ---------------------------------------------------------------------
  // Loading
  // ---------------------------------------------------------------------

  /** A directory entry is tried as a script when it ends with ".py", does
      not start with "__" and is not one of the skipped files. */
  predicate Admitted(filename: string, skip: set<string>) {
    EndsWith(filename, ".py") && !StartsWith(filename, "__") && filename !in skip
  }

  /** The entry for an admitted file, every undeclared attribute taking its default. */
  function Entry(filename: string, attrs: ModuleAttrs): (e: ScriptInfo)
    requires EndsWith(filename, ".py")
    ensures e.filename + ".py" == filename
  {
    var stem := filename[..|filename| - 3];
    assert filename == stem + ".py";
    ScriptInfo(attrs.name.GetOr(stem), stem,
               attrs.description.GetOr("No description available."),
               attrs.inputTypes.GetOr(""),
               attrs.parameters.GetOr([]),
               attrs.acceptsMultipleFiles.GetOr(true))
  }

  /** A script that declares nothing is listed under its file name, with
      the fixed description, no input types, no parameters, and accepting
      several files. */
  lemma EntryDefaults(filename: string)
    requires EndsWith(filename, ".py")
    ensures var e := Entry(filename, ModuleAttrs(None, None, None, None, None));
            e.name == e.filename && e.filename + ".py" == filename
            && e.description == "No description available." && e.inputTypes == ""
            && e.parameters == [] && e.acceptsMultipleFiles
  {
  }

  /** Each attribute falls back on its own default: whatever the script
      declares of the others, an attribute it declares is taken as it is,
      and one it leaves out takes the file stem, the fixed description, no
      input types, no parameters, or "accepts several files". */
  lemma EntryFallbacks(filename: string, attrs: ModuleAttrs)
    requires EndsWith(filename, ".py")
    ensures var e := Entry(filename, attrs);
            (attrs.name.None? ==> e.name == e.filename)
            && (attrs.name.Some? ==> e.name == attrs.name.value)
            && (attrs.description.None? ==> e.description == "No description available.")
            && (attrs.description.Some? ==> e.description == attrs.description.value)
            && (attrs.inputTypes.None? ==> e.inputTypes == "")
            && (attrs.inputTypes.Some? ==> e.inputTypes == attrs.inputTypes.value)
            && (attrs.parameters.None? ==> e.parameters == [])
            && (attrs.parameters.Some? ==> e.parameters == attrs.parameters.value)
            && (attrs.acceptsMultipleFiles.None? ==> e.acceptsMultipleFiles)
            && (attrs.acceptsMultipleFiles.Some? ==> e.acceptsMultipleFiles == attrs.acceptsMultipleFiles.value)
  {
  }

  /** The shape of every bundled script: the four required variables
      declared, ACCEPTS_MULTIPLE_FILES not, so the script accepts several
      files. */
  lemma EntryOfBundledScript(filename: string, name: string, description: string,
                             inputTypes: string, parameters: seq<ParamDef>)
    requires EndsWith(filename, ".py")
    ensures Entry(filename, ModuleAttrs(Some(name), Some(description), Some(inputTypes), Some(parameters), None))
            == ScriptInfo(name, filename[..|filename| - 3], description, inputTypes, parameters, true)
  {
  }

  /** What a script declares is taken as it is. */
  lemma EntryDeclared(filename: string, attrs: ModuleAttrs)
    requires EndsWith(filename, ".py")
    requires attrs.name.Some? && attrs.description.Some? && attrs.inputTypes.Some?
    requires attrs.parameters.Some? && attrs.acceptsMultipleFiles.Some?
    ensures Entry(filename, attrs) ==
            ScriptInfo(attrs.name.value, filename[..|filename| - 3], attrs.description.value,
                       attrs.inputTypes.value, attrs.parameters.value,
                       attrs.acceptsMultipleFiles.value)
  {
  }

  /** The entry one directory entry contributes, if any: none when it is not
      admitted or its import raised (the error is only printed). */
  function LoadOne(filename: string, skip: set<string>, importer: string -> ImportOutcome): Option<ScriptInfo>
  {
    if !Admitted(filename, skip) then None
    else match importer(filename)
      case ImportFailed(_) => None
      case Imported(attrs) => Some(Entry(filename, attrs))
  }

  /** The entries of `files`, visited in the order given. */
  function Collect(files: seq<string>, skip: set<string>, importer: string -> ImportOutcome): (r: seq<ScriptInfo>)
    ensures |r| <= |files|
    decreases |files|
  {
    if files == [] then []
    else
      var last := LoadOne(files[|files| - 1], skip, importer);
      Collect(files[..|files| - 1], skip, importer) + (if last.Some? then [last.value] else [])
  }

  /** `load_scripts`: the directory listing is visited in sorted order. A
      missing scripts directory is created empty, so its listing is []. */
  function LoadedScripts(listing: seq<string>, skip: set<string>, importer: string -> ImportOutcome): seq<ScriptInfo>
  {
    Collect(Sort(listing), skip, importer)
  }

  /** The file each entry was loaded from. */
  function Sources(entries: seq<ScriptInfo>): (r: seq<string>)
    ensures |r| == |entries|
    ensures forall i :: 0 <= i < |entries| ==> r[i] == entries[i].filename + ".py"
  {
    seq(|entries|, i requires 0 <= i < |entries| => entries[i].filename + ".py")
  }

  /** Every entry comes from an admitted file of the listing that imported
      without error, and is that file's entry. */
  lemma {:induction false} CollectSound(files: seq<string>, skip: set<string>,
                                        importer: string -> ImportOutcome, e: ScriptInfo)
    requires e in Collect(files, skip, importer)
    ensures exists f :: f in files && Admitted(f, skip) && importer(f).Imported?
                        && e == Entry(f, importer(f).attrs)
    decreases |files|
  {
    var prefix := files[..|files| - 1];
    var last := files[|files| - 1];
    if e in Collect(prefix, skip, importer) {
      CollectSound(prefix, skip, importer, e);
      var f :| f in prefix && Admitted(f, skip) && importer(f).Imported?
               && e == Entry(f, importer(f).attrs);
      assert f in files;
    } else {
      assert LoadOne(last, skip, importer) == Some(e);
    }
  }

  /** Every admitted file of the listing whose import succeeds is loaded. */
  lemma {:induction false} CollectComplete(files: seq<string>, skip: set<string>,
                                           importer: string -> ImportOutcome, f: string)
    requires f in files && Admitted(f, skip) && importer(f).Imported?
    ensures Entry(f, importer(f).attrs) in Collect(files, skip, importer)
    decreases |files|
  {
    var prefix := files[..|files| - 1];
    assert files == prefix + [files[|files| - 1]];
    if f != files[|files| - 1] {
      CollectComplete(prefix, skip, importer, f);
    }
  }

  /** The entries keep the order of the files they come from: loaded from a
      sorted listing, their source files are sorted. */
  lemma {:induction false} CollectKeepsOrder(files: seq<string>, skip: set<string>,
                                             importer: string -> ImportOutcome)
    requires Sorted(files)
    ensures Sorted(Sources(Collect(files, skip, importer)))
    decreases |files|
  {
    if files != [] {
      var prefix := files[..|files| - 1];
      var last := files[|files| - 1];
      assert Sorted(prefix);
      CollectKeepsOrder(prefix, skip, importer);
      var before := Collect(prefix, skip, importer);
      var one := LoadOne(last, skip, importer);
      if one.Some? {
        var all := Collect(files, skip, importer);
        assert all == before + [one.value];
        forall i | 0 <= i < |before| ensures Below(Sources(all)[i], Sources(all)[|before|]) {
          CollectSound(prefix, skip, importer, before[i]);
          var f :| f in prefix && Admitted(f, skip) && importer(f).Imported?
                   && before[i] == Entry(f, importer(f).attrs);
          var k :| 0 <= k < |prefix| && prefix[k] == f;
          assert Below(files[k], files[|files| - 1]);
        }
        assert Sources(all)[..|before|] == Sources(before);
      }
    }
  }

  /** `load_scripts` lists exactly the loadable files, each once per
      occurrence, in sorted file-name order. */
  lemma LoadedScriptsSorted(listing: seq<string>, skip: set<string>, importer: string -> ImportOutcome)
    ensures Sorted(Sources(LoadedScripts(listing, skip, importer)))
  {
    CollectKeepsOrder(Sort(listing), skip, importer);
  }

  /** One step of the loading loop: the next file's entry, if any, is appended. */
  lemma CollectNext(files: seq<string>, i: nat, skip: set<string>, importer: string -> ImportOutcome, scripts: seq<ScriptInfo>)
    requires i < |files| && scripts == Collect(files[..i], skip, importer)
    ensures var one := LoadOne(files[i], skip, importer);
            Collect(files[..i + 1], skip, importer) == scripts + (if one.Some? then [one.value] else [])
  {
    assert files[..i + 1][..i] == files[..i];
  }

  /** The loop of `load_scripts` over the sorted listing. */
  method CollectFiles(files: seq<string>, skip: set<string>, importer: string -> ImportOutcome) returns (scripts: seq<ScriptInfo>)
    ensures scripts == Collect(files, skip, importer)
  {
    scripts := [];
    var i := 0;
    while i < |files|
      invariant 0 <= i <= |files|
      invariant scripts == Collect(files[..i], skip, importer)
    {
      CollectNext(files, i, skip, importer, scripts);
      var one := LoadOne(files[i], skip, importer);
      if one.Some? {
        scripts := scripts + [one.value];
      }
      i := i + 1;
    }
    assert files[..|files|] == files;
  }

  // ---------------------------------------------------------------------
  // Lookups and search
  // ---------------------------------------------------------------------

  /** The index of the first entry whose name is `name`. */
  function FirstNamed(entries: seq<ScriptInfo>, name: string): (r: Option<nat>)
    ensures r.Some? ==> r.value < |entries| && entries[r.value].name == name
                        && forall j :: 0 <= j < r.value ==> entries[j].name != name
    ensures r.None? <==> forall j :: 0 <= j < |entries| ==> entries[j].name != name
  {
    if entries == [] then None
    else if entries[0].name == name then Some(0)
    else match FirstNamed(entries[1..], name)
      case None => None
      case Some(i) => Some(i + 1)
  }

  /** The index of the first entry whose file name is `filename`. */
  function FirstWithFile(entries: seq<ScriptInfo>, filename: string): (r: Option<nat>)
    ensures r.Some? ==> r.value < |entries| && entries[r.value].filename == filename
                        && forall j :: 0 <= j < r.value ==> entries[j].filename != filename
    ensures r.None? <==> forall j :: 0 <= j < |entries| ==> entries[j].filename != filename
  {
    if entries == [] then None
    else if entries[0].filename == filename then Some(0)
    else match FirstWithFile(entries[1..], filename)
      case None => None
      case Some(i) => Some(i + 1)
  }

  /** The query as it is compared: lower-cased, then stripped. */
  function NormalQuery(query: string): string {
    Strip(Lower(query))
  }

  /** An entry matches when the query occurs in its lower-cased name or description. */
  predicate Matches(s: ScriptInfo, q: string) {
    Contains(Lower(s.name), q) || Contains(Lower(s.description), q)
  }

  /** The entries of `scripts` matching `q`, in their order. */
  function Filtered(scripts: seq<ScriptInfo>, q: string): (r: seq<ScriptInfo>)
    ensures |r| <= |scripts|
    decreases |scripts|
  {
    if scripts == [] then []
    else
      var init := scripts[..|scripts| - 1];
      var last := scripts[|scripts| - 1];
      Filtered(init, q) + (if Matches(last, q) then [last] else [])
  }

  /** `filter_scripts`: the input itself for an empty query, otherwise the
      matching entries. */
  function FilterSpec(scripts: seq<ScriptInfo>, query: string): seq<ScriptInfo> {
    if query == "" then scripts else Filtered(scripts, NormalQuery(query))
  }

  /** `a` is `b` with some elements left out, the rest in order. */
  predicate SubsequenceOf(a: seq<ScriptInfo>, b: seq<ScriptInfo>)
    decreases |b|
  {
    a == [] ||
    (b != [] &&
     ((a[|a| - 1] == b[|b| - 1] && SubsequenceOf(a[..|a| - 1], b[..|b| - 1]))
      || SubsequenceOf(a, b[..|b| - 1])))
  }

  /** The filter keeps the input's order: its result is a subsequence of the input. */
  lemma {:induction false} FilteredSubsequence(scripts: seq<ScriptInfo>, q: string)
    ensures SubsequenceOf(Filtered(scripts, q), scripts)
    decreases |scripts|
  {
    if scripts != [] {
      var init := scripts[..|scripts| - 1];
      var last := scripts[|scripts| - 1];
      FilteredSubsequence(init, q);
      var r := Filtered(scripts, q);
      if Matches(last, q) {
        assert r[..|r| - 1] == Filtered(init, q);
      } else {
        assert r == Filtered(init, q) && scripts[..|scripts| - 1] == init;
        assert SubsequenceOf(r, scripts[..|scripts| - 1]);
      }
    }
  }

  /** An entry is in the filter's result exactly when it is in the input and matches. */
  lemma {:induction false} FilteredMembers(scripts: seq<ScriptInfo>, q: string, s: ScriptInfo)
    ensures s in Filtered(scripts, q) <==> s in scripts && Matches(s, q)
    decreases |scripts|
  {
    if scripts != [] {
      FilteredMembers(scripts[..|scripts| - 1], q, s);
      assert scripts == scripts[..|scripts| - 1] + [scripts[|scripts| - 1]];
    }
  }

  lemma {:induction false} FilteredAll(scripts: seq<ScriptInfo>, q: string)
    requires forall i :: 0 <= i < |scripts| ==> Matches(scripts[i], q)
    ensures Filtered(scripts, q) == scripts
    decreases |scripts|
  {
    if scripts != [] {
      FilteredAll(scripts[..|scripts| - 1], q);
      assert scripts == scripts[..|scripts| - 1] + [scripts[|scripts| - 1]];
    }
  }

  /** One step of the filter loop: the next entry is appended when it matches. */
  lemma FilteredNext(scripts: seq<ScriptInfo>, q: string, i: nat, r: seq<ScriptInfo>)
    requires i < |scripts| && r == Filtered(scripts[..i], q)
    ensures Filtered(scripts[..i + 1], q) == r + (if Matches(scripts[i], q) then [scripts[i]] else [])
  {
    assert scripts[..i + 1][..i] == scripts[..i];
  }

  /** The loop of `filter_scripts` over a normalised query: the matching
      entries, in order. */
  method FilterMatching(scripts: seq<ScriptInfo>, q: string) returns (r: seq<ScriptInfo>)
    ensures r == Filtered(scripts, q)
  {
    r := [];
    var i := 0;
    while i < |scripts|
      invariant 0 <= i <= |scripts|
      invariant r == Filtered(scripts[..i], q)
    {
      FilteredNext(scripts, q, i, r);
      if Matches(scripts[i], q) {
        r := r + [scripts[i]];
      }
      i := i + 1;
    }
    assert scripts[..|scripts|] == scripts;
  }

  /** A query of blanks strips to "", which occurs in every name, so it
      keeps the whole list just as the empty query does. */
  lemma BlankQueryKeepsAll(scripts: seq<ScriptInfo>, query: string)
    requires forall i :: 0 <= i < |query| ==> IsSpace(query[i])
    ensures FilterSpec(scripts, query) == scripts
  {
    if query != "" {
      assert forall i :: 0 <= i < |query| ==> IsSpace(Lower(query)[i]);
      StripEmpty(Lower(query));
      forall i | 0 <= i < |scripts| ensures Matches(scripts[i], NormalQuery(query)) {
        assert StartsWith(Lower(scripts[i].name), []);
      }
      FilteredAll(scripts, NormalQuery(query));
    }
  }

  // ---------------------------------------------------------------------
  // The manager object
  // ---------------------------------------------------------------------

  /** `ScriptManager`: the cache of the last load. The directory listing and
      the importer are passed to every operation that may load. */
  class Catalogue {
    var cache: seq<ScriptInfo>
    const skip: set<string>

    constructor(skip: set<string>)
      ensures cache == [] && this.skip == skip
    {
      cache := [];
      this.skip := skip;
    }

    /** `load_scripts` (also `refresh`): the loaded list replaces the cache. */
    method LoadScripts(listing: seq<string>, importer: string -> ImportOutcome) returns (scripts: seq<ScriptInfo>)
      modifies this
      ensures scripts == LoadedScripts(listing, skip, importer)
      ensures cache == scripts
    {
      var files := Sort(listing);
      scripts := CollectFiles(files, skip, importer);
      cache := scripts;
    }

    /** Loads when the cache is empty. */
    method EnsureLoaded(listing: seq<string>, importer: string -> ImportOutcome)
      modifies this
      ensures cache == if old(cache) == [] then LoadedScripts(listing, skip, importer) else old(cache)
    {
      if cache == [] {
        var _ := LoadScripts(listing, importer);
      }
    }

    /** `get_script_by_name`: the first cached entry with that name. */
    method GetScriptByName(name: string, listing: seq<string>, importer: string -> ImportOutcome)
      returns (r: Option<ScriptInfo>)
      modifies this
      ensures cache == if old(cache) == [] then LoadedScripts(listing, skip, importer) else old(cache)
      ensures r.None? <==> FirstNamed(cache, name).None?
      ensures r.Some? ==> r.value == cache[FirstNamed(cache, name).value]
    {
      EnsureLoaded(listing, importer);
      var i := 0;
      while i < |cache|
        invariant 0 <= i <= |cache|
        invariant forall j :: 0 <= j < i ==> cache[j].name != name
      {
        if cache[i].name == name {
          return Some(cache[i]);
        }
        i := i + 1;
      }
      return None;
    }

    /** `get_script_by_filename`: the first cached entry with that file name. */
    method GetScriptByFilename(filename: string, listing: seq<string>, importer: string -> ImportOutcome)
      returns (r: Option<ScriptInfo>)
      modifies this
      ensures cache == if old(cache) == [] then LoadedScripts(listing, skip, importer) else old(cache)
      ensures r.None? <==> FirstWithFile(cache, filename).None?
      ensures r.Some? ==> r.value == cache[FirstWithFile(cache, filename).value]
    {
      EnsureLoaded(listing, importer);
      var i := 0;
      while i < |cache|
        invariant 0 <= i <= |cache|
        invariant forall j :: 0 <= j < i ==> cache[j].filename != filename
      {
        if cache[i].filename == filename {
          return Some(cache[i]);
        }
        i := i + 1;
      }
      return None;
    }

    /** `get_all`: a copy of the cache, loaded first when empty. */
    method GetAll(listing: seq<string>, importer: string -> ImportOutcome) returns (r: seq<ScriptInfo>)
      modifies this
      ensures cache == if old(cache) == [] then LoadedScripts(listing, skip, importer) else old(cache)
      ensures r == cache
    {
      EnsureLoaded(listing, importer);
      r := cache;
    }

    /** `filter_scripts`; it reads no state. */
    method FilterScripts(scripts: seq<ScriptInfo>, query: string) returns (r: seq<ScriptInfo>)
      ensures r == FilterSpec(scripts, query)
      ensures query == "" ==> r == scripts
      ensures forall s :: s in r <==> s in scripts && (query == "" || Matches(s, NormalQuery(query)))
    {
      if query == "" {
        return scripts;
      }
      var q := NormalQuery(query);
      r := FilterMatching(scripts, q);
      forall s ensures s in r <==> s in scripts && Matches(s, q) {
        FilteredMembers(scripts, q, s);
      }
    }
  }
}

=== FILE: script_validation.dfy ===
/** The structural check a script must pass before the toolbox accepts it.
    The source holds it twice, with the same checks in the same order and the
    same messages: `ScriptGenerator._validate_script` (core/llm_generator.py)
    and `ScriptManager.validate_script` (core/script_manager.py). Both are
    this one function. Running the code (`compile` + `exec`) is not modelled;
    its outcome is an input. */
module ScriptValidation {
  import opened Optional
  import opened Strings

  /** What a top-level name is bound to after the script has run. */
  datatype Binding = Text(s: string) | List | Callable | Other

  /** What compiling and running the code in an empty namespace produced. */
  datatype ExecOutcome =
    | SyntaxFailure(detail: string)   // `compile` raised SyntaxError
    | RunFailure(detail: string)      // any other exception while compiling or running
    | Ran(namespace: map<string, Binding>)

  /** The `(is_valid, error_message)` pair. */
  datatype Verdict = Verdict(valid: bool, error: string)

  /** The module-level variables every script declares, in the order they are checked. */
  const RequiredVariables: seq<string> := ["NAME", "DESCRIPTION", "INPUT_TYPES", "PARAMETERS"]

  /** The first name of `required` that is not bound in `ns`. */
  function FirstMissing(ns: map<string, Binding>, required: seq<string>): (r: Option<string>)
    ensures r.None? <==> forall k :: 0 <= k < |required| ==> required[k] in ns
    ensures r.Some? ==> exists k :: 0 <= k < |required| && required[k] == r.value
                          && r.value !in ns && forall j :: 0 <= j < k ==> required[j] in ns
  {
    if required == [] then None
    else if required[0] !in ns then Some(required[0])
    else
      var r := FirstMissing(ns, required[1..]);
      if r.Some? then
        var k :| 0 <= k < |required[1..]| && required[1..][k] == r.value
                 && r.value !in ns && forall j :: 0 <= j < k ==> required[1..][j] in ns;
        assert required[k + 1] == r.value;
        assert forall j :: 0 <= j < k + 1 ==> required[j] in ns by {
          forall j | 0 <= j < k + 1 ensures required[j] in ns {
            if j > 0 { assert required[j] == required[1..][j - 1]; }
          }
        }
        r
      else
        assert forall k :: 1 <= k < |required| ==> required[k] == required[1..][k - 1];
        r
  }

  /** NAME is a string that is not blank. */
  predicate NameIsUsable(ns: map<string, Binding>) {
    "NAME" in ns && ns["NAME"].Text? && Strip(ns["NAME"].s) != ""
  }

  /** Everything the validator requires of a namespace, stated as one condition. */
  predicate WellFormed(ns: map<string, Binding>) {
    (forall k :: 0 <= k < |RequiredVariables| ==> RequiredVariables[k] in ns)
    && NameIsUsable(ns)
    && "PARAMETERS" in ns && ns["PARAMETERS"].List?
    && "main" in ns && ns["main"].Callable?
    && "process_files" in ns && ns["process_files"].Callable?
  }

  /** The validator: an exception while compiling or running is reported
      with its text; otherwise the checks run in a fixed order and the first
      one that fails gives the message. */
  function Validate(outcome: ExecOutcome): (v: Verdict)
    ensures v.valid <==> outcome.Ran? && WellFormed(outcome.namespace)
    ensures v.valid <==> v.error == ""
    ensures outcome.SyntaxFailure? ==> v.error == "Syntax error: " + outcome.detail
    ensures outcome.RunFailure? ==> v.error == "Validation error: " + outcome.detail
  {
    match outcome
    case SyntaxFailure(e) => Verdict(false, "Syntax error: " + e)
    case RunFailure(e) => Verdict(false, "Validation error: " + e)
    case Ran(ns) =>
      match FirstMissing(ns, RequiredVariables)
      case Some(name) => Verdict(false, "Missing required variable: " + name)
      case None =>
        assert RequiredVariables[3] in ns;
        if !NameIsUsable(ns) then Verdict(false, "NAME must be a non-empty string")
        else if !ns["PARAMETERS"].List? then Verdict(false, "PARAMETERS must be a list")
        else if "main" !in ns || !ns["main"].Callable? then
          Verdict(false, "Missing required function: main()")
        else if "process_files" !in ns || !ns["process_files"].Callable? then
          Verdict(false, "Missing required function: process_files()")
        else Verdict(true, "")
  }

  /** A missing variable is reported before anything else is looked at, and
      it is the first missing one in the order NAME, DESCRIPTION,
      INPUT_TYPES, PARAMETERS. */
  lemma MissingVariableFirst(ns: map<string, Binding>, k: nat)
    requires k < |RequiredVariables| && RequiredVariables[k] !in ns
    requires forall j :: 0 <= j < k ==> RequiredVariables[j] in ns
    ensures Validate(Ran(ns)).error == "Missing required variable: " + RequiredVariables[k]
  {
    var m := FirstMissing(ns, RequiredVariables);
    var i :| 0 <= i < |RequiredVariables| && RequiredVariables[i] == m.value
             && m.value !in ns && forall j :: 0 <= j < i ==> RequiredVariables[j] in ns;
    assert i == k;
  }

  /** With every variable present and NAME usable, a bad PARAMETERS value is
      reported before the functions are looked at. */
  lemma ParametersCheckedBeforeFunctions(ns: map<string, Binding>)
    requires forall k :: 0 <= k < |RequiredVariables| ==> RequiredVariables[k] in ns
    requires NameIsUsable(ns) && "PARAMETERS" in ns && !ns["PARAMETERS"].List?
    ensures Validate(Ran(ns)) == Verdict(false, "PARAMETERS must be a list")
  {
  }

  /** With every variable present, a NAME that is not a string, or is blank
      once stripped, is reported before PARAMETERS is looked at. */
  lemma NameCheckedBeforeParameters(ns: map<string, Binding>)
    requires forall k :: 0 <= k < |RequiredVariables| ==> RequiredVariables[k] in ns
    requires !NameIsUsable(ns)
    ensures Validate(Ran(ns)) == Verdict(false, "NAME must be a non-empty string")
  {
  }

  /** With the variables present, NAME usable and PARAMETERS a list, a
      `main` that is missing or not callable is reported before
      `process_files` is looked at. */
  lemma MainCheckedBeforeProcessFiles(ns: map<string, Binding>)
    requires forall k :: 0 <= k < |RequiredVariables| ==> RequiredVariables[k] in ns
    requires NameIsUsable(ns) && "PARAMETERS" in ns && ns["PARAMETERS"].List?
    requires "main" !in ns || !ns["main"].Callable?
    ensures Validate(Ran(ns)) == Verdict(false, "Missing required function: main()")
  {
  }

  /** Every earlier check passing, a `process_files` that is missing or not
      callable is the last reason to reject the script. */
  lemma ProcessFilesCheckedLast(ns: map<string, Binding>)
    requires forall k :: 0 <= k < |RequiredVariables| ==> RequiredVariables[k] in ns
    requires NameIsUsable(ns) && "PARAMETERS" in ns && ns["PARAMETERS"].List?
    requires "main" in ns && ns["main"].Callable?
    requires "process_files" !in ns || !ns["process_files"].Callable?
    ensures Validate(Ran(ns)) == Verdict(false, "Missing required function: process_files()")
  {
  }

  /** The scenario of a complete script: every required name bound the
      conventional way is accepted with an empty message. */
  lemma TemplateScriptAccepted()
    ensures Validate(Ran(map["NAME" := Text("Test"), "DESCRIPTION" := Text("d"),
                             "INPUT_TYPES" := Text("*.png"), "PARAMETERS" := List,
                             "main" := Callable, "process_files" := Callable]))
            == Verdict(true, "")
  {
    var ns := map["NAME" := Text("Test"), "DESCRIPTION" := Text("d"),
                  "INPUT_TYPES" := Text("*.png"), "PARAMETERS" := List,
                  "main" := Callable, "process_files" := Callable];
    assert WellFormed(ns) by {
      assert Strip("Test") == "Test" by { StripTrimmed("Test"); }
      assert forall k :: 0 <= k < |RequiredVariables| ==> RequiredVariables[k] in ns;
    }
    var v := Validate(Ran(ns));
    assert v.valid && v.error == "";
  }
}

=== FILE: sorting.dfy ===
/** Python's ordering of strings (code point by code point, a proper prefix
    first) and `sorted()` over it. */
module Sorting {

  /** `a <= b` for Python strings. */
  predicate Below(a: string, b: string)
    decreases |a|
  {
    a == [] || (b != [] && (a[0] < b[0] || (a[0] == b[0] && Below(a[1..], b[1..]))))
  }

  lemma {:induction false} BelowTotal(a: string, b: string)
    ensures Below(a, b) || Below(b, a)
    decreases |a|
  {
    if a != [] && b != [] && a[0] == b[0] {
      BelowTotal(a[1..], b[1..]);
    }
  }

  lemma {:induction false} BelowReflexive(a: string)
    ensures Below(a, a)
    decreases |a|
  {
    if a != [] { BelowReflexive(a[1..]); }
  }

  lemma {:induction false} BelowTransitive(a: string, b: string, c: string)
    requires Below(a, b) && Below(b, c)
    ensures Below(a, c)
    decreases |a|
  {
    if a != [] && a[0] == b[0] && b[0] == c[0] {
      BelowTransitive(a[1..], b[1..], c[1..]);
    }
  }

  lemma {:induction false} BelowAntisymmetric(a: string, b: string)
    requires Below(a, b) && Below(b, a)
    ensures a == b
    decreases |a|
  {
    if a != [] {
      BelowAntisymmetric(a[1..], b[1..]);
      assert a == [a[0]] + a[1..] && b == [b[0]] + b[1..];
    }
  }

  predicate Sorted(s: seq<string>) {
    forall i, j :: 0 <= i < j < |s| ==> Below(s[i], s[j])
  }

  /** `x` put into the sorted `s` in front of the first element it is below. */
  function Insert(x: string, s: seq<string>): (r: seq<string>)
    requires Sorted(s)
    ensures Sorted(r)
    ensures multiset(r) == multiset(s) + multiset{x}
  {
    if s == [] then [x]
    else if Below(x, s[0]) then
      BelowHeadBelowAll(x, s);
      SortedCons(x, s);
      [x] + s
    else
      var rest := Insert(x, s[1..]);
      assert s == [s[0]] + s[1..];
      BelowTotal(x, s[0]);
      HeadBelowInserted(s, x, rest);
      SortedCons(s[0], rest);
      [s[0]] + rest
  }

  /** A sorted sequence stays sorted behind an element below all of it. */
  lemma SortedCons(h: string, t: seq<string>)
    requires Sorted(t) && forall j :: 0 <= j < |t| ==> Below(h, t[j])
    ensures Sorted([h] + t)
  {
    var r := [h] + t;
    forall i, j | 0 <= i < j < |r| ensures Below(r[i], r[j]) {
      assert r[j] == t[j - 1];
      if i > 0 { assert r[i] == t[i - 1]; }
    }
  }

  /** Below the least element of a sorted sequence is below all of it. */
  lemma BelowHeadBelowAll(x: string, s: seq<string>)
    requires Sorted(s) && s != [] && Below(x, s[0])
    ensures forall j :: 0 <= j < |s| ==> Below(x, s[j])
  {
    forall j | 0 <= j < |s| ensures Below(x, s[j]) {
      if j > 0 { BelowTransitive(x, s[0], s[j]); }
    }
  }

  /** The head of a sorted sequence stays below everything once an element
      above it joins the tail. */
  lemma HeadBelowInserted(s: seq<string>, x: string, rest: seq<string>)
    requires Sorted(s) && s != [] && Below(s[0], x)
    requires multiset(rest) == multiset(s[1..]) + multiset{x}
    ensures forall j :: 0 <= j < |rest| ==> Below(s[0], rest[j])
  {
    forall j | 0 <= j < |rest| ensures Below(s[0], rest[j]) {
      assert rest[j] in multiset(rest);
      if rest[j] != x {
        assert rest[j] in multiset(s[1..]);
        var k :| 0 <= k < |s[1..]| && s[1..][k] == rest[j];
        assert s[k + 1] == rest[j];
      }
    }
  }

  /** `sorted(s)` */
  function Sort(s: seq<string>): (r: seq<string>)
    ensures Sorted(r)
    ensures multiset(r) == multiset(s)
    ensures |r| == |s|
  {
    if s == [] then []
    else
      assert s == [s[0]] + s[1..];
      Insert(s[0], Sort(s[1..]))
  }

  /** A list has one sorted arrangement: any sorted permutation of `s`
      is `Sort(s)`, so the model does not depend on the sorting algorithm. */
  lemma {:induction false} SortedUnique(a: seq<string>, b: seq<string>)
    requires Sorted(a) && Sorted(b) && multiset(a) == multiset(b)
    ensures a == b
    decreases |a|
  {
    assert |a| == |multiset(a)| == |b|;
    if a != [] {
      SameHead(a, b);
      SameTail(a, b);
      SortedUnique(a[1..], b[1..]);
      assert a == [a[0]] + a[1..] && b == [b[0]] + b[1..];
    }
  }

  lemma SameHead(a: seq<string>, b: seq<string>)
    requires Sorted(a) && Sorted(b) && multiset(a) == multiset(b) && a != []
    ensures b != [] && a[0] == b[0]
  {
    assert a[0] in multiset(b);
    assert b[0] in multiset(a);
    var i :| 0 <= i < |b| && b[i] == a[0];
    var j :| 0 <= j < |a| && a[j] == b[0];
    assert Below(b[0], a[0]) by {
      if i > 0 { assert Below(b[0], b[i]); } else { BelowReflexive(a[0]); }
    }
    assert Below(a[0], b[0]) by {
      if j > 0 { assert Below(a[0], a[j]); } else { BelowReflexive(a[0]); }
    }
    BelowAntisymmetric(a[0], b[0]);
  }

  lemma SameTail(a: seq<string>, b: seq<string>)
    requires multiset(a) == multiset(b) && a != [] && b != [] && a[0] == b[0]
    ensures multiset(a[1..]) == multiset(b[1..])
  {
    assert a == [a[0]] + a[1..];
    assert b == [b[0]] + b[1..];
    assert multiset(a) == multiset{a[0]} + multiset(a[1..]);
    assert multiset(b) == multiset{a[0]} + multiset(b[1..]);
    forall y ensures multiset(a[1..])[y] == multiset(b[1..])[y] {
      assert multiset(a)[y] == multiset(b)[y];
    }
  }
}

=== FILE: strings.dfy ===
/** The handful of Python `str` and path operations the toolbox relies on,
    with the semantics of CPython restricted to ASCII (see README). */
module Strings {
  import opened Optional

  /** `c.isspace()` for the ASCII range: space, \t, \n, \v, \f, \r and the
      separators 0x1c-0x1f. Python's regex class `\s` matches the same set. */
  predicate IsSpace(c: char) {
    c == ' ' || c == '\t' || c == '\n' || c == '\r' || c == '\U{0b}' || c == '\U{0c}'
    || ('\U{1c}' <= c <= '\U{1f}')
  }

  predicate IsDigit(c: char) { '0' <= c <= '9' }

  predicate IsLowerAscii(c: char) { 'a' <= c <= 'z' }

  predicate IsUpperAscii(c: char) { 'A' <= c <= 'Z' }

  function LowerChar(c: char): char {
    if IsUpperAscii(c) then (c as int + 32) as char else c
  }

  function UpperChar(c: char): char {
    if IsLowerAscii(c) then (c as int - 32) as char else c
  }

  /** `s.lower()` */
  function Lower(s: string): (r: string)
    ensures |r| == |s|
    ensures forall i :: 0 <= i < |s| ==> r[i] == LowerChar(s[i])
  {
    seq(|s|, i requires 0 <= i < |s| => LowerChar(s[i]))
  }

  /** `s.upper()` */
  function Upper(s: string): (r: string)
    ensures |r| == |s|
    ensures forall i :: 0 <= i < |s| ==> r[i] == UpperChar(s[i])
  {
    seq(|s|, i requires 0 <= i < |s| => UpperChar(s[i]))
  }

  /** `s.replace(a, b)` for a one-character `a` and a one-character `b`. */
  function ReplaceChar(s: string, a: char, b: char): (r: string)
    ensures |r| == |s|
    ensures forall i :: 0 <= i < |s| ==> r[i] == (if s[i] == a then b else s[i])
  {
    seq(|s|, i requires 0 <= i < |s| => if s[i] == a then b else s[i])
  }

  /** `s.replace(a, "")`: every occurrence of `a` removed. */
  function RemoveChar(s: string, a: char): (r: string)
    ensures a !in r
    ensures |r| <= |s|
    ensures forall c :: c in r ==> c in s
  {
    if s == [] then []
    else (if s[0] == a then [] else [s[0]]) + RemoveChar(s[1..], a)
  }

  /** `s.startswith(p)` */
  predicate StartsWith(s: string, p: string) {
    |p| <= |s| && s[..|p|] == p
  }

  /** `s.endswith(p)` */
  predicate EndsWith(s: string, p: string) {
    |p| <= |s| && s[|s| - |p|..] == p
  }

  /** A suffix of a suffix is a suffix. */
  lemma EndsWithTrans(s: string, p: string, q: string)
    requires EndsWith(s, p) && EndsWith(p, q)
    ensures EndsWith(s, q)
  {
    assert s[|s| - |q|..] == s[|s| - |p|..][|p| - |q|..];
  }

  /** `p` occurs in `s` starting at index `j`. */
  predicate OccursAt(s: string, p: string, j: int) {
    0 <= j && j + |p| <= |s| && s[j..j + |p|] == p
  }

  /** Python's `sub in s`; the empty string is in every string. */
  predicate Contains(s: string, sub: string)
    decreases |s|
  {
    StartsWith(s, sub) || (s != [] && Contains(s[1..], sub))
  }

  /** The first index at or after `from` where `p` occurs (`s.find(p, from)`). */
  function FindFrom(s: string, p: string, from: nat): (r: Option<nat>)
    decreases |s| - from
    ensures r.Some? ==> from <= r.value && OccursAt(s, p, r.value)
    ensures r.Some? ==> forall j :: from <= j < r.value ==> !OccursAt(s, p, j)
    ensures r.None? ==> forall j :: from <= j ==> !OccursAt(s, p, j)
  {
    if from + |p| > |s| then None
    else if s[from..from + |p|] == p then Some(from)
    else FindFrom(s, p, from + 1)
  }

  /** An occurrence with none before it, from `from` on, is the one `find` returns. */
  lemma FindFromFirst(s: string, p: string, from: nat, k: nat)
    requires from <= k && OccursAt(s, p, k)
    requires forall j :: from <= j < k ==> !OccursAt(s, p, j)
    ensures FindFrom(s, p, from) == Some(k)
  {
  }

  /** The first index of `c` in `s` (`s.find(c)` when it is not -1). */
  function FindChar(s: string, c: char): (r: Option<nat>)
    ensures r.Some? ==> r.value < |s| && s[r.value] == c && c !in s[..r.value]
    ensures r.None? <==> c !in s
  {
    if s == [] then None
    else if s[0] == c then Some(0)
    else match FindChar(s[1..], c)
      case None => None
      case Some(i) => assert s[..i + 1] == [s[0]] + s[1..][..i]; Some(i + 1)
  }

  /** The last index of `c` in `s` (`s.rfind(c)` when it is not -1). */
  function FindLastChar(s: string, c: char): (r: Option<nat>)
    ensures r.Some? ==> r.value < |s| && s[r.value] == c && c !in s[r.value + 1..]
    ensures r.None? <==> c !in s
  {
    if s == [] then None
    else if s[|s| - 1] == c then Some(|s| - 1)
    else match FindLastChar(s[..|s| - 1], c)
      case None => assert s == s[..|s| - 1] + [s[|s| - 1]]; None
      case Some(i) =>
        DropOfInit(s, i + 1);
        Some(i)
  }

  /** The head and tail of a concatenation whose left part is not empty. */
  lemma AppendTail<T>(a: seq<T>, b: seq<T>)
    requires a != []
    ensures (a + b)[0] == a[0] && (a + b)[1..] == a[1..] + b
  {
  }

  lemma AppendAssoc<T>(a: seq<T>, b: seq<T>, c: seq<T>)
    ensures a + (b + c) == (a + b) + c
  {
  }

  /** A suffix of `s` is the same suffix of `s` without its last element,
      followed by that element. */
  lemma DropOfInit<T>(s: seq<T>, j: nat)
    requires j < |s|
    ensures s[j..] == s[..|s| - 1][j..] + [s[|s| - 1]]
  {
    var a := s[j..];
    var b := s[..|s| - 1][j..] + [s[|s| - 1]];
    assert |a| == |b|;
    forall k | 0 <= k < |a|
      ensures a[k] == b[k]
    {
      if k < |a| - 1 {
        assert b[k] == s[..|s| - 1][j + k];
      }
    }
  }

  /** `s.split(c)` for a one-character separator: the pieces between the
      occurrences of `c`, so there is one more piece than there are `c`s. */
  function SplitOn(s: string, c: char): (parts: seq<string>)
    ensures |parts| >= 1
    ensures forall k :: 0 <= k < |parts| ==> c !in parts[k]
    decreases |s|
  {
    match FindChar(s, c)
    case None => [s]
    case Some(i) => [s[..i]] + SplitOn(s[i + 1..], c)
  }

  /** The text before the first `c` (all of `s` when there is none). */
  function BeforeFirst(s: string, c: char): (r: string)
    ensures StartsWith(s, r) && c !in r
    ensures c in s ==> |r| < |s| && s[|r|] == c
    ensures c !in s ==> r == s
  {
    match FindChar(s, c)
    case None => s
    case Some(i) => s[..i]
  }

  /** The text after the first `c`; only meaningful when `c` occurs in `s`. */
  function AfterFirst(s: string, c: char): (r: string)
    requires c in s
    ensures s == BeforeFirst(s, c) + [c] + r
  {
    var i := FindChar(s, c).value;
    assert s == s[..i] + [c] + s[i + 1..];
    s[i + 1..]
  }

  lemma SplitOnPieces(s: string, c: char)
    ensures SplitOn(s, c)[0] == BeforeFirst(s, c)
    ensures |SplitOn(s, c)| > 1 <==> c in s
    ensures c in s ==> SplitOn(s, c)[1] == BeforeFirst(AfterFirst(s, c), c)
  {
    match FindChar(s, c)
    case None =>
    case Some(i) =>
      SplitOnPieces(s[i + 1..], c);
  }

  /** Leading whitespace removed (`s.lstrip()`). */
  function StripLeft(s: string): (r: string)
    ensures |r| <= |s| && r == s[|s| - |r|..]
    ensures r == [] || !IsSpace(r[0])
    ensures forall i :: 0 <= i < |s| - |r| ==> IsSpace(s[i])
  {
    if s != [] && IsSpace(s[0]) then StripLeft(s[1..]) else s
  }

  /** Trailing whitespace removed (`s.rstrip()`). */
  function StripRight(s: string): (r: string)
    ensures |r| <= |s| && r == s[..|r|]
    ensures r == [] || !IsSpace(r[|r| - 1])
    ensures forall i :: |r| <= i < |s| ==> IsSpace(s[i])
  {
    if s != [] && IsSpace(s[|s| - 1]) then StripRight(s[..|s| - 1]) else s
  }

  /** `s.strip()`: whitespace cut off both ends. */
  function Strip(s: string): (r: string)
    ensures r == [] || (!IsSpace(r[0]) && !IsSpace(r[|r| - 1]))
    ensures |r| <= |s|
  {
    var l := StripLeft(s);
    var r := StripRight(l);
    assert r != [] ==> r[0] == l[0];
    r
  }

  /** `s.strip()` is empty exactly when `s` is all whitespace. */
  lemma StripEmpty(s: string)
    ensures Strip(s) == [] <==> forall i :: 0 <= i < |s| ==> IsSpace(s[i])
  {
    if forall i :: 0 <= i < |s| ==> IsSpace(s[i]) {
      StripLeftSpaces(s);
    }
  }

  /** Text with no leading or trailing whitespace is its own `strip()`. */
  lemma StripTrimmed(s: string)
    requires s == [] || (!IsSpace(s[0]) && !IsSpace(s[|s| - 1]))
    ensures Strip(s) == s
  {
  }

  /** Whitespace in front of or behind `s` does not change `s.strip()`. */
  lemma StripPadded(pre: string, s: string, post: string)
    requires forall i :: 0 <= i < |pre| ==> IsSpace(pre[i])
    requires forall i :: 0 <= i < |post| ==> IsSpace(post[i])
    ensures Strip(pre + s + post) == Strip(s)
  {
    var sp := s + post;
    assert pre + s + post == pre + sp;
    StripLeftPadded(pre, sp);
    assert Strip(pre + sp) == Strip(sp);
    StripTailPadded(s, post);
  }

  /** Whitespace behind `s` does not change `s.strip()`. */
  lemma StripTailPadded(s: string, post: string)
    requires forall i :: 0 <= i < |post| ==> IsSpace(post[i])
    ensures Strip(s + post) == Strip(s)
  {
    if forall i :: 0 <= i < |s| ==> IsSpace(s[i]) {
      StripBlankPadded(s, post);
    } else {
      var k :| 0 <= k < |s| && !IsSpace(s[k]);
      StripLeftSuffix(s, post, k);
      StripRightPadded(StripLeft(s), post);
    }
  }

  /** Whitespace behind whitespace strips to nothing. */
  lemma StripBlankPadded(s: string, post: string)
    requires forall i :: 0 <= i < |s| ==> IsSpace(s[i])
    requires forall i :: 0 <= i < |post| ==> IsSpace(post[i])
    ensures Strip(s + post) == Strip(s) == []
  {
    var sp := s + post;
    StripLeftSpaces(s);
    assert forall i :: 0 <= i < |sp| ==> IsSpace(sp[i]) by {
      assert forall i :: 0 <= i < |s| ==> sp[i] == s[i];
      assert forall i :: |s| <= i < |sp| ==> sp[i] == post[i - |s|];
    }
    StripLeftSpaces(sp);
  }

  lemma {:induction false} StripLeftPadded(pre: string, s: string)
    requires forall i :: 0 <= i < |pre| ==> IsSpace(pre[i])
    ensures StripLeft(pre + s) == StripLeft(s)
    decreases |pre|
  {
    if pre != [] {
      var ps := pre + s;
      assert ps[0] == pre[0];
      assert ps[1..] == pre[1..] + s;
      assert StripLeft(ps) == StripLeft(ps[1..]);
      StripLeftPadded(pre[1..], s);
    } else {
      assert pre + s == s;
    }
  }

  lemma {:induction false} StripLeftSuffix(s: string, post: string, k: nat)
    requires k < |s| && !IsSpace(s[k])
    ensures StripLeft(s + post) == StripLeft(s) + post
    decreases |s|
  {
    var sp := s + post;
    assert sp[0] == s[0];
    if IsSpace(s[0]) {
      assert sp[1..] == s[1..] + post;
      StripLeftSuffix(s[1..], post, k - 1);
    }
  }

  lemma StripLeftSpaces(s: string)
    requires forall i :: 0 <= i < |s| ==> IsSpace(s[i])
    ensures StripLeft(s) == []
  {
  }

  lemma StripRightPadded(s: string, post: string)
    requires forall i :: 0 <= i < |post| ==> IsSpace(post[i])
    ensures StripRight(s + post) == StripRight(s)
    decreases |post|
  {
    if post != [] {
      assert (s + post)[..|s + post| - 1] == s + post[..|post| - 1];
      StripRightPadded(s, post[..|post| - 1]);
    } else {
      assert s + post == s;
    }
  }

  /** Decimal digit character for `d`. */
  function DigitChar(d: nat): char
    requires d < 10
  {
    ('0' as int + d) as char
  }

  /** `str(n)` for a natural number: its decimal digits, no leading zeros. */
  function NatToString(n: nat): (r: string)
    ensures |r| >= 1
    ensures forall k :: 0 <= k < |r| ==> IsDigit(r[k])
    decreases n
  {
    if n < 10 then [DigitChar(n)] else NatToString(n / 10) + [DigitChar(n % 10)]
  }

  /** `int(s)` for a string of decimal digits. */
  function ParseDigits(s: string): nat
    requires forall k :: 0 <= k < |s| ==> IsDigit(s[k])
  {
    if s == [] then 0
    else
      assert IsDigit(s[|s| - 1]);
      ParseDigits(s[..|s| - 1]) * 10 + (s[|s| - 1] as int - '0' as int)
  }

  /** `int(str(n)) == n`: decimal formatting loses nothing. */
  lemma {:induction false} ParseNatToString(n: nat)
    ensures ParseDigits(NatToString(n)) == n
    decreases n
  {
    if n >= 10 {
      var r := NatToString(n);
      assert r[..|r| - 1] == NatToString(n / 10);
      ParseNatToString(n / 10);
    }
  }

  /** Distinct numbers print differently. */
  lemma NatToStringInjective(a: nat, b: nat)
    requires NatToString(a) == NatToString(b)
    ensures a == b
  {
    ParseNatToString(a);
    ParseNatToString(b);
  }

  /** `f"{n:0{width}d}"`: `str(n)` left-padded with zeros to `width`
      characters; longer numbers are not cut. */
  function ZeroPad(n: nat, width: nat): (r: string)
    ensures |r| == if |NatToString(n)| >= width then |NatToString(n)| else width
    ensures EndsWith(r, NatToString(n))
    ensures forall k :: 0 <= k < |r| ==> IsDigit(r[k])
  {
    var d := NatToString(n);
    if |d| >= width then d else seq(width - |d|, _ => '0') + d
  }

  /** Leading zeros do not change the value read. */
  lemma {:induction false} ParseLeadingZeros(z: string, s: string)
    requires forall k :: 0 <= k < |z| ==> z[k] == '0'
    requires forall k :: 0 <= k < |s| ==> IsDigit(s[k])
    ensures forall k :: 0 <= k < |z + s| ==> IsDigit((z + s)[k])
    ensures ParseDigits(z + s) == ParseDigits(s)
    decreases |z| + |s|
  {
    assert forall k :: 0 <= k < |z + s| ==> IsDigit((z + s)[k]) by {
      forall k | 0 <= k < |z + s|
        ensures IsDigit((z + s)[k])
      {
        if k < |z| {
          assert (z + s)[k] == z[k];
        } else {
          assert (z + s)[k] == s[k - |z|];
        }
      }
    }
    if s == [] {
      assert z + s == z;
      if z != [] {
        ParseLeadingZeros(z[..|z| - 1], []);
        assert z[..|z| - 1] + [] == z[..|z| - 1];
      }
    } else {
      var front := s[..|s| - 1];
      ParseLeadingZeros(z, front);
      assert (z + s)[..|z + s| - 1] == z + front;
      assert (z + s)[|z + s| - 1] == s[|s| - 1];
    }
  }

  /** Zero-padded numbers read back as themselves. */
  lemma ParseZeroPad(n: nat, width: nat)
    ensures ParseDigits(ZeroPad(n, width)) == n
  {
    var d := NatToString(n);
    ParseNatToString(n);
    if |d| < width {
      ParseLeadingZeros(seq(width - |d|, _ => '0'), d);
    }
  }

  /** Distinct numbers pad differently. */
  lemma ZeroPadInjective(a: nat, b: nat, width: nat)
    requires ZeroPad(a, width) == ZeroPad(b, width)
    ensures a == b
  {
    ParseZeroPad(a, width);
    ParseZeroPad(b, width);
  }

  /** `os.path.basename(p)`: the text after the last "/". */
  function Basename(p: string): (r: string)
    ensures '/' !in r && EndsWith(p, r)
  {
    match FindLastChar(p, '/')
    case None => p
    case Some(i) => p[i + 1..]
  }

  /** `os.path.join(a, b)`: an absolute `b` replaces `a`. */
  function Join(a: string, b: string): string {
    if b != [] && b[0] == '/' then b
    else if a == [] || a[|a| - 1] == '/' then a + b
    else a + "/" + b
  }

  /** A joined path ends with its second part, and starts with its first
      unless the second is absolute. */
  lemma JoinShape(a: string, b: string)
    ensures EndsWith(Join(a, b), b)
    ensures (b == [] || b[0] != '/') ==> StartsWith(Join(a, b), a)
  {
    var r := Join(a, b);
    if !(b != [] && b[0] == '/') {
      assert r[..|a|] == a;
      assert r[|r| - |b|..] == b;
    }
  }

  /** Length of the leading run of non-whitespace characters. */
  function WordLength(s: string): (n: nat)
    ensures n <= |s|
    ensures forall k :: 0 <= k < n ==> !IsSpace(s[k])
    ensures n < |s| ==> IsSpace(s[n])
  {
    if s == [] || IsSpace(s[0]) then 0 else 1 + WordLength(s[1..])
  }

  /** A maximal run of non-whitespace characters. */
  predicate IsWord(w: string) {
    w != [] && forall k :: 0 <= k < |w| ==> !IsSpace(w[k])
  }

  /** `s.split()` without arguments: the maximal runs of non-whitespace
      characters, in order. */
  function SplitWhitespace(s: string): (words: seq<string>)
    ensures forall i :: 0 <= i < |words| ==> IsWord(words[i])
    decreases |s|
  {
    var t := StripLeft(s);
    if t == [] then []
    else
      var n := WordLength(t);
      LeadingWord(t);
      var rest := SplitWhitespace(t[n..]);
      PrependWord(t[..n], rest);
      [t[..n]] + rest
  }

  /** Text starting with a non-whitespace character starts with a word. */
  lemma LeadingWord(t: string)
    requires t != [] && !IsSpace(t[0])
    ensures 0 < WordLength(t) && IsWord(t[..WordLength(t)])
  {
    var n := WordLength(t);
    assert forall k :: 0 <= k < n ==> t[..n][k] == t[k];
  }

  lemma PrependWord(w: string, rest: seq<string>)
    requires IsWord(w) && forall i :: 0 <= i < |rest| ==> IsWord(rest[i])
    ensures forall i :: 0 <= i < |[w] + rest| ==> IsWord(([w] + rest)[i])
  {
    forall i | 0 <= i < |[w] + rest|
      ensures IsWord(([w] + rest)[i])
    {
      if i > 0 {
        assert ([w] + rest)[i] == rest[i - 1];
      }
    }
  }

  /** `Path(p).suffix`: the final component from its last ".", provided that
      dot is neither the first nor the last character of the component. */
  function PathSuffix(p: string): (r: string)
    ensures r == [] || (r[0] == '.' && EndsWith(Basename(p), r) && '.' !in r[1..])
  {
    var name := Basename(p);
    var k := SuffixStart(name);
    if k < |name| then
      assert name[k..][1..] == name[k + 1..];
      name[k..]
    else
      []
  }

  /** Where the suffix of a final component starts: at its last ".",
      unless that dot is the first or the last character; `|name|` when
      there is no suffix. */
  function SuffixStart(name: string): (k: nat)
    ensures k <= |name|
    ensures k < |name| ==> 0 < k < |name| - 1 && name[k] == '.' && '.' !in name[k + 1..]
  {
    match FindLastChar(name, '.')
    case None => |name|
    case Some(i) => if 0 < i < |name| - 1 then i else |name|
  }

  /** `Path(p).stem`: the final component without its suffix. */
  function PathStem(p: string): (r: string)
    ensures r + PathSuffix(p) == Basename(p)
  {
    var name := Basename(p);
    var k := SuffixStart(name);
    assert name[..k] + name[k..] == name;
    name[..k]
  }

  /** `os.path.splitext(name)[0]` for a name without "/": cut at the last
      "." unless only dots precede it. */
  function SplitExtRoot(name: string): (r: string)
    ensures StartsWith(name, r)
  {
    match FindLastChar(name, '.')
    case None => name
    case Some(i) => if OnlyDots(name[..i]) then name else name[..i]
  }

  /** Every character is ".". */
  predicate OnlyDots(s: string)
    ensures OnlyDots(s) <==> forall k :: 0 <= k < |s| ==> s[k] == '.'
  {
    s == [] || (s[0] == '.' && OnlyDots(s[1..]))
  }
}

=== FILE: version_manager.dfy ===
/** Version history of a script (core/script_version_manager.py): before
    an edit the script is copied to a numbered backup next to a metadata
    file; at most ten versions are kept; versions can be listed and
    restored. The disk of one script is the script's content, its metadata
    file and the backup files of its versions directory. The clock is a
    parameter. */
module ScriptVersions {
  import opened Optional
  import opened Strings

  /** `MAX_VERSIONS` */
  const MaxVersions: nat := 10

  /** The metadata recorded for one version; a key absent from the JSON is None. */
  datatype VersionMeta = VersionMeta(
    timestamp: Option<string>,
    changeDescription: Option<string>,
    editorType: Option<string>,
    backupFile: Option<string>)

  /** `ScriptVersion`: its number, its backup file (a name inside the
      script's versions directory) and its metadata. */
  datatype ScriptVersion = ScriptVersion(number: nat, backupPath: string, meta: VersionMeta) {
    function Timestamp(): string { meta.timestamp.GetOr("") }
    function ChangeDescription(): string { meta.changeDescription.GetOr("No description") }
    function EditorType(): string { meta.editorType.GetOr("unknown") }
  }

  /** The versions.json file: absent, not decodable, or its "versions" map
      (keys are the version numbers). */
  datatype MetadataFile = Missing | Corrupt | Present(versions: map<nat, VersionMeta>)

  /** Everything of one script the manager reads or writes. */
  datatype Disk = Disk(script: Option<string>, metadata: MetadataFile, backups: map<string, string>)

  /** `_load_metadata`: an absent or unreadable file reads as no versions. */
  function LoadedVersions(f: MetadataFile): (vs: map<nat, VersionMeta>)
    ensures !f.Present? ==> vs == map[]
    ensures f.Present? ==> vs == f.versions
  {
    if f.Present? then f.versions else map[]
  }

  /** The properties of a version fall back to "", "No description" and "unknown". */
  lemma VersionDefaults(n: nat, path: string)
    ensures var v := ScriptVersion(n, path, VersionMeta(None, None, None, None));
            v.Timestamp() == "" && v.ChangeDescription() == "No description" && v.EditorType() == "unknown"
  {
  }

  // ---------------------------------------------------------------------
  // Version numbers in order
  // ---------------------------------------------------------------------

  lemma MaxExists(s: set<nat>)
    requires s != {}
    ensures exists m :: m in s && forall x :: x in s ==> x <= m
  {
    var m := MaxWitness(s);
  }

  /** The largest element of a non-empty set, found by taking one out. */
  lemma {:induction false} MaxWitness(s: set<nat>) returns (top: nat)
    requires s != {}
    ensures top in s && forall x :: x in s ==> x <= top
    decreases |s|
  {
    var y :| y in s;
    var rest := s - {y};
    if rest == {} {
      top := y;
      forall x | x in s ensures x <= y {
        assert x !in rest;
      }
    } else {
      var m := MaxWitness(rest);
      top := if y > m then y else m;
      forall x | x in s ensures x <= top {
        if x != y { assert x in rest; }
      }
    }
  }

  /** `max(s)` */
  function MaxOf(s: set<nat>): (m: nat)
    requires s != {}
    ensures m in s && forall x :: x in s ==> x <= m
  {
    MaxExists(s);
    var m :| m in s && forall x :: x in s ==> x <= m;
    m
  }

  /** The elements of a sequence. */
  function Elems(s: seq<nat>): set<nat> {
    set i | 0 <= i < |s| :: s[i]
  }

  /** Strictly decreasing: newest first, no number twice. */
  predicate Descending(s: seq<nat>) {
    forall i, j :: 0 <= i < j < |s| ==> s[i] > s[j]
  }

  lemma ElemsCons(s: seq<nat>)
    requires s != []
    ensures Elems(s) == {s[0]} + Elems(s[1..])
  {
    forall x | x in Elems(s) ensures x in {s[0]} + Elems(s[1..]) {
      var i :| 0 <= i < |s| && s[i] == x;
      if i > 0 { assert s[1..][i - 1] == x; }
    }
  }

  lemma {:induction false} ElemsSize(s: seq<nat>)
    requires Descending(s)
    ensures |Elems(s)| == |s|
  {
    if s != [] {
      ElemsSize(s[1..]);
      ElemsCons(s);
      assert s[0] !in Elems(s[1..]);
    }
  }

  /** The keys of a version map, newest first: `sorted(keys, key=int, reverse=True)`. */
  function KeysDesc(s: set<nat>): (r: seq<nat>)
    ensures |r| == |s| && Elems(r) == s
    ensures Descending(r)
    decreases |s|
  {
    if s == {} then []
    else
      var m := MaxOf(s);
      var rest := KeysDesc(s - {m});
      ConsDescending(m, rest, s);
      [m] + rest
  }

  lemma ConsDescending(m: nat, rest: seq<nat>, s: set<nat>)
    requires m in s && forall x :: x in s ==> x <= m
    requires Elems(rest) == s - {m} && Descending(rest)
    ensures Elems([m] + rest) == s
    ensures Descending([m] + rest)
  {
    var r := [m] + rest;
    forall j | 0 <= j < |rest| ensures rest[j] < m {
      assert rest[j] in Elems(rest);
    }
    forall x | x in s ensures x in Elems(r) {
      if x != m {
        assert x in Elems(rest);
        var i :| 0 <= i < |rest| && rest[i] == x;
        assert r[i + 1] == x;
      } else {
        assert r[0] == x;
      }
    }
    forall x | x in Elems(r) ensures x in s {
      var i :| 0 <= i < |r| && r[i] == x;
      if i > 0 { assert rest[i - 1] == x; assert x in Elems(rest); }
    }
  }

  /** `max(version_numbers) + 1`, with the [0] of an empty history. */
  function NextVersion(vs: map<nat, VersionMeta>): (n: nat)
    ensures n >= 1 && forall k :: k in vs ==> k < n
    ensures vs.Keys == {} ==> n == 1
    ensures vs.Keys != {} ==> n - 1 in vs
  {
    if vs.Keys == {} then 1 else MaxOf(vs.Keys) + 1
  }

  // ---------------------------------------------------------------------
  // Creating a backup
  // ---------------------------------------------------------------------

  /** `f"v{next_version}_{timestamp}.py"` */
  function BackupName(n: nat, ts: string): string {
    "v" + NatToString(n) + "_" + ts + ".py"
  }

  /** A backup file starts with "v", the version number and "_", and is a
      ".py" file. */
  lemma BackupNameShape(n: nat, ts: string)
    ensures StartsWith(BackupName(n, ts), "v" + NatToString(n) + "_") && EndsWith(BackupName(n, ts), ".py")
  {
    var head := "v" + NatToString(n) + "_";
    var r := BackupName(n, ts);
    assert r[..|head|] == head;
    assert r[|r| - 3..] == ".py";
  }

  /** The pruning loop either removes all the given versions with their
      backup files, or stops at the first one with no "backup_file" (the
      KeyError), having removed the files of the ones before it. */
  datatype PruneResult =
    | Pruned(versions: map<nat, VersionMeta>, backups: map<string, string>)
    | KeyMissing(backups: map<string, string>)

  /** The pruning loop over `keys[i..]`. */
  function PruneFrom(keys: seq<nat>, i: nat, vs: map<nat, VersionMeta>, bs: map<string, string>): PruneResult
    requires i <= |keys| && Descending(keys)
    requires forall j :: i <= j < |keys| ==> keys[j] in vs
    decreases |keys| - i
  {
    if i == |keys| then Pruned(vs, bs)
    else match vs[keys[i]].backupFile
      case None => KeyMissing(bs)
      case Some(f) => PruneFrom(keys, i + 1, vs - {keys[i]}, bs - {f})
  }

  /** Pruning succeeds exactly when every pruned version names its backup
      file; it then removes those versions and no other, leaves the rest
      unchanged, and deletes their files (and only files). */
  lemma {:induction false} PruneFromShape(keys: seq<nat>, i: nat, vs: map<nat, VersionMeta>, bs: map<string, string>)
    requires i <= |keys| && Descending(keys)
    requires forall j :: i <= j < |keys| ==> keys[j] in vs
    ensures var r := PruneFrom(keys, i, vs, bs);
            && (r.Pruned? <==> forall j :: i <= j < |keys| ==> vs[keys[j]].backupFile.Some?)
            && (r.Pruned? ==> r.versions.Keys == vs.Keys - Elems(keys[i..]))
            && (r.Pruned? ==> forall k :: k in r.versions ==> r.versions[k] == vs[k])
            && (r.Pruned? ==> forall j :: i <= j < |keys| ==> vs[keys[j]].backupFile.value !in r.backups)
            && r.backups.Keys <= bs.Keys
    decreases |keys| - i
  {
    if i == |keys| {
      assert keys[i..] == [];
    } else {
      match vs[keys[i]].backupFile
      case None =>
      case Some(f) =>
        var vs' := vs - {keys[i]};
        PruneFromShape(keys, i + 1, vs', bs - {f});
        ElemsCons(keys[i..]);
        assert keys[i..][1..] == keys[i + 1..];
        assert forall j :: i < j < |keys| ==> vs'[keys[j]] == vs[keys[j]];
    }
  }

  /** The pruning step of `create_backup` on the versions `vs` (the new one
      included) and the files `bs`: when there are more than MaxVersions,
      the loop runs over all but the newest MaxVersions. */
  function PruneHistory(vs: map<nat, VersionMeta>, bs: map<string, string>): PruneResult {
    var keys := KeysDesc(vs.Keys);
    KeysInMap(vs.Keys, keys);
    if |keys| > MaxVersions then PruneFrom(keys, MaxVersions, vs, bs) else Pruned(vs, bs)
  }

  /** When pruning goes through, at most MaxVersions versions remain, the
      newest ones, each unchanged. */
  lemma PruneHistoryKeepsNewest(vs: map<nat, VersionMeta>, bs: map<string, string>)
    requires PruneHistory(vs, bs).Pruned?
    ensures var kept := PruneHistory(vs, bs).versions;
            && |kept.Keys| == (if |vs.Keys| > MaxVersions then MaxVersions else |vs.Keys|)
            && (forall k :: k in kept ==> k in vs && kept[k] == vs[k])
            && (forall k, j :: k in kept && j in vs && j !in kept ==> j < k)
  {
    var keys := KeysDesc(vs.Keys);
    KeysInMap(vs.Keys, keys);
    if |keys| > MaxVersions {
      PruneFromShape(keys, MaxVersions, vs, bs);
      DescendingCut(keys, MaxVersions);
    }
  }

  /** The result of `create_backup`: the disk afterwards and the version made. */
  datatype BackupOutcome = BackupOutcome(disk: Disk, made: Option<ScriptVersion>)

  /** `create_backup(script_path, change_description, editor_type)` at time `ts`. */
  function CreateBackupSpec(d: Disk, desc: string, editor: string, ts: string): BackupOutcome
  {
    if d.script.None? then BackupOutcome(d, None)
    else
      var vs := LoadedVersions(d.metadata);
      var n := NextVersion(vs);
      var name := BackupName(n, ts);
      var meta := VersionMeta(Some(ts), Some(desc), Some(editor), Some(name));
      var vs1 := vs[n := meta];
      var bs1 := d.backups[name := d.script.value];
      match PruneHistory(vs1, bs1)
      case KeyMissing(bs) => BackupOutcome(Disk(d.script, d.metadata, bs), None)
      case Pruned(vs2, bs2) =>
        BackupOutcome(Disk(d.script, Present(vs2), bs2), Some(ScriptVersion(n, name, meta)))
  }

  /** The pruning loop of `create_backup`, over the versions after the
      newest MaxVersions: each one's backup file is deleted and its entry
      dropped, until one has no "backup_file". */
  method PruneOldest(keys: seq<nat>, vs: map<nat, VersionMeta>, bs: map<string, string>) returns (r: PruneResult)
    requires MaxVersions <= |keys| && Descending(keys)
    requires forall j :: 0 <= j < |keys| ==> keys[j] in vs
    ensures r == PruneFrom(keys, MaxVersions, vs, bs)
  {
    var versions, files := vs, bs;
    var i := MaxVersions;
    while i < |keys|
      invariant MaxVersions <= i <= |keys|
      invariant forall j :: i <= j < |keys| ==> keys[j] in versions
      invariant PruneFrom(keys, i, versions, files) == PruneFrom(keys, MaxVersions, vs, bs)
      decreases |keys| - i
    {
      var oldMeta := versions[keys[i]];
      if oldMeta.backupFile.None? {
        return KeyMissing(files);
      }
      files := files - {oldMeta.backupFile.value};
      versions := versions - {keys[i]};
      i := i + 1;
    }
    r := Pruned(versions, files);
  }

  lemma KeysInMap(s: set<nat>, keys: seq<nat>)
    requires Elems(keys) == s
    ensures forall i :: 0 <= i < |keys| ==> keys[i] in s
  {
    forall i | 0 <= i < |keys| ensures keys[i] in s {
      assert keys[i] in Elems(keys);
    }
  }

  /** Without the script nothing is backed up and nothing changes. */
  lemma BackupNeedsScript(d: Disk, desc: string, editor: string, ts: string)
    requires d.script.None?
    ensures CreateBackupSpec(d, desc, editor, ts) == BackupOutcome(d, None)
  {
  }

  lemma {:induction false} ElemsSplit(s: seq<nat>, k: nat)
    requires k <= |s|
    ensures Elems(s) == Elems(s[..k]) + Elems(s[k..])
  {
    forall x | x in Elems(s) ensures x in Elems(s[..k]) + Elems(s[k..]) {
      var i :| 0 <= i < |s| && s[i] == x;
      if i < k { assert s[..k][i] == x; } else { assert s[k..][i - k] == x; }
    }
  }

  /** Cutting a descending sequence keeps the `cut` largest numbers. */
  lemma DescendingCut(keys: seq<nat>, cut: nat)
    requires Descending(keys) && cut <= |keys|
    ensures Elems(keys) - Elems(keys[cut..]) == Elems(keys[..cut])
    ensures |Elems(keys[..cut])| == cut
    ensures forall a, b :: a in Elems(keys[..cut]) && b in Elems(keys) && b !in Elems(keys[..cut]) ==> b < a
  {
    ElemsSplit(keys, cut);
    ElemsSize(keys[..cut]);
    forall a, b | a in Elems(keys[..cut]) && b in Elems(keys[cut..]) ensures b < a {
      var i :| 0 <= i < cut && keys[..cut][i] == a;
      var j :| 0 <= j < |keys| - cut && keys[cut..][j] == b;
      assert keys[i] > keys[cut + j];
    }
  }

  /** A backup made is numbered one above every earlier version and is
      recorded with its time, description, editor and file. */
  lemma BackupNumbering(d: Disk, desc: string, editor: string, ts: string)
    requires CreateBackupSpec(d, desc, editor, ts).made.Some?
    ensures var o := CreateBackupSpec(d, desc, editor, ts);
            var vs := LoadedVersions(d.metadata);
            var v := o.made.value;
            && d.script.Some?
            && (forall k :: k in vs ==> k < v.number)
            && v.number == NextVersion(vs)
            && v.backupPath == BackupName(v.number, ts)
            && v.meta == VersionMeta(Some(ts), Some(desc), Some(editor), Some(v.backupPath))
            && o.disk.script == d.script
  {
  }

  /** After a backup the history is at most ten versions: the new one and
      the highest-numbered of the earlier ones, each unchanged. */
  lemma BackupKeepsNewest(d: Disk, desc: string, editor: string, ts: string)
    requires CreateBackupSpec(d, desc, editor, ts).made.Some?
    ensures var o := CreateBackupSpec(d, desc, editor, ts);
            var vs := LoadedVersions(d.metadata);
            var v := o.made.value;
            && o.disk.metadata.Present?
            && var kept := o.disk.metadata.versions;
            && |kept.Keys| == (if |vs.Keys| + 1 > MaxVersions then MaxVersions else |vs.Keys| + 1)
            && v.number in kept && kept[v.number] == v.meta
            && (forall k :: k in kept ==> k == v.number || (k in vs && kept[k] == vs[k]))
            && (forall k, j :: k in kept && j in vs && j !in kept ==> j < k)
  {
    var vs := LoadedVersions(d.metadata);
    var n := NextVersion(vs);
    var name := BackupName(n, ts);
    var meta := VersionMeta(Some(ts), Some(desc), Some(editor), Some(name));
    var vs1 := vs[n := meta];
    var bs1 := d.backups[name := d.script.value];
    assert n !in vs;
    assert vs1.Keys == vs.Keys + {n};
    PruneHistoryKeepsNewest(vs1, bs1);
    var kept := PruneHistory(vs1, bs1).versions;
    assert |kept.Keys| > 0;
    var k :| k in kept.Keys;
    assert n in kept by {
      assert k in vs1;
    }
  }
  /** The files afterwards: the new backup added, then the files of the
      pruned versions deleted. With fewer than ten versions before, nothing
      is pruned. */
  lemma BackupWithRoom(d: Disk, desc: string, editor: string, ts: string)
    requires d.script.Some?
    requires |LoadedVersions(d.metadata).Keys| < MaxVersions
    ensures var o := CreateBackupSpec(d, desc, editor, ts);
            var n := NextVersion(LoadedVersions(d.metadata));
            o.made.Some? && o.made.value.number == n
            && o.disk.backups == d.backups[BackupName(n, ts) := d.script.value]
            && o.disk.metadata.versions.Keys == LoadedVersions(d.metadata).Keys + {n}
  {
    var vs := LoadedVersions(d.metadata);
    var n := NextVersion(vs);
    var vs1 := vs[n := VersionMeta(Some(ts), Some(desc), Some(editor), Some(BackupName(n, ts)))];
    assert n !in vs;
    assert |vs1.Keys| == |vs.Keys| + 1 by { assert vs1.Keys == vs.Keys + {n}; }
  }

  // ---------------------------------------------------------------------
  // Listing
  // ---------------------------------------------------------------------

  /** A version is listed when its metadata names a backup file that exists. */
  predicate HasBackup(m: VersionMeta, bs: map<string, string>) {
    m.backupFile.Some? && m.backupFile.value != "" && m.backupFile.value in bs
  }

  /** `v` is the entry `get_versions` builds for its number. */
  predicate Listable(v: ScriptVersion, vs: map<nat, VersionMeta>, bs: map<string, string>) {
    v.number in vs && HasBackup(vs[v.number], bs)
    && v.meta == vs[v.number] && v.backupPath == vs[v.number].backupFile.value
  }

  /** Strictly decreasing version numbers. */
  predicate NewestFirst(r: seq<ScriptVersion>) {
    forall a, b :: 0 <= a < b < |r| ==> r[a].number > r[b].number
  }

  /** The entry `get_versions` makes for version `k`: one when its backup
      exists, none otherwise. */
  function EntryFor(k: nat, vs: map<nat, VersionMeta>, bs: map<string, string>): seq<ScriptVersion>
    requires k in vs
  {
    var m := vs[k];
    if HasBackup(m, bs) then [ScriptVersion(k, m.backupFile.value, m)] else []
  }

  /** The versions with a backup among `keys[..n]`, in the order of `keys`. */
  function ListUpTo(keys: seq<nat>, n: nat, vs: map<nat, VersionMeta>, bs: map<string, string>): seq<ScriptVersion>
    requires n <= |keys| && forall j :: 0 <= j < |keys| ==> keys[j] in vs
  {
    if n == 0 then [] else ListUpTo(keys, n - 1, vs, bs) + EntryFor(keys[n - 1], vs, bs)
  }

  /** The listing loop's step: the entry of the next number follows. */
  lemma ListUpToNext(keys: seq<nat>, i: nat, vs: map<nat, VersionMeta>, bs: map<string, string>, r: seq<ScriptVersion>)
    requires i < |keys| && forall j :: 0 <= j < |keys| ==> keys[j] in vs
    requires r == ListUpTo(keys, i, vs, bs)
    ensures r + EntryFor(keys[i], vs, bs) == ListUpTo(keys, i + 1, vs, bs)
  {
  }

  lemma ElemsSnoc(s: seq<nat>, n: nat)
    requires 0 < n <= |s|
    ensures Elems(s[..n]) == Elems(s[..n - 1]) + {s[n - 1]}
  {
    ElemsSplit(s[..n], n - 1);
    assert s[..n][..n - 1] == s[..n - 1];
    assert s[..n][n - 1..] == [s[n - 1]];
    assert Elems([s[n - 1]]) == {s[n - 1]};
  }

  /** The listing holds exactly the listable versions whose number is among
      `keys[..n]`. */
  lemma {:induction false} ListUpToMembers(keys: seq<nat>, n: nat, vs: map<nat, VersionMeta>, bs: map<string, string>)
    requires n <= |keys| && forall j :: 0 <= j < |keys| ==> keys[j] in vs
    ensures forall v :: v in ListUpTo(keys, n, vs, bs) <==> v.number in Elems(keys[..n]) && Listable(v, vs, bs)
  {
    if n == 0 {
      assert keys[..0] == [];
    } else {
      ListUpToMembers(keys, n - 1, vs, bs);
      ElemsSnoc(keys, n);
    }
  }

  /** Over descending keys the listing is newest first. */
  lemma {:induction false} ListUpToDescending(keys: seq<nat>, n: nat, vs: map<nat, VersionMeta>, bs: map<string, string>)
    requires n <= |keys| && forall j :: 0 <= j < |keys| ==> keys[j] in vs
    requires Descending(keys)
    ensures NewestFirst(ListUpTo(keys, n, vs, bs))
  {
    if n > 0 {
      var front := ListUpTo(keys, n - 1, vs, bs);
      var last := EntryFor(keys[n - 1], vs, bs);
      ListUpToDescending(keys, n - 1, vs, bs);
      ListUpToMembers(keys, n - 1, vs, bs);
      forall a | 0 <= a < |front| ensures front[a].number > keys[n - 1] {
        assert front[a] in front;
        var j :| 0 <= j < n - 1 && keys[..n - 1][j] == front[a].number;
        assert keys[j] == front[a].number;
      }
      var r := front + last;
      forall a, b | 0 <= a < b < |r| ensures r[a].number > r[b].number {
        if b < |front| {
          assert r[a] == front[a] && r[b] == front[b];
        } else {
          assert r[a] == front[a] && r[b] == last[0];
        }
      }
    }
  }

  /** `get_versions`: the versions whose backup file exists, newest first. */
  function ListedVersions(d: Disk): seq<ScriptVersion> {
    var vs := LoadedVersions(d.metadata);
    var keys := KeysDesc(vs.Keys);
    KeysInMap(vs.Keys, keys);
    ListUpTo(keys, |keys|, vs, d.backups)
  }

  /** Every version whose backup exists is listed, nothing else is, and the
      list is newest first. */
  lemma ListedVersionsSpec(d: Disk)
    ensures var r := ListedVersions(d);
            && (forall v :: v in r <==> Listable(v, LoadedVersions(d.metadata), d.backups))
            && NewestFirst(r)
  {
    var vs := LoadedVersions(d.metadata);
    var keys := KeysDesc(vs.Keys);
    KeysInMap(vs.Keys, keys);
    assert keys[..|keys|] == keys;
    assert Elems(keys) == vs.Keys;
    ListUpToMembers(keys, |keys|, vs, d.backups);
    ListUpToDescending(keys, |keys|, vs, d.backups);
  }

  // ---------------------------------------------------------------------
  // Restoring
  // ---------------------------------------------------------------------

  datatype RestoreOutcome = RestoreOutcome(disk: Disk, ok: bool)

  /** `f"Before reverting to v{version.version_number}"` */
  function RevertNote(v: ScriptVersion): string {
    "Before reverting to v" + NatToString(v.number)
  }

  /** `restore_version` as written: the "auto" backup is made first, and
      the version's backup file is read only afterwards. */
  function RestoreAsWritten(d: Disk, v: ScriptVersion, ts: string): RestoreOutcome {
    var after := CreateBackupSpec(d, RevertNote(v), "auto", ts).disk;
    if v.backupPath in after.backups then
      RestoreOutcome(after.(script := Some(after.backups[v.backupPath])), true)
    else RestoreOutcome(after, false)
  }

  lemma {:induction false} LastIsMin(s: seq<nat>, x: nat)
    requires Descending(s) && s != []
    requires x in Elems(s) && forall i :: 0 <= i < |s| ==> x <= s[i]
    ensures s[|s| - 1] == x
  {
    var i :| 0 <= i < |s| && s[i] == x;
    if i < |s| - 1 {
      assert s[i] > s[|s| - 1];
    }
  }

  /** With eleven versions, pruning removes exactly the oldest one and its file. */
  lemma PruneOfElevenDropsOldest(vs1: map<nat, VersionMeta>, bs: map<string, string>, oldest: nat, f: string)
    requires |vs1.Keys| == MaxVersions + 1
    requires oldest in vs1 && vs1[oldest].backupFile == Some(f)
    requires forall k :: k in vs1 ==> oldest <= k
    ensures var keys := KeysDesc(vs1.Keys);
            (forall j :: 0 <= j < |keys| ==> keys[j] in vs1)
            && PruneFrom(keys, MaxVersions, vs1, bs) == Pruned(vs1 - {oldest}, bs - {f})
  {
    var keys := KeysDesc(vs1.Keys);
    KeysInMap(vs1.Keys, keys);
    LastIsMin(keys, oldest);
  }

  /** The defect: with ten versions kept, reverting to the oldest one
      prunes that very version (the "auto" backup is the eleventh) and
      deletes its file before it is read, so the restore fails and the
      version is gone, although it was listed with its backup. */
  lemma RestoringOldestOfFullHistoryFails(d: Disk, v: ScriptVersion, ts: string)
    requires d.script.Some? && d.metadata.Present?
    requires |d.metadata.versions.Keys| == MaxVersions
    requires v in ListedVersions(d)
    requires forall k :: k in d.metadata.versions ==> v.number <= k
    ensures !RestoreAsWritten(d, v, ts).ok
    ensures v.number !in RestoreAsWritten(d, v, ts).disk.metadata.versions
  {
    ListedVersionsSpec(d);
    assert Listable(v, d.metadata.versions, d.backups);
    FullBackupDropsOldest(d, RevertNote(v), "auto", ts, v.number, v.backupPath);
  }

  /** A backup made with ten versions kept prunes the oldest of them, and
      deletes its file. */
  lemma FullBackupDropsOldest(d: Disk, desc: string, editor: string, ts: string, oldest: nat, f: string)
    requires d.script.Some? && d.metadata.Present?
    requires |d.metadata.versions.Keys| == MaxVersions
    requires oldest in d.metadata.versions && d.metadata.versions[oldest].backupFile == Some(f)
    requires forall k :: k in d.metadata.versions ==> oldest <= k
    ensures var o := CreateBackupSpec(d, desc, editor, ts);
            && o.disk.metadata.Present?
            && oldest !in o.disk.metadata.versions
            && f !in o.disk.backups
  {
    var vs := d.metadata.versions;
    var n := NextVersion(vs);
    var name := BackupName(n, ts);
    var meta := VersionMeta(Some(ts), Some(desc), Some(editor), Some(name));
    var vs1 := vs[n := meta];
    var bs1 := d.backups[name := d.script.value];
    assert n !in vs;
    assert vs1.Keys == vs.Keys + {n};
    PruneOfElevenDropsOldest(vs1, bs1, oldest, f);
  }

  /** Restoring, corrected: the version's backup file is read before the
      "auto" backup, whose pruning may delete it. */
  function RestoreSpec(d: Disk, v: ScriptVersion, ts: string): RestoreOutcome {
    var after := CreateBackupSpec(d, RevertNote(v), "auto", ts).disk;
    if v.backupPath in d.backups then
      RestoreOutcome(after.(script := Some(d.backups[v.backupPath])), true)
    else RestoreOutcome(after, false)
  }

  /** Every listed version can be restored: the script then holds the
      content of its backup, and the history records the "auto" backup
      of what the script held before. */
  lemma RestoreListedSucceeds(d: Disk, v: ScriptVersion, ts: string)
    requires v in ListedVersions(d)
    ensures var r := RestoreSpec(d, v, ts);
            && r.ok
            && r.disk.script == Some(d.backups[v.backupPath])
            && r.disk.metadata == CreateBackupSpec(d, RevertNote(v), "auto", ts).disk.metadata
  {
    ListedVersionsSpec(d);
  }

  // ---------------------------------------------------------------------
  // The manager
  // ---------------------------------------------------------------------

  /** `ScriptVersionManager` over the disk of one script. */
  class VersionStore {
    var script: Option<string>
    var metadata: MetadataFile
    var backups: map<string, string>

    constructor(d: Disk)
      ensures State() == d
    {
      script := d.script;
      metadata := d.metadata;
      backups := d.backups;
    }

    function State(): Disk
      reads this
    {
      Disk(script, metadata, backups)
    }

    /** `create_backup`, the pruning loop included. */
    method CreateBackup(desc: string, editor: string, ts: string) returns (made: Option<ScriptVersion>)
      modifies this
      ensures BackupOutcome(State(), made) == CreateBackupSpec(old(State()), desc, editor, ts)
    {
      if script.None? {
        return None;
      }
      var vs := LoadedVersions(metadata);
      var n := NextVersion(vs);
      var name := BackupName(n, ts);
      var meta := VersionMeta(Some(ts), Some(desc), Some(editor), Some(name));
      var bs := backups[name := script.value];
      vs := vs[n := meta];
      var keys := KeysDesc(vs.Keys);
      KeysInMap(vs.Keys, keys);
      var outcome := Pruned(vs, bs);
      if |keys| > MaxVersions {
        outcome := PruneOldest(keys, vs, bs);
      }
      backups := outcome.backups;
      if outcome.KeyMissing? {
        return None;
      }
      metadata := Present(outcome.versions);
      made := Some(ScriptVersion(n, name, meta));
    }

    /** `get_versions`. The source visits the map in its own order and then
        sorts by number; the numbers being distinct, visiting them newest
        first gives the same list. */
    method GetVersions() returns (r: seq<ScriptVersion>)
      ensures r == ListedVersions(State())
    {
      var vs := LoadedVersions(metadata);
      var keys := KeysDesc(vs.Keys);
      KeysInMap(vs.Keys, keys);
      r := [];
      var i := 0;
      while i < |keys|
        invariant 0 <= i <= |keys|
        invariant r == ListUpTo(keys, i, vs, backups)
      {
        var m := vs[keys[i]];
        ListUpToNext(keys, i, vs, backups, r);
        if HasBackup(m, backups) {
          r := r + [ScriptVersion(keys[i], m.backupFile.value, m)];
        }
        i := i + 1;
      }
    }

    /** `restore_version`, corrected: the backup file of the version is read
        before the "auto" backup, whose pruning may delete it. Everything
        else happens as in the source. */
    method RestoreVersion(v: ScriptVersion, ts: string) returns (ok: bool)
      modifies this
      ensures State() == RestoreSpec(old(State()), v, ts).disk
      ensures ok == RestoreSpec(old(State()), v, ts).ok
    {
      var content: Option<string> := None;
      if v.backupPath in backups {
        content := Some(backups[v.backupPath]);
      }
      var _ := CreateBackup(RevertNote(v), "auto", ts);
      if content.Some? {
        script := content;
        ok := true;
      } else {
        ok := false;
      }
    }

    /** `delete_all_versions`: the script's versions directory, metadata
        file included, is removed. */
    method DeleteAllVersions()
      modifies this
      ensures State() == Disk(old(script), Missing, map[])
    {
      metadata := Missing;
      backups := map[];
    }
  }

  /** After the history is deleted nothing is listed and the next backup is
      version 1 again. */
  lemma DeletedHistoryRestarts(s: Option<string>, desc: string, editor: string, ts: string)
    requires s.Some?
    ensures ListedVersions(Disk(s, Missing, map[])) == []
    ensures CreateBackupSpec(Disk(s, Missing, map[]), desc, editor, ts).made.value.number == 1
  {
    var d := Disk(s, Missing, map[]);
    ListedVersionsSpec(d);
  }
}

=== FILE: video_to_images.dfy ===
/** The "Video to Images" script (scripts/video_to_images.py): every video
    that opens is read frame by frame from the start position, and every
    `frame_interval`-th frame read is written as "<video>_<n:06d>.png" into a
    folder of its own. A video is a `Capture`: whether it opens, its frame
    rate and how many reads succeed after the seek; the clock is a parameter
    giving the timestamp taken for each video. */
module VideoToImages {
  import opened Optional
  import opened Strings
  import opened ScriptExecution

  const Name: string := "Video to Images"

  /** The output directory name, the script name lowercased with spaces as "_". */
  const Slug: string := "video_to_images"


  /** `int(x)` on a float: the integer part, rounding toward zero. */
  function Trunc(x: real): (r: int)
    ensures 0.0 <= x ==> 0 <= r && r as real <= x < r as real + 1.0
    ensures x < 0.0 ==> r <= 0 && r as real - 1.0 < x <= r as real
  {
    if x >= 0.0 then x.Floor else -((-x).Floor)
  }

  /** `frame_interval` as written: 1 for an interval of 0, otherwise the
      frames per interval rounded toward zero, which is 0 whenever the
      interval is shorter than one frame. */
  function FrameIntervalAsWritten(fps: real, interval: real): int {
    if interval == 0.0 then 1 else Trunc(fps * interval)
  }

  /** The frame interval with the zero case taken as "every frame". */
  function FrameInterval(fps: real, interval: real): (r: int)
    ensures r != 0
    ensures FrameIntervalAsWritten(fps, interval) != 0 ==> r == FrameIntervalAsWritten(fps, interval)
    ensures 0.0 <= fps * interval < 1.0 ==> r == 1
  {
    var d := FrameIntervalAsWritten(fps, interval);
    if d == 0 then 1 else d
  }

  /** `f"{video_name}_{saved_count:06d}.png"` */
  function FrameFileName(video: string, n: nat): string {
    video + "_" + ZeroPad(n, 6) + ".png"
  }

  /** A frame file is named after its video and is a PNG file. */
  lemma FrameFileNameShape(video: string, n: nat)
    ensures StartsWith(FrameFileName(video, n), video + "_")
    ensures EndsWith(FrameFileName(video, n), ".png")
  {
    var head := video + "_";
    var r := FrameFileName(video, n);
    assert r[..|head|] == head;
    assert r[|r| - 4..] == ".png";
  }

  /** Different counters give different file names. */
  lemma FrameFileNameInjective(video: string, m: nat, n: nat)
    requires FrameFileName(video, m) == FrameFileName(video, n)
    ensures m == n
  {
    var a := video + "_" + ZeroPad(m, 6) + ".png";
    var b := video + "_" + ZeroPad(n, 6) + ".png";
    assert |ZeroPad(m, 6)| == |ZeroPad(n, 6)|;
    assert a[|video| + 1..|a| - 4] == ZeroPad(m, 6);
    assert b[|video| + 1..|b| - 4] == ZeroPad(n, 6);
    ZeroPadInjective(m, n, 6);
  }

  /** The path of the n-th frame written for `video` into `folder`. */
  function FramePaths(folder: string, video: string): nat -> string {
    (n: nat) => Join(folder, FrameFileName(video, n))
  }

  /** Applying FramePaths to one counter. */
  lemma FramePathsAt(folder: string, video: string, n: nat)
    ensures FramePaths(folder, video)(n) == Join(folder, FrameFileName(video, n))
  {
  }

  /** One written frame: the file and the index of the frame read. */
  datatype Shot = Shot(path: string, frame: nat)

  /** Frame k is written: `frame_count % frame_interval == 0`. */
  predicate Saves(k: nat, d: int)
    requires d != 0
  {
    k % d == 0
  }

  /** The frames written when `count` reads succeed: frame k is written
      exactly when k % d == 0, the n-th one written to `path(n)`. */
  function Shots(path: nat -> string, count: nat, d: int): seq<Shot>
    requires d != 0
  {
    if count == 0 then []
    else
      var r := Shots(path, count - 1, d);
      if Saves(count - 1, d) then r + [Shot(path(|r|), count - 1)] else r
  }

  /** The n-th written file is numbered n; the frames written are exactly
      the frames read whose index is a multiple of d, in reading order. */
  lemma {:induction false} ShotsSpec(path: nat -> string, count: nat, d: int)
    requires d != 0
    ensures var r := Shots(path, count, d);
            && |r| <= count
            && (forall n :: 0 <= n < |r| ==> r[n].path == path(n) && r[n].frame < count && r[n].frame % d == 0)
            && (forall n, m :: 0 <= n < m < |r| ==> r[n].frame < r[m].frame)
            && (forall k :: 0 <= k < count && k % d == 0 ==> exists n :: 0 <= n < |r| && r[n].frame == k)
  {
    if count > 0 {
      ShotsSpec(path, count - 1, d);
      var r := Shots(path, count - 1, d);
      if (count - 1) % d == 0 {
        var s := r + [Shot(path(|r|), count - 1)];
        assert s[|r|].frame == count - 1;
        assert forall n :: 0 <= n < |r| ==> s[n] == r[n];
      }
    }
  }

  /** With an interval of one frame every frame read is written, the n-th
      frame as file number n. */
  lemma {:induction false} EveryFrame(path: nat -> string, count: nat)
    ensures var r := Shots(path, count, 1);
            && |r| == count
            && forall n :: 0 <= n < count ==> r[n] == Shot(path(n), n)
  {
    if count > 0 {
      EveryFrame(path, count - 1);
    }
  }

  /** What `cv2.VideoCapture` yields for a path: nothing, or a frame rate
      and the number of frames `read` returns (after the seek to
      `start_time`) before its first failure. */
  datatype Capture = Unopenable | Opened(fps: real, readable: nat)

  /** What processing one video leaves: the folder is made either way. */
  datatype VideoResult = Skipped(folder: string) | Extracted(folder: string, shots: seq<Shot>)

  /** `~/Downloads/<slug>/<stem>_<ts>` */
  function VideoFolder(home: string, video: string, ts: string): string {
    Join(Join(Join(home, "Downloads"), Slug), PathStem(video) + "_" + ts)
  }

  /** The script writes inside the directory the executor prepares for a
      run of a script with this name. */
  lemma InsideRunDirectory(home: string, video: string, ts: string)
    ensures VideoFolder(home, video, ts) == Join(OutputDir(Join(home, "Downloads"), Name), PathStem(video) + "_" + ts)
  {
    assert OutputSlug(Name) == Slug;
  }

  /** One video as written; None when `frame_count % frame_interval` divides
      by zero, which happens on the first frame read. (Python's `%` and
      Dafny's differ for a negative divisor, but are zero together.) */
  function VideoAsWritten(home: string, video: string, ts: string, cap: Capture, interval: real): Option<VideoResult> {
    var folder := VideoFolder(home, video, ts);
    match cap
    case Unopenable => Some(Skipped(folder))
    case Opened(fps, readable) =>
      var d := FrameIntervalAsWritten(fps, interval);
      if d == 0 then (if readable == 0 then Some(Extracted(folder, [])) else None)
      else Some(Extracted(folder, Shots(FramePaths(folder, PathStem(video)), readable, d)))
  }

  /** One video with the corrected interval. */
  function Video(home: string, video: string, ts: string, cap: Capture, interval: real): (r: VideoResult)
    ensures r.folder == VideoFolder(home, video, ts)
    ensures r.Skipped? <==> cap.Unopenable?
  {
    var folder := VideoFolder(home, video, ts);
    match cap
    case Unopenable => Skipped(folder)
    case Opened(fps, readable) =>
      Extracted(folder, Shots(FramePaths(folder, PathStem(video)), readable, FrameInterval(fps, interval)))
  }

  /** At 30 frames per second an interval of 0.02 seconds gives a frame
      interval of 0, and the first frame read raises ZeroDivisionError. */
  lemma ShortIntervalCrashes()
    ensures FrameIntervalAsWritten(30.0, 0.02) == 0
    ensures VideoAsWritten("/home/u", "clip.mp4", "20240101000000", Opened(30.0, 1), 0.02) == None
  {
  }

  /** The correction changes nothing where the code as written completes. */
  lemma CorrectedAgrees(home: string, video: string, ts: string, cap: Capture, interval: real)
    ensures VideoAsWritten(home, video, ts, cap, interval).Some? ==>
              VideoAsWritten(home, video, ts, cap, interval).value == Video(home, video, ts, cap, interval)
  {
  }

  /** An interval shorter than one frame saves every frame, and an interval
      of 0 extracts all frames, as the script's description promises. */
  lemma {:induction false} ShortIntervalSavesEveryFrame(home: string, video: string, ts: string, fps: real, readable: nat, interval: real)
    requires 0.0 <= fps * interval < 1.0 || interval == 0.0
    ensures Video(home, video, ts, Opened(fps, readable), interval).shots
            == Shots(FramePaths(VideoFolder(home, video, ts), PathStem(video)), readable, 1)
    ensures |Video(home, video, ts, Opened(fps, readable), interval).shots| == readable
  {
    EveryFrame(FramePaths(VideoFolder(home, video, ts), PathStem(video)), readable);
  }

  /** The work done for the video at position i of the input. */
  function VideoStep(home: string, interval: real, capture: string -> Capture, stamps: nat -> string): (string, nat) -> VideoResult {
    (video: string, i: nat) => Video(home, video, stamps(i), capture(video), interval)
  }

  /** The results of all videos in order, `step(video, i)` for the video at
      position i; for the script, `step` is VideoStep. */
  function Videos(videos: seq<string>, step: (string, nat) -> VideoResult): seq<VideoResult> {
    if videos == [] then []
    else
      var n := |videos| - 1;
      Videos(videos[..n], step) + [step(videos[n], n)]
  }

  /** One result per video, each processed on its own, so a video that
      cannot be opened is skipped without stopping the others. */
  lemma {:induction false} VideosSpec(videos: seq<string>, step: (string, nat) -> VideoResult)
    ensures var r := Videos(videos, step);
            && |r| == |videos|
            && forall i :: 0 <= i < |r| ==> r[i] == step(videos[i], i)
  {
    if videos != [] {
      var n := |videos| - 1;
      VideosSpec(videos[..n], step);
      assert forall i :: 0 <= i < n ==> videos[..n][i] == videos[i];
    }
  }

  /** One more frame read appends at most the shot of that frame. */
  lemma ShotsNext(path: nat -> string, count: nat, d: int)
    requires d != 0
    ensures Shots(path, count + 1, d)
            == var r := Shots(path, count, d);
               if Saves(count, d) then r + [Shot(path(|r|), count)] else r
  {
  }

  /** The read loop of one video: `frame_count` counts the frames read and
      `saved_count` the frames written. */
  method ExtractFrames(folder: string, video: string, readable: nat, frameInterval: int)
    returns (shots: seq<Shot>, savedCount: nat)
    requires frameInterval != 0
    ensures shots == Shots(FramePaths(folder, video), readable, frameInterval)
    ensures savedCount == |shots|
  {
    shots := [];
    var frameCount := 0;
    savedCount := 0;
    ghost var path := FramePaths(folder, video);
    while frameCount < readable
      invariant 0 <= frameCount <= readable
      invariant shots == Shots(path, frameCount, frameInterval)
      invariant savedCount == |shots|
    {
      if Saves(frameCount, frameInterval) {
        var outputPath := Join(folder, FrameFileName(video, savedCount));
        FramePathsAt(folder, video, savedCount);
        shots := shots + [Shot(outputPath, frameCount)];
        savedCount := savedCount + 1;
      }
      ShotsNext(path, frameCount, frameInterval);
      frameCount := frameCount + 1;
    }
  }

  /** The video loop's step: the next video adds its result. */
  lemma VideosNext(videos: seq<string>, i: nat, step: (string, nat) -> VideoResult, results: seq<VideoResult>, result: VideoResult)
    requires i < |videos| && results == Videos(videos[..i], step) && result == step(videos[i], i)
    ensures results + [result] == Videos(videos[..i + 1], step)
  {
    assert videos[..i + 1][..i] == videos[..i];
  }

  /** The body of the loop over videos. */
  method ProcessVideo(home: string, interval: real, capture: string -> Capture, stamps: nat -> string,
                      video: string, i: nat) returns (result: VideoResult)
    ensures result == VideoStep(home, interval, capture, stamps)(video, i)
  {
    var ts := stamps(i);
    var cap := capture(video);
    var folder := VideoFolder(home, video, ts);
    match cap {
      case Unopenable =>
        result := Skipped(folder);
      case Opened(fps, readable) =>
        var frameInterval := FrameIntervalAsWritten(fps, interval);
        if frameInterval == 0 {
          frameInterval := 1;
        }
        var shots, _ := ExtractFrames(folder, PathStem(video), readable, frameInterval);
        result := Extracted(folder, shots);
    }
    assert result == Video(home, video, ts, cap, interval);
  }

  /** `process_videos`, with the corrected frame interval. */
  method ProcessVideos(home: string, videos: seq<string>, interval: real, capture: string -> Capture,
                       stamps: nat -> string) returns (results: seq<VideoResult>)
    ensures results == Videos(videos, VideoStep(home, interval, capture, stamps))
  {
    ghost var step := VideoStep(home, interval, capture, stamps);
    results := [];
    var i := 0;
    while i < |videos|
      invariant 0 <= i <= |videos|
      invariant results == Videos(videos[..i], step)
    {
      var result := ProcessVideo(home, interval, capture, stamps, videos[i], i);
      VideosNext(videos, i, step, results, result);
      results := results + [result];
      i := i + 1;
    }
    assert videos[..|videos|] == videos;
  }
}
